=== FILE: README.md ===
# eWeLink API client core, modelled in Dafny

This project models the core of ewelinkApiPhp, a PHP client for the
eWeLink (Sonoff) cloud. It covers:

- the hybi-10 frame codec that both real-time clients carry, with the
  client-to-server masking of section 5.3 of RFC 6455;
- the two real-time clients, with their dispatch-URL resolution, the
  `Sec-WebSocket-Accept` check, heartbeat pings and closing;
- the OAuth token lifecycle: obtaining, refreshing, checking, clearing,
  and writing token.json only on change;
- the HTTP client's request decisions: the regional gateway, POST headers,
  how replies are read, and clearing the token on a 401;
- the device queries over the cached catalogue, and the reconciliation
  inside `setDeviceStatus`;
- the helpers for nonces, UUIDs and string sanitising.

The PHP semantics followed are those of PHP 8, although the source
headers declare PHP 7.4 or later. The difference shows where PHP 8
changed behaviour: `0 == 'outlet'` is false (it was true under 7.4), an
array used as an array key under `??` raises a TypeError (7.4 warned and
fell back), and `+` on a non-numeric string raises a TypeError.

Decoded JSON is a `Json` datatype whose objects keep their key order. The
PHP operations the code applies to it are modelled explicitly: `isset`,
`??`, truthiness, `===` and string interpolation.

Everything the code cannot decide for itself is a parameter:

- replies from the network;
- the random mask, nonce and UUID draws;
- the clock;
- `sha1`, `base64_encode`, the request signature, `json_encode` and
  `json_decode`;
- DNS lookups;
- the result of `pcntl_fork`.

Each stateful operation returns its new state, what it sent, and its
result or exception.

Modules, one per file:

| module | file | models |
|---|---|---|
| `Wrappers` | wrappers.dfy | `Option` and `Result` |
| `Json` | json.dfy | decoded values, lookup, `isset`, truthiness, rendering, the operand of `+` |
| `Text` | text.dfy | decimal and hex printing, join and split, `trim`, `is_numeric`, the leading number of a string |
| `Frame` | frame.dfy | `hybi10Encode` and `hybi10Decode` |
| `Handshake` | handshake.dfy | the accept-key check |
| `WsClient` | ws_client.dfy | src/WebSocketClient.php |
| `LegacyWsClient` | ws_legacy.dfy | src/WebSocketsClient.php |
| `Responses` | responses.dfy | the error table and reply interpretation |
| `Token` | token.dfy | src/Token.php |
| `HttpClient` | http_client.dfy | src/HttpClient.php, with the `Devices` constructor and the family read of src/Home.php it runs |
| `Devices` | devices.dfy | the catalogue queries and live reads of src/Devices.php |
| `DeviceStatus` | device_status.dfy | `setDeviceStatus` |
| `Utils` | utils.dfy | src/Utils.php |

## Model

| member | source | states |
|---|---|---|
| Frame.Encode | src/WebSocketClient.php:266-335 | a frame exists exactly when the most significant length byte is at most 127; its size is header plus optional 4-byte key plus payload |
| Frame.EncodeFirstByte | src/WebSocketClient.php:276-289 | byte 0 is the FIN bit plus the opcode of the frame type (129, 136, 137, 138) |
| Frame.EncodeLengthFields | src/WebSocketClient.php:292-311 | the length field is 7-bit, 16-bit or 64-bit by payload size, flagged with the mask bit, and the extended bytes read back as the length |
| Frame.BigEndianRoundTrip | src/WebSocketClient.php:293-297 | the big-endian length bytes read back as the length whenever it fits the width |
| Frame.EncodeFailure | src/WebSocketClient.php:300-303 | encoding fails exactly for payloads of 2^63 bytes or more |
| Frame.EncodeLayout | src/WebSocketClient.php:319-334 | a masked frame carries the key right after the header and then the payload XORed with it; an unmasked frame carries the payload verbatim |
| Frame.MaskInvolution | src/WebSocketClient.php:366-368 | unmasking with the key inverts masking: masking twice restores the data |
| Frame.Decode | src/WebSocketClient.php:344-380 | the decoded payload is never longer than the bytes read; `Frame.RoundTrip` and `Frame.DecodeTruncated` state what it is |
| Frame.RoundTrip | src/WebSocketClient.php:344-380 | decoding an encoded frame returns its payload, masked or not, for every frame type |
| Frame.RoundTripWhenEncodable | src/WebSocketClient.php:266-380 | the same round trip stated for every payload that encodes |
| Frame.DecodeReturnsRest | src/WebSocketClient.php:370-376 | an unmasked frame followed by more bytes decodes to payload plus those bytes, whatever byte 0 holds, since the decoder reads neither the declared length nor byte 0 |
| Frame.DecodeTruncated | src/WebSocketClient.php:344-380 | a frame cut short anywhere after the key decodes to the payload bytes before the cut, since the decoder never checks the declared length |
| Handshake.CheckAccept | src/WebSocketClient.php:113-126 | succeeds exactly when a header line was captured and its trimmed value is truthy and equals base64(sha1(key + GUID)); a missing header fails first |
| Text.Trim | src/WebSocketClient.php:115 | the result is a contiguous slice of the input that neither starts nor ends with a character `trim` strips |
| Handshake.AcceptIgnoresPadding | src/WebSocketClient.php:114-115 | the expected value surrounded by the space and carriage return of the header line is accepted |
| Handshake.TrimPadding | src/WebSocketClient.php:115 | trimming undoes the leading space and trailing carriage return around an already trimmed value |
| WsClient.ResolveWebSocketUrl | src/WebSocketClient.php:46-74 | an unknown region fails before any request; otherwise exactly one bearer GET of the dispatch URL plus "?" is sent through the HTTP client, whose 401 clearing applies, and the call succeeds exactly when that GET succeeds with a truthy reply, domain and port; the endpoint path is /api/ws |
| WsClient.UnauthorizedDispatchClears | src/HttpClient.php:248-255 | a dispatch reply with error 401 fails the resolution and clears the token |
| WsClient.RegionTablesAgree | src/Utils.php:138-143 | the gateway switch, the dispatch table and the configuration check accept the same regions |
| WsClient.ResolvedUrlShape | tests/WebSocketResolveTest.php:59-64 | the URL is wss://host:port/api/ws with the host resolved by DNS |
| WsClient.Connect | src/WebSocketClient.php:82-127 | a failed connect raises with no socket; otherwise the key is base64 of the 16 random bytes, and the call succeeds exactly when the accept check passes |
| WsClient.SeedHeartbeat | src/WebSocketClient.php:144-147 | an unset hbInterval changes nothing; a set one sets the interval to the number `+` reads from it plus 7 and the next ping one interval from now, and raises a TypeError when `+` reads no number |
| WsClient.SeedHeartbeatPrinted | src/WebSocketClient.php:145 | an interval spelled as a decimal string seeds exactly as the integer it denotes |
| WsClient.SeedHeartbeatOperands | src/WebSocketClient.php:145 | a boolean interval counts as 1 or 0, giving 8 or 7 seconds, and an array interval raises |
| Text.LeadingNumberOfDecimal | src/WebSocketClient.php:145 | the number read from the decimal printing of an integer is that integer |
| WsClient.PingFrame | src/WebSocketClient.php:412 | the ping is a masked empty frame whose decoding is empty |
| WsClient.MaybePing | src/WebSocketClient.php:404-416 | a ping is written and rescheduled exactly when it is due on a live socket; otherwise nothing changes |
| WsClient.HeartbeatSchedule | src/WebSocketClient.php:404-416 | after seeding, no ping goes out before one interval has passed, one goes out when it has, and none goes out again at the same instant |
| WsClient.Send | src/WebSocketClient.php:218-228 | without a socket it raises and writes nothing; otherwise the frames `maybePing` writes come first, the client is the one it leaves, and the last frame decodes back to the data (or is empty when the data cannot be encoded) |
| WsClient.Receive | src/WebSocketClient.php:236-244 | without a socket it raises; otherwise it decodes at most 2048 bytes read |
| WsClient.ReceiveWholeFrame | src/WebSocketClient.php:242-243 | a frame of at most 2048 bytes is received as its payload |
| WsClient.ReceiveTruncates | src/WebSocketClient.php:242-243 | a longer frame is received as a proper prefix of its payload, the bytes that fit in the 2048 read |
| WsClient.Close | src/WebSocketClient.php:249-255 | afterwards there is no socket, and nothing else about the client changes |
| WsClient.CloseIdempotent | src/WebSocketClient.php:249-255 | closing twice is closing once, and a closed client refuses to send |
| LegacyWsClient.SwitchMatchesTable | src/WebSocketsClient.php:44-61 | the region switch accepts exactly cn, us, eu and as, with the same dispatch URLs as the newer client's table |
| LegacyWsClient.ResolveWebSocketUrl | src/WebSocketsClient.php:42-78 | the older resolver sends the same dispatch GET and behaves exactly like the newer one |
| LegacyWsClient.Connect | src/WebSocketsClient.php:86-132 | the same connect and accept decisions as the newer client, with the failing check's error passed on |
| LegacyWsClient.Send | src/WebSocketsClient.php:219-233 | without a socket it raises; otherwise it writes one masked text frame that decodes back to the data, with no ping first |
| LegacyWsClient.Receive | src/WebSocketsClient.php:241-251 | without a socket it raises; otherwise it decodes at most 1500 bytes read |
| LegacyWsClient.ReceiveWholeFrame | src/WebSocketsClient.php:246-247 | a frame of at most 1500 bytes is received as its payload |
| LegacyWsClient.ReceiveTruncates | src/WebSocketsClient.php:246-247 | a longer frame is received as a proper prefix of its payload, the bytes that fit in the 1500 read |
| LegacyWsClient.StartHeartbeat | src/WebSocketsClient.php:384-396 | the interval becomes interval + 7 and the fork result is stored as the pid before it is checked; -1 raises, non-zero is the parent, 0 is the child |
| LegacyWsClient.Close | src/WebSocketsClient.php:256-266 | closes the socket and signals a stored truthy pid exactly once, forgetting it |
| LegacyWsClient.CloseTwice | src/WebSocketsClient.php:256-266 | a second close signals nothing |
| LegacyWsClient.FailedForkCloseSignalsAll | src/WebSocketsClient.php:386-391 | after a failed fork, close signals pid -1, which is every process the user may signal |
| LegacyWsClient.StartHeartbeatGuarded | src/WebSocketsClient.php:384-396 | the corrected start: the same interval and outcome, but a failed fork stores no pid |
| LegacyWsClient.GuardedCloseSignalsOnlyChild | src/WebSocketsClient.php:261-263 | with the corrected start, close signals only a real child pid |
| Responses.ErrorMessage | src/HttpClient.php:199 | known integer codes give their message from `Constants::ERROR_CODES`; null and unknown codes give "Unknown error"; an array code has no message, since PHP 8's `??` on an array offset raises a TypeError |
| Responses.Failure | src/HttpClient.php:198-200 | the exception a reply's error code raises: the TypeError exactly when the code is an array, otherwise the "Error code: message" exception; either carries the code |
| Responses.ArrayCodeRaises | src/HttpClient.php:252-255 | a reply whose error is an array fails a POST and a GET with the TypeError rather than an error message |
| Responses.MessageOfPrintedCode | src/HttpClient.php:198-199 | a code and its decimal string look up the same message, as PHP's integer-string array keys do |
| Responses.PostResult | src/HttpClient.php:181-203 | a failed transfer raises; otherwise it succeeds exactly when error is the integer 0, with the data field, and a failure raises what `Responses.Failure` gives for the code |
| Responses.GetResult | src/HttpClient.php:236-258 | a failed transfer raises; otherwise it succeeds exactly when error is unset or the integer 0, returning the whole reply in full-URL mode, and a failure raises what `Responses.Failure` gives for the code |
| Responses.PostStricterThanGet | src/HttpClient.php:248 | every reply POST accepts, GET accepts; a reply without an error field is accepted by GET and refused by POST as "Error : Unknown error" |
| Responses.ClearingRepliesFail | src/HttpClient.php:193-200 | a 401 reply fails both request kinds, with the 401 message |
| Token.Load | src/Token.php:18-35 | the record is the decoded file when it exists and null otherwise, and the HTTP client receives it when truthy |
| Token.LoadAfterWrite | src/Token.php:30-35 | what write-if-changed leaves in token.json loads back as the record written, and the HTTP client receives it when truthy, whenever decoding reads back encoding |
| Token.WriteIfChanged | src/Token.php:156-167 | afterwards the file holds the encoded record; it is written exactly when it did not already hold it, and the HTTP client's copy is refreshed |
| Token.WriteIfChangedIdempotent | src/Token.php:156-167 | a second write-if-changed does nothing |
| Token.Post | src/HttpClient.php:152-203 | a region without a gateway raises "Invalid region" with nothing sent and the state unchanged; otherwise a token POST returns the reply's data exactly when the reply succeeds, fails with the reply's error otherwise, and leaves the state as the HTTP client's reaction does: a 401 clears the token |
| Token.GetToken | src/Token.php:52-64 | an invalid region raises before sending and writes nothing; otherwise it posts the authorization-code body; after a successful reply the record becomes its data and is persisted, and the call then succeeds exactly when that data is an array, raising the return-type TypeError otherwise; on a failed reply only the 401 clearing applies |
| Token.Refresh | src/Token.php:72-95 | without a truthy refresh token it raises and sends nothing; with an invalid region it raises "Invalid region", sends nothing and keeps the state; otherwise it posts the refresh body, and on success persists the merged record |
| Token.MergeRefresh | src/Token.php:85-90 | the refreshed record has exactly four entries, keyed accessToken, refreshToken, atExpiredTime and rtExpiredTime in that order |
| Token.MergeKeepsOmitted | src/Token.php:86-89 | each entry comes from the reply when the reply sets it, and keeps its prior value otherwise |
| Token.MergeIdempotent | src/Token.php:85-90 | merging the same reply again changes nothing |
| Token.MergeFullReply | src/Token.php:85-90 | a reply setting all four entries fixes the record regardless of the prior one |
| Token.CheckAndRefresh | src/Token.php:101-119 | true exactly when the access token is valid, or when only the refresh token is valid and the refresh succeeds; a refresh request is sent exactly when only the refresh token is valid, it is truthy and the region has a gateway; a silent refresh leaves exactly the refresh's state and requests, a successful one the merged record stored and persisted; an exception is the refresh's own |
| Token.ClearToken | src/Token.php:133-139 | with a token file, it empties the file and forgets the record; without one, nothing changes |
| Token.ClearedTokenIsInvalid | src/Token.php:103-105 | after a clear, the check reports no usable token and sends nothing |
| Token.UnauthorizedRefreshInvalidates | src/Token.php:113-115 | a refresh answered with 401 raises, forgets the record, and any later check fails |
| Token.ClearWithoutFileKeepsToken | src/Token.php:135 | without token.json, a clear leaves a valid token valid |
| HttpClient.GatewayUrl | src/HttpClient.php:127-141 | a gateway exists exactly for the regions the configuration check accepts; any other region raises "Invalid region" |
| HttpClient.GatewayTable | tests/HttpClientGatewayTest.php:59-66 | the four gateway URLs are those the gateway test lists |
| HttpClient.PostHeaders | src/HttpClient.php:155-168 | content type, app id and nonce come first, then either the bearer token or the request signature |
| HttpClient.BearerIffToken | src/HttpClient.php:161-168 | the authorization header is a bearer header exactly when token authorization is requested |
| HttpClient.PostRequest | src/HttpClient.php:152-204 | an invalid region raises before sending; otherwise one POST goes to gateway + endpoint with the encoded body, its result is the reply's interpretation, and only a 401 changes the token |
| HttpClient.OnlyUnauthorizedClears | src/HttpClient.php:193-197 | a 401 reply clears the token and fails; every other reply leaves the client as it was |
| HttpClient.TokenPostAgrees | src/HttpClient.php:152-204 | in every region, the token logic's view of a signed POST and the client's agree on the number of requests sent, the token effect, the result and the error; a request sent is signed, not bearer-authorized |
| HttpClient.GetUrl | src/HttpClient.php:217-221 | full-URL mode uses the endpoint itself; otherwise the endpoint goes below the gateway |
| HttpClient.GetRequest | src/HttpClient.php:215-259 | full-URL mode skips the region check; one bearer-authorized GET is sent, and only a 401 changes the token |
| HttpClient.FamilyId | src/Home.php:27-43 | the family read fails exactly when the reply's error is set and loosely non-zero, with the exception the code raises; otherwise it yields currentFamilyId |
| HttpClient.BuildCatalogue | src/Devices.php:25-63 | an invalid region raises before any request; otherwise the family GET is sent first, and a family failure ends construction; a devices.json that decodes to a non-null value is the catalogue; otherwise a falsy family id raises, and a set one sends the device GET for that family, whose reply or failure decides; only a 401 reply changes the client |
| HttpClient.GetDevices | src/HttpClient.php:276-287 | a built catalogue is returned as is; otherwise construction runs exactly when the token check passes, the catalogue is stored only when construction succeeds, and any failure raises with no catalogue |
| HttpClient.CatalogueFromFile | src/Devices.php:28-32 | with devices.json present, construction sends the family GET only and returns the file's catalogue |
| HttpClient.UnauthorizedFamilyBlocksDevices | src/HttpClient.php:248-255 | a 401 answer to the family GET fails construction and clears the token, so the next `getDevices` raises without sending anything |
| HttpClient.InvalidRegionSendsNothing | src/HttpClient.php:127-141 | with a region that has no gateway, getDevices sends no refresh and no GET, leaves the client as it was, and raises: "Invalid region" from construction, from the refresh, or the missing-token error |
| HttpClient.GetDevicesCached | src/HttpClient.php:278 | once built, the catalogue is returned again without consulting the token |
| HttpClient.UnauthorizedBlocksDevices | src/HttpClient.php:193-197 | after a 401 from any POST, the catalogue can no longer be built and nothing is sent |
| Devices.GetDeviceById | src/Devices.php:83-92 | finds nothing exactly when no device has the id; otherwise returns the itemData of the first device that has it |
| Devices.IsMultiChannelIn | src/Devices.php:127-136 | true exactly when the first device with the id that carries isSupportChannelSplit has it loosely equal to 1 |
| Devices.SearchDeviceParamIn | src/Devices.php:145-151 | finds nothing exactly when no device with the id holds the key; otherwise returns the value held by the first such device |
| Devices.SearchFindsFirstHolder | src/Devices.php:148-150 | the value on the first device holding the key is the one found |
| Devices.ParamStringRecoverable | src/Devices.php:175-176 | splitting the joined parameter list on its bar separator gives back the names, when no name contains that separator |
| Devices.Collect | src/Devices.php:194-203 | the result has exactly the requested names, each mapped to the reply's value or null |
| Devices.ShapeLive | src/Devices.php:186-209 | fails exactly when the reply's error is set and loosely non-zero; otherwise one name gives its value, and a list gives an object keyed exactly by the names |
| Devices.GetAllDeviceParamLive | src/Devices.php:227-237 | fails exactly as the live read does; otherwise returns params when set and null when not |
| Devices.OneNameAgrees | src/Devices.php:194-209 | asking for one name alone or as a one-element list gives the same value |
| DeviceStatus.Entries | src/Devices.php:262-264 | a lone assignment becomes a list of one; a list of assignments is kept |
| DeviceStatus.NoteTexts | src/Devices.php:277-311 | one message line per note, in order |
| DeviceStatus.SingleDiff | src/Devices.php:295-314 | aborts exactly at the first parameter the device lacks; otherwise keeps the parameter names, and records no change exactly when nothing differs |
| DeviceStatus.SingleNoChange | src/Devices.php:305-312 | the single-channel diff records no change exactly when every desired value is already live |
| DeviceStatus.SingleFinal | src/Devices.php:305-309 | after the diff each named parameter holds its desired value and every other parameter keeps its live value |
| DeviceStatus.SingleChanged | src/Devices.php:305-310 | the written parameters are exactly the named ones whose live value differs, each with its desired value |
| DeviceStatus.SingleSettled | src/Devices.php:305-312 | diffing the same assignments against the settled parameters finds nothing to change |
| DeviceStatus.MultiDiff | src/Devices.php:267-294 | aborts exactly at the first assignment naming a missing outlet; otherwise keeps the outlet numbers, and once anything changes writes the whole switches list |
| DeviceStatus.MultiNoChange | src/Devices.php:279-286 | the outlet diff records no change exactly when every assignment is already live |
| DeviceStatus.MultiFinal | src/Devices.php:279-283 | after the outlet diff each assigned key of the first matching outlet holds its value and every other field is untouched |
| DeviceStatus.Reconcile | src/Devices.php:256-315 | a single-channel call is the single-channel diff of the live parameters, and a multi-channel call without a switches list changes nothing |
| DeviceStatus.VerifyWrite | src/Devices.php:329-334 | the keys read are a prefix of the written ones, one status GET per key asking for that key alone; a successful check leaves the client as it was, and a failed read may only clear the token |
| DeviceStatus.VerifyWriteDecides | src/Devices.php:329-334 | the read-back finds no mismatch exactly when every written parameter reads back as written; otherwise it reports a real mismatch |
| DeviceStatus.SetDeviceStatus | src/Devices.php:248-337 | an invalid region raises before sending; otherwise the first request is the live status GET; at most one write, only after a successful live read whose diff changed something, sent as the status POST with exactly the diff's parameters and followed by the read-backs; aborted and already-set outcomes write nothing; a successful call leaves the HTTP client as it was, and a failed one may only clear the token |
| DeviceStatus.WriteAndCheck | src/Devices.php:320-336 | one token-authorized POST of the write body to the status endpoint; a failed POST raises its own error with nothing read back and leaves the token as the reply decides (cleared on a 401), and otherwise the read-back decides between the first mismatch and the update report with the diff's notes |
| DeviceStatus.Report | src/Devices.php:253-336 | the text of each outcome (lines 253, 291, 298, 318, 332 and 336); every report but a list of notes names the device |
| DeviceStatus.ReportsDiffer | src/Devices.php:253-336 | a successful update, a failed one and a device without parameters never produce the same text |
| DeviceStatus.QuietDiffNoWrite | src/Devices.php:317-319 | a diff without changes means no write: only the live GET is sent, and the call returns the diff's messages |
| DeviceStatus.ChangedDiffWrites | src/Devices.php:321-327 | a diff with changes means exactly one write of its parameters |
| DeviceStatus.UnknownParameterNoWrite | src/Devices.php:296-299 | single-channel: a parameter the device lacks aborts the call before any write |
| DeviceStatus.SingleWriteIffChanged | src/Devices.php:305-319 | single-channel with known parameters: nothing is written exactly when every value is already live, and the call then returns, per parameter, its numeric-string warning and its "already set" note |
| DeviceStatus.SingleStep | src/Devices.php:301-312 | one assignment adds a change note with the live and the new value exactly when they differ, and otherwise the "already set" note, after its numeric-string warning |
| DeviceStatus.SingleQuietDiff | src/Devices.php:301-312 | when every value is already live, the diff keeps the parameters and gathers exactly the warnings and "already set" notes |
| DeviceStatus.SingleNotes | src/Devices.php:301-312 | with each parameter named once, the diff's notes are a change note for exactly the differing parameters, with their live values, plus the warnings and "already set" notes, in order |
| DeviceStatus.SingleUpdatedReport | src/Devices.php:301-336 | single-channel, each parameter named once: a successful update reports exactly those change notes and messages |
| DeviceStatus.MultiStep | src/Devices.php:274-286 | one outlet assignment adds a change note with the outlet's live and new value exactly when they differ, and otherwise the "already set" note, after its numeric-string warning |
| DeviceStatus.MultiQuietDiff | src/Devices.php:274-286 | when every outlet already holds its values, the list is kept and the diff gathers exactly the warnings and "already set" notes |
| DeviceStatus.MultiNotes | src/Devices.php:274-286 | with each outlet and key named once, the diff's notes are a change note for exactly the differing assignments, with their live values, plus the warnings and "already set" notes, in order |
| DeviceStatus.MultiWriteIffChanged | src/Devices.php:274-319 | multi-channel with known outlets: nothing is written exactly when every outlet already holds its values, and the call then returns exactly the warnings and "already set" notes |
| DeviceStatus.MultiUpdatedReport | src/Devices.php:274-336 | multi-channel, each outlet and key named once: a successful update reports exactly the outlet change notes and messages |
| DeviceStatus.UnauthorizedLiveReadClears | src/HttpClient.php:248-255 | a 401 answer to the live read fails the call, clears the token, and nothing is written |
| DeviceStatus.UnauthorizedWriteClears | src/HttpClient.php:193-200 | a 401 answer to the write fails the call after the live GET and the POST, clears the token, and reads nothing back |
| DeviceStatus.SingleWritesChangedKeys | src/Devices.php:305-327 | single-channel with distinct known parameters and some differing: the one write carries the parameters the diff gathered |
| DeviceStatus.SecondCallWritesNothing | src/Devices.php:248-319 | once the device reports the settled values, the same call again writes nothing |
| DeviceStatus.UnknownOutletNoWrite | src/Devices.php:273-292 | multi-channel: a missing outlet aborts the whole call before any write, whatever came before it |
| DeviceStatus.MultiWritesSwitches | src/Devices.php:283-327 | multi-channel with known outlets and something differing: the one write carries the whole settled switches list |
| DeviceStatus.ReadBackDecides | src/Devices.php:329-336 | after a write, success is reported exactly when every written parameter reads back as written; otherwise the first disagreeing one is reported |
| Utils.GenerateNonce | src/Utils.php:37-44 | eight characters, each from the 62-character alphabet, determined by the draws |
| Utils.GenerateUUID | src/Utils.php:51-60 | 36 characters with dashes at 8, 13, 18 and 23 |
| Utils.UuidFields | src/Utils.php:52-57 | the version group reads back as 0x4000 plus its draw, and the variant group as 0x8000 plus its draw |
| Utils.Sanitize | src/Utils.php:154-156 | the result is no longer than the input and holds only printable characters |
| Utils.SanitizeCounts | src/Utils.php:154-156 | every printable character survives as often as it occurs, and nothing else survives |
| Utils.SanitizeConcat | src/Utils.php:154-156 | sanitising distributes over concatenation |
| Utils.SanitizeIdempotent | src/Utils.php:154-156 | sanitising a sanitised string changes nothing |
| Utils.SanitizeKeepsPrintable | src/Utils.php:154-156 | a fully printable string is returned unchanged |
| Text.HexRoundTrip | src/Utils.php:53 | %0Nx printing reads back as the number whenever it fits N digits |
| Text.DecimalRoundTrip | src/HttpClient.php:200 | the decimal printing of an error code reads back as the code |
| Text.SplitJoin | src/Devices.php:176 | splitting a join on its separator gives back the parts |
| Json.Put | src/Devices.php:307 | an assignment sets its key and leaves every other key's value alone |
| Json.PutKeys | src/Devices.php:309 | an assignment adds exactly its key to the keys present |

## Findings

| source | as written | input that shows it | evidently intended | confidence | as-written member | corrected member |
|---|---|---|---|---|---|---|
| src/WebSocketsClient.php:386-391 | the fork result is stored in `$this->pid` before it is checked for -1, so a later `close()` runs `posix_kill(-1, SIGTERM)` (lines 261-263) | `pcntl_fork()` returns -1; the caller catches the exception and calls `close()` | a failed fork leaves no pid, so `close()` signals nothing | medium, not executed | LegacyWsClient.FailedForkCloseSignalsAll | LegacyWsClient.GuardedCloseSignalsOnlyChild |

`LegacyWsClient.StartHeartbeat` models the code as written.
`LegacyWsClient.StartHeartbeatGuarded` is the corrected start.

## Left out

- The header parsing is not modelled. The `Sec-WebSocket-Accept` regular expression capture is an input to the accept check, and `parse_url` is not modelled: the resolved host, port and path are built directly.
- The handshake request text and the JSON messages of `handshake`, `createHandshakeData`, `createQueryData` and `createUpdateData` are message construction with no decisions.
- `json_encode`, `json_decode`, `sha1`, `base64_encode`, the HMAC signature, `gethostbyname`, `random_int`, `mt_rand`, `random_bytes` and the clock are parameters. Nothing about their behaviour is assumed beyond what each contract states.
- WsClient.SeedHeartbeat: the interval is an exact real. It does not model the rounding of PHP's floats, the switch from integer to float past `PHP_INT_MAX`, an exponent too large for a float, or the warning PHP emits for a string that is numeric only at its start. A JSON float interval cannot arise, because `Json` has no fractional numbers.
- WsClient.MaybePing: reads the clock once, while `maybePing` calls `microtime` twice, once for the due check and once for the new deadline (lines 408 and 414). The model schedules from the first reading, so its deadline can be earlier by the time between the two calls. `microtime` values are reals given as parameters.
- LegacyWsClient.StartHeartbeat: takes the interval as an integer. The older `handshake` that passes the reply's `hbInterval` to it is not modelled, so string, boolean and array intervals are not covered there.
- Numbers with a fraction or an exponent in JSON replies cannot be represented, because `Json` has integers only. Float device parameters, expiry times and error codes are therefore outside the model.
- The heartbeat child's endless `sleep` and ping loop, the fork itself and signal delivery are not modelled: the fork result is an input, and `close` returns the pid it would signal.
- PHP's loose `==` is modelled only where the branches depend on it: `IsLooseOne` for the channel-split flag and `IsLooseNonZero` for the live-read error. Both cover integers, booleans, null, arrays and the canonical spellings `"1"` and `"0"` only. PHP 8 also finds `"01" == 1`, `"1.0" == 1`, `" 1" == 1` and `"00" == 0` true, and the model does not. The outlet match and the value comparisons of `setDeviceStatus` use structural equality, so `"1" == 1` style matches are not modelled there either.
- Token.Less: compares the clock with an expiry of integer, boolean, null or array type. A string expiry compares as never greater, so PHP's numeric-string comparison is not modelled.
- Responses.ErrorMessage: a code given as a string maps to a table entry only in canonical decimal form. Other numeric spellings such as "401.0" are treated as unknown.
- An unknown frame type string is not modelled (it leaves byte 0 unset in the source); the frame type is a four-valued datatype.
- `getDevicesList`, `isOnline`, `getDeviceHistory`, `forceGetData` and `forceUpdateDevice` are left out. They combine the modelled queries with further network calls.
- Devices.SearchDeviceParamIn: models the direct key of `itemData` only. The recursive-iterator fallback over nested arrays is not modelled.
- A `switches` value that is a JSON object rather than a list is treated as absent. Scalar `params` beyond the single-entry wrapping are not modelled.
- `Home`'s other members, the `familyList` and `hasChangedCurrentFamily` fields it stores, and the writes of family.json and devices.json are left out: the family read is modelled only for the current family id and the exception it may raise, and devices.json is an input.
- `Config`, `index.php`, `gateway.php`, `EweLinkApiPhp.php`, the autoloader, the login redirect output and `debugLog` are outside the modelled core.
- Two methods are called but never defined. HttpClient.php (lines 162 and 224) and WebSocketClient.php (line 163) call `getAccessToken` on the Token object, which Token does not define. Token.php (lines 23 and 166) calls `setTokenData` on the HTTP client, which HttpClient does not define. As written, PHP therefore raises an Error in four places:
  - in the Token constructor, whenever token.json holds a truthy record;
  - at the end of every `writeTokenFileIfChanged`, so `getToken` and `refreshToken` raise after persisting;
  - on every bearer-authorized POST and on every GET;
  - in `createHandshakeData`, whose message construction is not modelled.
  Token.Load, Token.WriteIfChanged, Token.GetToken, Token.Refresh, HttpClient.PostHeaders and HttpClient.GetRequest model the evidently intended code. The access token is read as the record's `accessToken` entry, and the client's copy is a state field.
- An accept-key mismatch raises but leaves the socket open, as the code does.
- The multi-channel diff does not reject an unknown key inside an outlet entry; only a missing outlet aborts. The model follows the code.
- When `switches` is missing, the outlet assignments are skipped, as the code does.
- Utils.GenerateNonce: produces 8 characters, as the loop does. The method's documentation comment says otherwise.
- Utils.GenerateUUID: models the `|` of 0x4000 and 0x8000 as addition, which agrees because the draws stay below those bits.
- The `& 0x80`, `& 0x7F` and `^` byte operations are modelled arithmetically on integers 0 to 255.
- Utils.Sanitize: `[[:^print:]]` is modelled as removing everything outside space to tilde, on characters rather than bytes.

=== FILE: device_status.dfy ===
/**
 * `setDeviceStatus`: reconcile desired parameters with the device's live
 * parameters, write only what changed, then read each written key back.
 * Single-channel devices diff a flat parameter map; multi-channel devices
 * diff per-outlet entries of the `switches` list.
 */
module DeviceStatus {
  import opened Wrappers
  import opened Json
  import Text
  import Devices
  import Responses
  import HttpClient
  import Token
  import Utils

  type Fields = seq<(string, Json)>

  /** The key/value pairs `foreach ($v as $key => $value)` visits; list keys print as decimals. */
  function Pairs(v: Json): Fields {
    match v
    case JObj(fs) => fs
    case JArr(xs) => seq(|xs|, i requires 0 <= i < |xs| => (Text.NatToDecimal(i), xs[i]))
    case _ => []
  }

  /** `if (!is_array(reset($params))) $params = [$params];`: a lone entry becomes a list of one. */
  function Entries(params: Json): (r: seq<Json>)
    ensures |r| > 0
    ensures (|Elements(params)| == 0 || !IsArray(Elements(params)[0])) ==> r == [params]
    ensures r == [params] || (r == Elements(params) && IsArray(r[0]))
  {
    var items := Elements(params);
    if |items| > 0 && IsArray(items[0]) then items else [params]
  }

  /** All single-channel assignments, entry after entry. */
  function SingleEdits(entries: seq<Json>): Fields {
    if |entries| == 0 then [] else Pairs(entries[0]) + SingleEdits(entries[1..])
  }

  /** One multi-channel assignment: set `key` of the outlet numbered `outlet`. */
  datatype OutletEdit = OutletEdit(outlet: Json, key: string, value: Json)

  function EntryEdits(outlet: Json, pairs: Fields): (r: seq<OutletEdit>)
    ensures forall i :: 0 <= i < |r| ==> r[i].key != "outlet" && r[i].outlet == outlet
  {
    if |pairs| == 0 then []
    else (if pairs[0].0 == "outlet" then [] else [OutletEdit(outlet, pairs[0].0, pairs[0].1)])
         + EntryEdits(outlet, pairs[1..])
  }

  /** All multi-channel assignments; each entry names its outlet under `outlet`. */
  function OutletEdits(entries: seq<Json>): (r: seq<OutletEdit>)
    ensures forall i :: 0 <= i < |r| ==> r[i].key != "outlet"
  {
    if |entries| == 0 then []
    else EntryEdits(Field(entries[0], "outlet"), Pairs(entries[0])) + OutletEdits(entries[1..])
  }

  /** `is_numeric($value) && is_string($value)` adds a warning. */
  function NumericWarning(key: string, value: Json): seq<Note> {
    if value.JStr? && Text.IsNumeric(value.s) then [NumericString(key)] else []
  }

  /**
   * What the diff notes about one assignment; `outlet` is set for a
   * multi-channel assignment. The text of each note is produced by
   * `NoteText` when the outcome is reported.
   */
  datatype Note =
    | Changed(key: string, outlet: Option<Json>, before: Json, after: Json)
    | Unchanged(key: string, outlet: Option<Json>, value: Json)
    | NumericString(key: string)

  /** The line `setDeviceStatus` prints for a note. */
  function NoteText(deviceId: string, n: Note): string {
    match n
    case Changed(key, None, before, after) =>
      "For device " + deviceId + ", parameter " + key + " has changed from " + Render(before) + " to " + Render(after) + "."
    case Changed(key, Some(outlet), before, after) =>
      "For device " + deviceId + ", parameter " + key + " for outlet " + Render(outlet)
        + " has changed from " + Render(before) + " to " + Render(after) + "."
    case Unchanged(key, None, value) =>
      "Parameter " + key + " is already set to " + Render(value) + " for device " + deviceId + "."
    case Unchanged(key, Some(outlet), value) =>
      "Parameter " + key + " for outlet " + Render(outlet) + " is already set to " + Render(value)
        + " for device " + deviceId + "."
    case NumericString(key) =>
      "Warning: Parameter " + key + " value is numeric but given as a string. You may want to use an integer for device "
        + deviceId + "."
  }

  function NoteTexts(deviceId: string, notes: seq<Note>): (r: seq<string>)
    ensures |r| == |notes| && forall i :: 0 <= i < |notes| ==> r[i] == NoteText(deviceId, notes[i])
  {
    if |notes| == 0 then [] else [NoteText(deviceId, notes[0])] + NoteTexts(deviceId, notes[1..])
  }

  /**
   * What a diff has gathered: the parameters to write, the change
   * descriptions, and the warnings and "already set" notes.
   */
  datatype Diff = Diff(updated: Fields, changes: seq<Note>, messages: seq<Note>)

  const NoDiff: Diff := Diff([], [], [])

  datatype Abort = UnknownParameter(key: string) | UnknownOutlet(outlet: Json)

  /** The first assignment naming a parameter the device does not have sits at `i`. */
  predicate FirstUnknownAt(current: Fields, edits: Fields, i: int) {
    && 0 <= i < |edits|
    && !HasKey(current, edits[i].0)
    && forall j :: 0 <= j < i ==> HasKey(current, edits[j].0)
  }

  /** The change note of setting `key` to `value` over the map `current`: one when the value differs. */
  function ChangeNote(current: Fields, key: string, value: Json): seq<Note> {
    if Lookup(current, key) != value then [Changed(key, None, Lookup(current, key), value)] else []
  }

  /** The messages of that assignment: its numeric-string warning, then an "already set" note when nothing differs. */
  function MessageNote(current: Fields, key: string, value: Json): seq<Note> {
    NumericWarning(key, value) + (if Lookup(current, key) == value then [Unchanged(key, None, value)] else [])
  }

  /** One known single-channel assignment: the updated map and diff. */
  function SingleStep(current: Fields, key: string, value: Json, d: Diff): (r: (Fields, Diff))
    requires HasKey(current, key)
    ensures forall k :: HasKey(r.0, k) <==> HasKey(current, k)
    ensures Lookup(r.0, key) == value
    ensures forall k :: k != key ==> Lookup(r.0, k) == Lookup(current, k)
    ensures Lookup(current, key) == value ==> r.0 == current && r.1.updated == d.updated
    ensures Lookup(current, key) != value ==> r.1.updated == Put(d.updated, key, value)
    ensures r.1.changes == d.changes + ChangeNote(current, key, value)
    ensures r.1.messages == d.messages + MessageNote(current, key, value)
  {
    SameKeys(current, key, value);
    var d1 := d.(messages := d.messages + NumericWarning(key, value));
    var now := Lookup(current, key);
    if now != value then
      (Put(current, key, value),
       d1.(updated := Put(d1.updated, key, value),
           changes := d1.changes + [Changed(key, None, now, value)]))
    else
      (current,
       d1.(messages := d1.messages + [Unchanged(key, None, value)]))
  }

  /**
   * The single-channel diff. `current` is the live parameter map as the
   * loop updates it; the result is the final map and the gathered diff.
   */
  function SingleDiff(current: Fields, edits: Fields, d: Diff): (r: Result<(Fields, Diff), Abort>)
    ensures r.Err? <==> exists i :: FirstUnknownAt(current, edits, i)
    ensures r.Err? ==> exists i :: FirstUnknownAt(current, edits, i) && r.error == UnknownParameter(edits[i].0)
    ensures r.Ok? ==> |r.value.1.changes| >= |d.changes|
    ensures r.Ok? && |r.value.1.changes| == |d.changes| ==> r.value.0 == current && r.value.1.updated == d.updated
    ensures r.Ok? ==> forall k :: HasKey(r.value.0, k) <==> HasKey(current, k)
    decreases |edits|
  {
    if |edits| == 0 then Ok((current, d))
    else if !HasKey(current, edits[0].0) then
      assert FirstUnknownAt(current, edits, 0);
      Err(UnknownParameter(edits[0].0))
    else
      var step := SingleStep(current, edits[0].0, edits[0].1, d);
      FirstUnknownShift(current, step.0, edits);
      var r := SingleDiff(step.0, edits[1..], step.1);
      assert r.Err? ==> exists i :: FirstUnknownAt(current, edits, i) && r.error == UnknownParameter(edits[i].0) by {
        if r.Err? {
          var i :| FirstUnknownAt(step.0, edits[1..], i) && r.error == UnknownParameter(edits[1..][i].0);
          assert FirstUnknownAt(current, edits, i + 1);
        }
      }
      assert (exists i :: FirstUnknownAt(current, edits, i)) ==> r.Err? by {
        if exists i :: FirstUnknownAt(current, edits, i) {
          var i :| FirstUnknownAt(current, edits, i);
          assert FirstUnknownAt(step.0, edits[1..], i - 1);
        }
      }
      r
  }

  /** Writing an existing key keeps the set of keys. */
  lemma SameKeys(current: Fields, key: string, value: Json)
    requires HasKey(current, key)
    ensures forall k :: HasKey(Put(current, key, value), k) <==> HasKey(current, k)
  {
    forall k ensures HasKey(Put(current, key, value), k) <==> HasKey(current, k) {
      PutKeys(current, key, value, k);
    }
  }

  /** After a known first key, the first unknown key of the rest is the first unknown key overall. */
  lemma FirstUnknownShift(current: Fields, next: Fields, edits: Fields)
    requires |edits| > 0 && HasKey(current, edits[0].0)
    requires forall k :: HasKey(next, k) <==> HasKey(current, k)
    ensures forall i :: FirstUnknownAt(next, edits[1..], i) <==> FirstUnknownAt(current, edits, i + 1)
    ensures forall i :: FirstUnknownAt(current, edits, i) ==> i > 0
  {
    assert forall j :: 0 <= j < |edits| - 1 ==> edits[1..][j] == edits[j + 1];
  }

  /** Every desired value already equals the live one. */
  predicate AllSet(current: Fields, edits: Fields) {
    forall i :: 0 <= i < |edits| ==> Lookup(current, edits[i].0) == edits[i].1
  }

  /** No parameter is named twice. */
  predicate DistinctKeys(edits: Fields) {
    forall i, j :: 0 <= i < j < |edits| ==> edits[i].0 != edits[j].0
  }

  predicate Names(edits: Fields, k: string) {
    exists i :: 0 <= i < |edits| && edits[i].0 == k
  }

  /** Nothing changes exactly when every desired value is already in place. */
  lemma {:induction false} SingleNoChange(current: Fields, edits: Fields, d: Diff)
    requires SingleDiff(current, edits, d).Ok?
    ensures |SingleDiff(current, edits, d).value.1.changes| == |d.changes| <==> AllSet(current, edits)
    decreases |edits|
  {
    if |edits| > 0 {
      var step := SingleStep(current, edits[0].0, edits[0].1, d);
      var tail := edits[1..];
      FirstUnknownShift(current, step.0, edits);
      var r := SingleDiff(current, edits, d);
      assert r == SingleDiff(step.0, tail, step.1);
      SingleNoChange(step.0, tail, step.1);
      assert forall j :: 0 <= j < |tail| ==> tail[j] == edits[j + 1];
      if Lookup(current, edits[0].0) == edits[0].1 {
        assert step.0 == current && step.1.changes == d.changes;
        assert AllSet(current, edits) <==> AllSet(current, tail);
      } else {
        assert !AllSet(current, edits);
        assert |r.value.1.changes| > |d.changes|;
      }
    }
  }

  /**
   * With each parameter named once, the final map holds every desired
   * value and leaves the parameters not named as they were.
   */
  lemma SingleFinal(current: Fields, edits: Fields, d: Diff)
    requires SingleDiff(current, edits, d).Ok? && DistinctKeys(edits)
    ensures var final := SingleDiff(current, edits, d).value.0;
      && (forall i :: 0 <= i < |edits| ==> Lookup(final, edits[i].0) == edits[i].1)
      && (forall k :: !Names(edits, k) ==> Lookup(final, k) == Lookup(current, k))
  {
    SingleFinalValues(current, edits, d);
    SingleFinalOthers(current, edits, d);
  }

  /** A parameter no assignment names keeps its live value. */
  lemma {:induction false} SingleFinalOthers(current: Fields, edits: Fields, d: Diff)
    requires SingleDiff(current, edits, d).Ok?
    ensures forall k :: !Names(edits, k) ==> Lookup(SingleDiff(current, edits, d).value.0, k) == Lookup(current, k)
    decreases |edits|
  {
    if |edits| > 0 {
      var step := SingleStep(current, edits[0].0, edits[0].1, d);
      FirstUnknownShift(current, step.0, edits);
      var tail := edits[1..];
      SingleFinalOthers(step.0, tail, step.1);
      forall k | !Names(edits, k)
        ensures Lookup(SingleDiff(current, edits, d).value.0, k) == Lookup(current, k)
      {
        assert !Names(tail, k);
        assert k != edits[0].0;
      }
    }
  }

  /** With each parameter named once, every named parameter ends at its desired value. */
  lemma {:induction false} SingleFinalValues(current: Fields, edits: Fields, d: Diff)
    requires SingleDiff(current, edits, d).Ok? && DistinctKeys(edits)
    ensures forall i :: 0 <= i < |edits| ==> Lookup(SingleDiff(current, edits, d).value.0, edits[i].0) == edits[i].1
    decreases |edits|
  {
    if |edits| > 0 {
      var step := SingleStep(current, edits[0].0, edits[0].1, d);
      FirstUnknownShift(current, step.0, edits);
      var tail := edits[1..];
      assert DistinctKeys(tail) by {
        forall i, j | 0 <= i < j < |tail|
          ensures tail[i].0 != tail[j].0
        {
          assert tail[i] == edits[i + 1] && tail[j] == edits[j + 1];
        }
      }
      SingleFinalValues(step.0, tail, step.1);
      SingleFinalOthers(step.0, tail, step.1);
      var final := SingleDiff(current, edits, d).value.0;
      assert final == SingleDiff(step.0, tail, step.1).value.0;
      forall i | 0 <= i < |edits|
        ensures Lookup(final, edits[i].0) == edits[i].1
      {
        if i == 0 {
          assert !Names(tail, edits[0].0);
        } else {
          assert edits[i] == tail[i - 1];
        }
      }
    }
  }

  /**
   * One step of the single-channel diff: the rest of the run starts from
   * the stepped map and diff and, keys being distinct, sees the same live
   * values for its own keys.
   */
  lemma SingleUnfold(current: Fields, edits: Fields, d: Diff)
    requires |edits| > 0 && SingleDiff(current, edits, d).Ok? && DistinctKeys(edits)
    ensures HasKey(current, edits[0].0)
    ensures var step := SingleStep(current, edits[0].0, edits[0].1, d);
      && SingleDiff(current, edits, d) == SingleDiff(step.0, edits[1..], step.1)
      && SingleDiff(step.0, edits[1..], step.1).Ok?
      && DistinctKeys(edits[1..])
      && !Names(edits[1..], edits[0].0)
      && (forall j :: 0 <= j < |edits| - 1 ==>
            edits[1..][j] == edits[j + 1] && Lookup(step.0, edits[j + 1].0) == Lookup(current, edits[j + 1].0))
  {
    assert !FirstUnknownAt(current, edits, 0);
    assert forall j :: 0 <= j < |edits| - 1 ==> edits[1..][j] == edits[j + 1];
  }

  /** With each parameter named once, every differing parameter is written with its desired value. */
  lemma {:induction false} SingleUpdatedValues(current: Fields, edits: Fields, d: Diff)
    requires SingleDiff(current, edits, d).Ok? && DistinctKeys(edits)
    ensures var updated := SingleDiff(current, edits, d).value.1.updated;
      forall i :: 0 <= i < |edits| && Lookup(current, edits[i].0) != edits[i].1 ==>
        Lookup(updated, edits[i].0) == edits[i].1
    decreases |edits|
  {
    if |edits| > 0 {
      SingleUnfold(current, edits, d);
      var step := SingleStep(current, edits[0].0, edits[0].1, d);
      var tail := edits[1..];
      SingleUpdatedValues(step.0, tail, step.1);
      var updated := SingleDiff(current, edits, d).value.1.updated;
      forall i | 0 <= i < |edits| && Lookup(current, edits[i].0) != edits[i].1
        ensures Lookup(updated, edits[i].0) == edits[i].1
      {
        if i == 0 {
          // the rest of the run never names this key again
          SingleUpdatedOthers(step.0, tail, step.1);
          assert forall m :: 0 <= m < |tail| ==> tail[m].0 != edits[0].0;
        } else {
          assert tail[i - 1] == edits[i];
        }
      }
    }
  }

  /**
   * With each parameter named once, the written keys are those already
   * gathered plus exactly the parameters whose desired value differs.
   */
  lemma {:induction false} SingleUpdatedKeys(current: Fields, edits: Fields, d: Diff)
    requires SingleDiff(current, edits, d).Ok? && DistinctKeys(edits)
    ensures var updated := SingleDiff(current, edits, d).value.1.updated;
      forall k :: HasKey(updated, k) <==>
        HasKey(d.updated, k) || exists i :: 0 <= i < |edits| && edits[i].0 == k && Lookup(current, k) != edits[i].1
    decreases |edits|
  {
    if |edits| > 0 {
      var (key, value) := edits[0];
      SingleUnfold(current, edits, d);
      var step := SingleStep(current, key, value, d);
      var tail := edits[1..];
      SingleUpdatedKeys(step.0, tail, step.1);
      var updated := SingleDiff(current, edits, d).value.1.updated;
      forall k ensures HasKey(step.1.updated, k) <==> HasKey(d.updated, k) || (k == key && Lookup(current, key) != value) {
        if Lookup(current, key) != value {
          PutKeys(d.updated, key, value, k);
        }
      }
      forall k ensures HasKey(updated, k) <==>
          HasKey(d.updated, k) || exists i :: 0 <= i < |edits| && edits[i].0 == k && Lookup(current, k) != edits[i].1
      {
        if exists i :: 0 <= i < |tail| && tail[i].0 == k && Lookup(step.0, k) != tail[i].1 {
          var i :| 0 <= i < |tail| && tail[i].0 == k && Lookup(step.0, k) != tail[i].1;
          assert edits[i + 1].0 == k && Lookup(current, k) != edits[i + 1].1;
        }
        if exists i :: 0 <= i < |edits| && edits[i].0 == k && Lookup(current, k) != edits[i].1 {
          var i :| 0 <= i < |edits| && edits[i].0 == k && Lookup(current, k) != edits[i].1;
          if i > 0 {
            assert tail[i - 1].0 == k && Lookup(step.0, k) != tail[i - 1].1;
          }
        }
      }
    }
  }

  /** A parameter whose desired values are all already live keeps the value gathered before. */
  lemma {:induction false} SingleUpdatedOthers(current: Fields, edits: Fields, d: Diff)
    requires SingleDiff(current, edits, d).Ok? && DistinctKeys(edits)
    ensures var updated := SingleDiff(current, edits, d).value.1.updated;
      forall k :: (forall i :: 0 <= i < |edits| && edits[i].0 == k ==> Lookup(current, k) == edits[i].1) ==>
        Lookup(updated, k) == Lookup(d.updated, k)
    decreases |edits|
  {
    if |edits| > 0 {
      SingleUnfold(current, edits, d);
      var step := SingleStep(current, edits[0].0, edits[0].1, d);
      var tail := edits[1..];
      SingleUpdatedOthers(step.0, tail, step.1);
      var updated := SingleDiff(current, edits, d).value.1.updated;
      forall k | (forall i :: 0 <= i < |edits| && edits[i].0 == k ==> Lookup(current, k) == edits[i].1)
        ensures Lookup(updated, k) == Lookup(d.updated, k)
      {
        forall i | 0 <= i < |tail| && tail[i].0 == k ensures Lookup(step.0, k) == tail[i].1 {
          assert edits[i + 1].0 == k;
        }
        assert Lookup(step.1.updated, k) == Lookup(d.updated, k);
      }
    }
  }

  /** The first switch whose `outlet` equals the requested one. */
  function FirstOutlet(switches: seq<Json>, outlet: Json): (r: Option<nat>)
    ensures r.Some? ==> && r.value < |switches| && Field(switches[r.value], "outlet") == outlet
                        && forall j :: 0 <= j < r.value ==> Field(switches[j], "outlet") != outlet
    ensures r.None? ==> forall j :: 0 <= j < |switches| ==> Field(switches[j], "outlet") != outlet
  {
    if |switches| == 0 then None
    else if Field(switches[0], "outlet") == outlet then Some(0)
    else
      var rest := FirstOutlet(switches[1..], outlet);
      if rest.Some? then Some(rest.value + 1) else None
  }

  /** Switch lists that agree on every outlet number agree on where each outlet is. */
  lemma {:induction false} SameOutlets(a: seq<Json>, b: seq<Json>, outlet: Json)
    requires |a| == |b| && forall j :: 0 <= j < |a| ==> Field(a[j], "outlet") == Field(b[j], "outlet")
    ensures FirstOutlet(a, outlet) == FirstOutlet(b, outlet)
    decreases |a|
  {
    if |a| > 0 {
      forall j | 0 <= j < |a| - 1
        ensures Field(a[1..][j], "outlet") == Field(b[1..][j], "outlet")
      {
        assert a[1..][j] == a[j + 1] && b[1..][j] == b[j + 1];
      }
      SameOutlets(a[1..], b[1..], outlet);
    }
  }

  /** `$switch[$key] = $value`. */
  function SetField(v: Json, key: string, value: Json): (r: Json)
    ensures Field(r, key) == value
    ensures forall k :: k != key ==> Field(r, k) == Field(v, k)
  {
    JObj(Put(if v.JObj? then v.fields else [], key, value))
  }

  /** The edit's outlet exists and its value is already the desired one. */
  predicate OutletSet(switches: seq<Json>, e: OutletEdit) {
    var j := FirstOutlet(switches, e.outlet);
    j.Some? && Field(switches[j.value], e.key) == e.value
  }

  predicate KnownOutlet(switches: seq<Json>, e: OutletEdit) {
    FirstOutlet(switches, e.outlet).Some?
  }

  /** The first assignment naming a missing outlet sits at `i`. */
  predicate FirstMissingAt(switches: seq<Json>, edits: seq<OutletEdit>, i: int) {
    && 0 <= i < |edits|
    && !KnownOutlet(switches, edits[i])
    && forall j :: 0 <= j < i ==> KnownOutlet(switches, edits[j])
  }

  /** Same outlet numbers, position by position. */
  predicate SameOutletNumbers(a: seq<Json>, b: seq<Json>) {
    |a| == |b| && forall j :: 0 <= j < |a| ==> Field(a[j], "outlet") == Field(b[j], "outlet")
  }

  /** The live value an outlet assignment is compared with: its key at the outlet's first switch. */
  function OutletValue(switches: seq<Json>, e: OutletEdit): Json
    requires KnownOutlet(switches, e)
  {
    Field(switches[FirstOutlet(switches, e.outlet).value], e.key)
  }

  /** The change note of an outlet assignment: one when the value differs. */
  function OutletChangeNote(switches: seq<Json>, e: OutletEdit): seq<Note>
    requires KnownOutlet(switches, e)
  {
    if OutletValue(switches, e) != e.value then [Changed(e.key, Some(e.outlet), OutletValue(switches, e), e.value)] else []
  }

  /** Its messages: the numeric-string warning, then an "already set" note when nothing differs. */
  function OutletMessageNote(switches: seq<Json>, e: OutletEdit): seq<Note>
    requires KnownOutlet(switches, e)
  {
    NumericWarning(e.key, e.value) + (if OutletValue(switches, e) == e.value then [Unchanged(e.key, Some(e.outlet), e.value)] else [])
  }

  /** One multi-channel assignment to a known outlet. */
  function MultiStep(switches: seq<Json>, e: OutletEdit, d: Diff): (r: (seq<Json>, Diff))
    requires e.key != "outlet" && KnownOutlet(switches, e)
    ensures r.1.changes == d.changes + OutletChangeNote(switches, e)
    ensures r.1.messages == d.messages + OutletMessageNote(switches, e)
    ensures SameOutletNumbers(r.0, switches)
    ensures Field(r.0[FirstOutlet(switches, e.outlet).value], e.key) == e.value
    ensures forall j, k :: 0 <= j < |switches| && (j != FirstOutlet(switches, e.outlet).value || k != e.key) ==>
      Field(r.0[j], k) == Field(switches[j], k)
    ensures OutletSet(switches, e) ==> r.0 == switches && r.1.updated == d.updated && r.1.changes == d.changes
    ensures !OutletSet(switches, e) ==>
      && r.0 == switches[FirstOutlet(switches, e.outlet).value :=
                          SetField(switches[FirstOutlet(switches, e.outlet).value], e.key, e.value)]
      && r.1.updated == Put(d.updated, "switches", JArr(r.0))
      && |r.1.changes| == |d.changes| + 1
  {
    var j := FirstOutlet(switches, e.outlet).value;
    var now := Field(switches[j], e.key);
    var d1 := d.(messages := d.messages + NumericWarning(e.key, e.value));
    if now != e.value then
      var next := switches[j := SetField(switches[j], e.key, e.value)];
      (next,
       d1.(updated := Put(d1.updated, "switches", JArr(next)),
           changes := d1.changes + [Changed(e.key, Some(e.outlet), now, e.value)]))
    else
      (switches,
       d1.(messages := d1.messages + [Unchanged(e.key, Some(e.outlet), e.value)]))
  }

  lemma FirstMissingShift(switches: seq<Json>, next: seq<Json>, edits: seq<OutletEdit>)
    requires |edits| > 0 && KnownOutlet(switches, edits[0]) && SameOutletNumbers(next, switches)
    ensures forall e :: KnownOutlet(next, e) <==> KnownOutlet(switches, e)
    ensures forall i :: FirstMissingAt(next, edits[1..], i) <==> FirstMissingAt(switches, edits, i + 1)
    ensures forall i :: FirstMissingAt(switches, edits, i) ==> i > 0
  {
    forall e ensures KnownOutlet(next, e) <==> KnownOutlet(switches, e) {
      SameOutlets(next, switches, e.outlet);
    }
    assert forall j :: 0 <= j < |edits| - 1 ==> edits[1..][j] == edits[j + 1];
  }

  /**
   * The multi-channel diff over the `switches` list; the result is the
   * final list and the gathered diff.
   */
  function MultiDiff(switches: seq<Json>, edits: seq<OutletEdit>, d: Diff)
    : (r: Result<(seq<Json>, Diff), Abort>)
    requires forall i :: 0 <= i < |edits| ==> edits[i].key != "outlet"
    ensures r.Err? <==> exists i :: FirstMissingAt(switches, edits, i)
    ensures r.Err? ==> exists i :: FirstMissingAt(switches, edits, i) && r.error == UnknownOutlet(edits[i].outlet)
    ensures r.Ok? ==> SameOutletNumbers(r.value.0, switches)
    ensures r.Ok? ==> |r.value.1.changes| >= |d.changes|
    ensures r.Ok? && |r.value.1.changes| == |d.changes| ==> r.value.0 == switches && r.value.1.updated == d.updated
    ensures r.Ok? && |r.value.1.changes| > |d.changes| ==> Lookup(r.value.1.updated, "switches") == JArr(r.value.0)
    decreases |edits|
  {
    if |edits| == 0 then Ok((switches, d))
    else if !KnownOutlet(switches, edits[0]) then
      assert FirstMissingAt(switches, edits, 0);
      Err(UnknownOutlet(edits[0].outlet))
    else
      var step := MultiStep(switches, edits[0], d);
      FirstMissingShift(switches, step.0, edits);
      var r := MultiDiff(step.0, edits[1..], step.1);
      assert r.Err? ==> exists i :: FirstMissingAt(switches, edits, i) && r.error == UnknownOutlet(edits[i].outlet) by {
        if r.Err? {
          var i :| FirstMissingAt(step.0, edits[1..], i) && r.error == UnknownOutlet(edits[1..][i].outlet);
          assert FirstMissingAt(switches, edits, i + 1);
        }
      }
      assert (exists i :: FirstMissingAt(switches, edits, i)) ==> r.Err? by {
        if exists i :: FirstMissingAt(switches, edits, i) {
          var i :| FirstMissingAt(switches, edits, i);
          assert FirstMissingAt(step.0, edits[1..], i - 1);
        }
      }
      r
  }

  /** Nothing changes exactly when every outlet already holds its desired values. */
  lemma {:induction false} MultiNoChange(switches: seq<Json>, edits: seq<OutletEdit>, d: Diff)
    requires forall i :: 0 <= i < |edits| ==> edits[i].key != "outlet"
    requires MultiDiff(switches, edits, d).Ok?
    ensures |MultiDiff(switches, edits, d).value.1.changes| == |d.changes|
            <==> forall i :: 0 <= i < |edits| ==> OutletSet(switches, edits[i])
    decreases |edits|
  {
    if |edits| > 0 {
      var step := MultiStep(switches, edits[0], d);
      var tail := edits[1..];
      FirstMissingShift(switches, step.0, edits);
      var r := MultiDiff(switches, edits, d);
      assert r == MultiDiff(step.0, tail, step.1);
      MultiNoChange(step.0, tail, step.1);
      assert forall j :: 0 <= j < |tail| ==> tail[j] == edits[j + 1];
      if OutletSet(switches, edits[0]) {
        assert step.0 == switches && step.1.changes == d.changes;
      } else {
        assert |r.value.1.changes| > |d.changes|;
      }
    }
  }

  /** Every outlet assignment is already live. */
  predicate AllOutletsSet(switches: seq<Json>, edits: seq<OutletEdit>) {
    forall i :: 0 <= i < |edits| ==> OutletSet(switches, edits[i])
  }

  /** Every outlet assignment names an outlet the list has. */
  predicate AllKnown(switches: seq<Json>, edits: seq<OutletEdit>) {
    forall i :: 0 <= i < |edits| ==> KnownOutlet(switches, edits[i])
  }

  /**
   * The notes of a multi-channel call whose outlet keys are named once,
   * each compared with the live value it started from: a change note for
   * every assignment that differs, in order.
   */
  function OutletChangeNotes(switches: seq<Json>, edits: seq<OutletEdit>): seq<Note>
    requires AllKnown(switches, edits)
  {
    if |edits| == 0 then [] else OutletChangeNote(switches, edits[0]) + OutletChangeNotes(switches, edits[1..])
  }

  /** Likewise the messages: each assignment's warning, then its "already set" note if it is. */
  function OutletMessageNotes(switches: seq<Json>, edits: seq<OutletEdit>): seq<Note>
    requires AllKnown(switches, edits)
  {
    if |edits| == 0 then [] else OutletMessageNote(switches, edits[0]) + OutletMessageNotes(switches, edits[1..])
  }

  /** What a multi-channel call with nothing to change returns: per assignment, its warning and "already set" note. */
  function OutletAlreadySetNotes(edits: seq<OutletEdit>): seq<Note> {
    if |edits| == 0 then []
    else NumericWarning(edits[0].key, edits[0].value) + [Unchanged(edits[0].key, Some(edits[0].outlet), edits[0].value)]
         + OutletAlreadySetNotes(edits[1..])
  }

  /** Every outlet already holds its desired values: the list stays, and each assignment adds its warning and note. */
  lemma {:induction false} MultiQuietDiff(switches: seq<Json>, edits: seq<OutletEdit>, d: Diff)
    requires forall i :: 0 <= i < |edits| ==> edits[i].key != "outlet"
    requires forall i :: 0 <= i < |edits| ==> OutletSet(switches, edits[i])
    ensures MultiDiff(switches, edits, d) == Ok((switches, d.(messages := d.messages + OutletAlreadySetNotes(edits))))
    decreases |edits|
  {
    if |edits| > 0 {
      var e := edits[0];
      var tail := edits[1..];
      assert forall j :: 0 <= j < |tail| ==> tail[j] == edits[j + 1];
      assert OutletSet(switches, e);
      var head := NumericWarning(e.key, e.value) + [Unchanged(e.key, Some(e.outlet), e.value)];
      var step := MultiStep(switches, e, d);
      assert step.0 == switches && step.1 == d.(messages := d.messages + head);
      FirstMissingShift(switches, step.0, edits);
      assert MultiDiff(switches, edits, d) == MultiDiff(switches, tail, step.1);
      MultiQuietDiff(switches, tail, step.1);
      assert OutletAlreadySetNotes(edits) == head + OutletAlreadySetNotes(tail);
      Regroup(d.messages, head, OutletAlreadySetNotes(tail));
      assert step.1.(messages := step.1.messages + OutletAlreadySetNotes(tail))
             == d.(messages := d.messages + OutletAlreadySetNotes(edits));
    } else {
      assert d.messages + OutletAlreadySetNotes(edits) == d.messages;
    }
  }

  /** Outlet keys named once: the diff's notes are the reference notes against the starting list. */
  lemma {:induction false} MultiNotes(switches: seq<Json>, edits: seq<OutletEdit>, d: Diff)
    requires forall i :: 0 <= i < |edits| ==> edits[i].key != "outlet"
    requires AllKnown(switches, edits) && DistinctTargets(edits)
    ensures MultiDiff(switches, edits, d).Ok?
    ensures var diff := MultiDiff(switches, edits, d).value.1;
      && diff.changes == d.changes + OutletChangeNotes(switches, edits)
      && diff.messages == d.messages + OutletMessageNotes(switches, edits)
    decreases |edits|
  {
    assert !exists i :: FirstMissingAt(switches, edits, i);
    if |edits| > 0 {
      var e := edits[0];
      var tail := edits[1..];
      MultiUnfold(switches, edits, d);
      var step := MultiStep(switches, e, d);
      assert AllKnown(step.0, tail);
      MultiNotes(step.0, tail, step.1);
      var j0 := FirstOutlet(switches, e.outlet).value;
      forall i | 0 <= i < |tail|
        ensures OutletValue(step.0, tail[i]) == OutletValue(switches, tail[i])
      {
        assert tail[i] == edits[i + 1];
        var j := FirstOutlet(switches, tail[i].outlet).value;
        assert j != j0 || tail[i].key != e.key by {
          if j == j0 {
            assert tail[i].outlet == e.outlet;
          }
        }
      }
      OutletNotesAgree(step.0, switches, tail);
      Regroup(d.changes, OutletChangeNote(switches, e), OutletChangeNotes(switches, tail));
      Regroup(d.messages, OutletMessageNote(switches, e), OutletMessageNotes(switches, tail));
    } else {
      assert d.changes + OutletChangeNotes(switches, edits) == d.changes;
      assert d.messages + OutletMessageNotes(switches, edits) == d.messages;
    }
  }

  /** Lists that agree on every assignment's live value yield the same reference notes. */
  lemma {:induction false} OutletNotesAgree(a: seq<Json>, b: seq<Json>, edits: seq<OutletEdit>)
    requires AllKnown(a, edits) && AllKnown(b, edits)
    requires forall i :: 0 <= i < |edits| ==> OutletValue(a, edits[i]) == OutletValue(b, edits[i])
    ensures OutletChangeNotes(a, edits) == OutletChangeNotes(b, edits)
    ensures OutletMessageNotes(a, edits) == OutletMessageNotes(b, edits)
    decreases |edits|
  {
    if |edits| > 0 {
      assert forall j :: 0 <= j < |edits| - 1 ==> edits[1..][j] == edits[j + 1];
      OutletNotesAgree(a, b, edits[1..]);
    }
  }

  /** No outlet and key are named twice. */
  predicate DistinctTargets(edits: seq<OutletEdit>) {
    forall i, m :: 0 <= i < m < |edits| ==> edits[i].outlet != edits[m].outlet || edits[i].key != edits[m].key
  }

  /** Some assignment addresses key `k` of switch `j`. */
  predicate Targets(switches: seq<Json>, edits: seq<OutletEdit>, j: nat, k: string) {
    exists i :: 0 <= i < |edits| && edits[i].key == k && FirstOutlet(switches, edits[i].outlet) == Some(j)
  }

  /**
   * With each outlet and key named once, the final list holds each
   * desired value at its outlet's first switch and leaves every other
   * switch value as it was.
   */
  lemma {:induction false} MultiFinal(switches: seq<Json>, edits: seq<OutletEdit>, d: Diff)
    requires forall i :: 0 <= i < |edits| ==> edits[i].key != "outlet"
    requires MultiDiff(switches, edits, d).Ok? && DistinctTargets(edits)
    ensures var final := MultiDiff(switches, edits, d).value.0;
      && |final| == |switches|
      && (forall i :: 0 <= i < |edits| ==>
            KnownOutlet(switches, edits[i])
            && Field(final[FirstOutlet(switches, edits[i].outlet).value], edits[i].key) == edits[i].value)
      && (forall j, k :: 0 <= j < |switches| && !Targets(switches, edits, j, k) ==>
            Field(final[j], k) == Field(switches[j], k))
  {
    MultiFinalValues(switches, edits, d);
    MultiFinalOthers(switches, edits, d);
  }

  /** The first assignment of a successful run, and the run over the rest. */
  lemma MultiUnfold(switches: seq<Json>, edits: seq<OutletEdit>, d: Diff)
    requires forall i :: 0 <= i < |edits| ==> edits[i].key != "outlet"
    requires |edits| > 0 && MultiDiff(switches, edits, d).Ok? && DistinctTargets(edits)
    ensures KnownOutlet(switches, edits[0])
    ensures var step := MultiStep(switches, edits[0], d);
      && MultiDiff(switches, edits, d) == MultiDiff(step.0, edits[1..], step.1)
      && DistinctTargets(edits[1..])
      && (forall o :: FirstOutlet(step.0, o) == FirstOutlet(switches, o))
      && (forall m :: 0 <= m < |edits| - 1 ==> edits[1..][m] == edits[m + 1])
  {
    assert !FirstMissingAt(switches, edits, 0);
    var step := MultiStep(switches, edits[0], d);
    forall o ensures FirstOutlet(step.0, o) == FirstOutlet(switches, o) {
      SameOutlets(step.0, switches, o);
    }
    assert forall m :: 0 <= m < |edits| - 1 ==> edits[1..][m] == edits[m + 1];
  }

  /** Every assignment's value ends up at its outlet's first switch. */
  lemma {:induction false} MultiFinalValues(switches: seq<Json>, edits: seq<OutletEdit>, d: Diff)
    requires forall i :: 0 <= i < |edits| ==> edits[i].key != "outlet"
    requires MultiDiff(switches, edits, d).Ok? && DistinctTargets(edits)
    ensures var final := MultiDiff(switches, edits, d).value.0;
      forall i :: 0 <= i < |edits| ==>
        KnownOutlet(switches, edits[i])
        && Field(final[FirstOutlet(switches, edits[i].outlet).value], edits[i].key) == edits[i].value
    decreases |edits|
  {
    if |edits| > 0 {
      MultiUnfold(switches, edits, d);
      var e := edits[0];
      var step := MultiStep(switches, e, d);
      var tail := edits[1..];
      var final := MultiDiff(switches, edits, d).value.0;
      MultiFinalValues(step.0, tail, step.1);
      forall i | 0 <= i < |edits|
        ensures KnownOutlet(switches, edits[i])
        ensures Field(final[FirstOutlet(switches, edits[i].outlet).value], edits[i].key) == edits[i].value
      {
        if i == 0 {
          // no later assignment addresses the same key of the same switch
          MultiFinalOthers(step.0, tail, step.1);
          assert !Targets(step.0, tail, FirstOutlet(switches, e.outlet).value, e.key);
        } else {
          assert tail[i - 1] == edits[i];
        }
      }
    }
  }

  /** A switch value no assignment addresses keeps its value. */
  lemma {:induction false} MultiFinalOthers(switches: seq<Json>, edits: seq<OutletEdit>, d: Diff)
    requires forall i :: 0 <= i < |edits| ==> edits[i].key != "outlet"
    requires MultiDiff(switches, edits, d).Ok? && DistinctTargets(edits)
    ensures var final := MultiDiff(switches, edits, d).value.0;
      forall j, k :: 0 <= j < |switches| && !Targets(switches, edits, j, k) ==>
        Field(final[j], k) == Field(switches[j], k)
    decreases |edits|
  {
    if |edits| > 0 {
      MultiUnfold(switches, edits, d);
      var e := edits[0];
      var step := MultiStep(switches, e, d);
      var tail := edits[1..];
      var j0 := FirstOutlet(switches, e.outlet).value;
      var final := MultiDiff(switches, edits, d).value.0;
      MultiFinalOthers(step.0, tail, step.1);
      forall j, k | 0 <= j < |switches| && !Targets(switches, edits, j, k)
        ensures Field(final[j], k) == Field(switches[j], k)
      {
        assert !Targets(step.0, tail, j, k);
        assert j != j0 || k != e.key;
      }
    }
  }

  /**
   * The diff `setDeviceStatus` computes for the live parameters
   * `current`. A multi-channel device without a `switches` list skips
   * every assignment.
   */
  function Reconcile(multi: bool, current: Json, params: Json): (r: Result<Diff, Abort>)
    ensures !multi ==> r == (var s := SingleDiff(Pairs(current), SingleEdits(Entries(params)), NoDiff);
                             if s.Ok? then Ok(s.value.1) else Err(s.error))
    ensures multi && !Field(current, "switches").JArr? ==> r == Ok(NoDiff)
  {
    if multi then
      var switches := Field(current, "switches");
      if switches.JArr? then
        var m := MultiDiff(switches.items, OutletEdits(Entries(params)), NoDiff);
        if m.Ok? then Ok(m.value.1) else Err(m.error)
      else Ok(NoDiff)
    else
      var s := SingleDiff(Pairs(current), SingleEdits(Entries(params)), NoDiff);
      if s.Ok? then Ok(s.value.1) else Err(s.error)
  }

  datatype StatusError =
    | Http(cause: Responses.HttpError)   // a request threw
    | Reply(message: string)             // "Error: <msg>" from a live read

  /** `http_build_query`, `json_encode`, the request signature and a fresh nonce. */
  datatype Io = Io(query: seq<(string, string)> -> string, encode: Json -> string,
                   sign: (string, string) -> string, nonce: string)

  /** The replies of one call: to the live read, to the write, and to the read-back of each key. */
  datatype Replies = Replies(live: Option<Json>, write: Option<Json>, read: string -> Option<Json>)

  /** The GET of the status endpoint: all parameters when `p` is `None`, else the names `p` asks for. */
  function StatusGet(http: HttpClient.Client, query: seq<(string, string)> -> string, deviceId: string,
                     p: Option<Devices.ParamRequest>, raw: Option<Json>): (r: HttpClient.Exchange<Json>)
    ensures Utils.IsValidRegion(http.region) ==> r.sent == [StatusRequest(http, query, deviceId, p)]
    ensures !Utils.IsValidRegion(http.region) ==> r.sent == [] && r.result.Err?
    ensures r.result.Ok? ==> r.client == http
    ensures r.client == http || r.client == http.(token := Token.ClearToken(http.token))
  {
    HttpClient.GetRequest(http, Devices.StatusEndpoint, query(Devices.LiveQuery(deviceId, p, 1)), false, raw)
  }

  /** The request that GET sends. */
  function StatusRequest(http: HttpClient.Client, query: seq<(string, string)> -> string, deviceId: string,
                         p: Option<Devices.ParamRequest>): HttpClient.HttpRequest
    requires Utils.IsValidRegion(http.region)
  {
    HttpClient.GatewayGet(http, Devices.StatusEndpoint, query(Devices.LiveQuery(deviceId, p, 1)))
  }

  /** `getDeviceParamLive($deviceId, [$key])[$key]`: the value a read-back of `key` reports, or the exception. */
  function ReadBack(http: HttpClient.Client, query: seq<(string, string)> -> string, deviceId: string,
                    read: string -> Option<Json>, key: string): (r: Result<Json, StatusError>)
    ensures StatusGet(http, query, deviceId, Some(Devices.Many([key])), read(key)).result.Err? ==> r.Err?
  {
    var reply := StatusGet(http, query, deviceId, Some(Devices.Many([key])), read(key)).result;
    if reply.Err? then Err(Http(reply.error))
    else
      var shaped := Devices.ShapeLive(reply.value, Devices.Many([key]));
      if shaped.Err? then Err(Reply(shaped.error)) else Ok(Field(shaped.value, key))
  }

  /** A written value the read-back confirms. */
  predicate Confirmed(http: HttpClient.Client, query: seq<(string, string)> -> string, deviceId: string,
                      read: string -> Option<Json>, entry: (string, Json)) {
    ReadBack(http, query, deviceId, read, entry.0) == Ok(entry.1)
  }

  /** The first mismatch (key, wanted, reported), if any. */
  datatype Mismatch = Mismatch(key: string, wanted: Json, actual: Json)

  /** The read-back: the client after it, the GETs sent, the keys read, the verdict or exception. */
  datatype ReadCheck = ReadCheck(client: HttpClient.Client, sent: seq<HttpClient.HttpRequest>, keys: seq<string>,
                                 result: Result<Option<Mismatch>, StatusError>)

  /** The status GETs that read back `keys`, one key each, in order. */
  function KeyRequests(http: HttpClient.Client, query: seq<(string, string)> -> string, deviceId: string,
                       keys: seq<string>): (r: seq<HttpClient.HttpRequest>)
    requires Utils.IsValidRegion(http.region)
    ensures |r| == |keys| && forall i :: 0 <= i < |keys| ==>
      r[i] == StatusRequest(http, query, deviceId, Some(Devices.Many([keys[i]])))
  {
    if |keys| == 0 then []
    else [StatusRequest(http, query, deviceId, Some(Devices.Many([keys[0]])))] + KeyRequests(http, query, deviceId, keys[1..])
  }

  /** The read-back of one written parameter: its GET, then `None` when it reads back as written, else the mismatch. */
  function ReadKey(http: HttpClient.Client, query: seq<(string, string)> -> string, deviceId: string,
                   read: string -> Option<Json>, entry: (string, Json)): (r: ReadCheck)
    ensures r.keys == [entry.0]
    ensures r.result == Ok(None) <==> Confirmed(http, query, deviceId, read, entry)
    ensures var got := ReadBack(http, query, deviceId, read, entry.0);
      && (r.result.Err? <==> got.Err?)
      && (got.Err? ==> r.result.error == got.error)
      && (got.Ok? && got.value != entry.1 ==> r.result == Ok(Some(Mismatch(entry.0, entry.1, got.value))))
    ensures r.result.Ok? ==> r.client == http
    ensures r.client == http || r.client == http.(token := Token.ClearToken(http.token))
    ensures Utils.IsValidRegion(http.region) ==> r.sent == [StatusRequest(http, query, deviceId, Some(Devices.Many([entry.0])))]
  {
    var ex := StatusGet(http, query, deviceId, Some(Devices.Many([entry.0])), read(entry.0));
    var got := ReadBack(http, query, deviceId, read, entry.0);
    ReadCheck(ex.client, ex.sent, [entry.0],
              if got.Err? then Err(got.error)
              else if got.value != entry.1 then Ok(Some(Mismatch(entry.0, entry.1, got.value)))
              else Ok(None))
  }

  /**
   * Read each written parameter back, in write order; the first value
   * that differs, or the first failing read, ends the check. Each read is
   * a GET through the client, so a 401 clears the token.
   */
  function VerifyWrite(http: HttpClient.Client, query: seq<(string, string)> -> string, deviceId: string,
                       read: string -> Option<Json>, updated: Fields): (r: ReadCheck)
    ensures |r.keys| <= |updated| && forall i :: 0 <= i < |r.keys| ==> r.keys[i] == updated[i].0
    ensures r.result.Ok? ==> r.client == http
    ensures r.client == http || r.client == http.(token := Token.ClearToken(http.token))
    ensures Utils.IsValidRegion(http.region) ==> r.sent == KeyRequests(http, query, deviceId, r.keys)
  {
    if |updated| == 0 then ReadCheck(http, [], [], Ok(None))
    else
      var one := ReadKey(http, query, deviceId, read, updated[0]);
      if one.result != Ok(None) then one
      else
        var rest := VerifyWrite(http, query, deviceId, read, updated[1..]);
        assert (one.keys + rest.keys)[1..] == rest.keys;
        ReadCheck(rest.client, one.sent + rest.sent, one.keys + rest.keys, rest.result)
  }

  /**
   * The read-back succeeds exactly when every written parameter reads back
   * as written, having then read every key; a mismatch it reports is the
   * first disagreeing parameter.
   */
  lemma VerifyWriteDecides(http: HttpClient.Client, query: seq<(string, string)> -> string,
                           deviceId: string, read: string -> Option<Json>, updated: Fields)
    ensures var r := VerifyWrite(http, query, deviceId, read, updated);
      && (r.result == Ok(None) <==> forall i :: 0 <= i < |updated| ==> Confirmed(http, query, deviceId, read, updated[i]))
      && (r.result == Ok(None) ==> |r.keys| == |updated|)
      && (r.result.Ok? && r.result.value.Some? ==>
            exists i :: MismatchAt(http, query, deviceId, read, updated, i, r.result.value.value))
  {
    VerifyWriteConfirms(http, query, deviceId, read, updated);
    VerifyWriteFindsMismatch(http, query, deviceId, read, updated);
  }

  /** A property holds of every element exactly when it holds of the first and of every later one. */
  lemma AllFromHead<T>(xs: seq<T>, p: T -> bool)
    requires |xs| > 0
    ensures (forall i :: 0 <= i < |xs| ==> p(xs[i])) <==> p(xs[0]) && forall i :: 0 <= i < |xs[1..]| ==> p(xs[1..][i])
  {
    var tail := xs[1..];
    if p(xs[0]) && forall i :: 0 <= i < |tail| ==> p(tail[i]) {
      forall i | 0 <= i < |xs|
        ensures p(xs[i])
      {
        if i > 0 {
          assert xs[i] == tail[i - 1];
        }
      }
    } else if p(xs[0]) {
      var j :| 0 <= j < |tail| && !p(tail[j]);
      assert xs[j + 1] == tail[j];
    }
  }

  /** The read-back succeeds exactly when every written parameter reads back as written, having read every key. */
  lemma {:induction false} VerifyWriteConfirms(http: HttpClient.Client, query: seq<(string, string)> -> string,
                                                deviceId: string, read: string -> Option<Json>, updated: Fields)
    ensures var r := VerifyWrite(http, query, deviceId, read, updated);
      && (r.result == Ok(None) <==> forall i :: 0 <= i < |updated| ==> Confirmed(http, query, deviceId, read, updated[i]))
      && (r.result == Ok(None) ==> |r.keys| == |updated|)
  {
    if |updated| > 0 {
      if Confirmed(http, query, deviceId, read, updated[0]) {
        VerifyWriteStep(http, query, deviceId, read, updated);
        VerifyWriteConfirms(http, query, deviceId, read, updated[1..]);
        AllFromHead(updated, e => Confirmed(http, query, deviceId, read, e));
      } else {
        assert ReadKey(http, query, deviceId, read, updated[0]).result != Ok(None);
      }
    }
  }

  /** A mismatch the read-back reports is the first disagreeing parameter. */
  lemma {:induction false} VerifyWriteFindsMismatch(http: HttpClient.Client, query: seq<(string, string)> -> string,
                                                     deviceId: string, read: string -> Option<Json>, updated: Fields)
    ensures var r := VerifyWrite(http, query, deviceId, read, updated);
      r.result.Ok? && r.result.value.Some? ==>
        exists i :: MismatchAt(http, query, deviceId, read, updated, i, r.result.value.value)
  {
    if |updated| > 0 {
      var one := ReadKey(http, query, deviceId, read, updated[0]);
      if one.result.Ok? && one.result.value.Some? {
        assert VerifyWrite(http, query, deviceId, read, updated) == one;
        assert MismatchAt(http, query, deviceId, read, updated, 0, one.result.value.value);
      } else if one.result.Ok? {
        var rest := VerifyWrite(http, query, deviceId, read, updated[1..]);
        VerifyWriteStep(http, query, deviceId, read, updated);
        VerifyWriteFindsMismatch(http, query, deviceId, read, updated[1..]);
        if rest.result.Ok? && rest.result.value.Some? {
          var i :| MismatchAt(http, query, deviceId, read, updated[1..], i, rest.result.value.value);
          MismatchShift(http, query, deviceId, read, updated, i, rest.result.value.value);
        }
      }
    }
  }

  /** A first key that reads back as written hands the verdict to the rest, with the same client. */
  lemma VerifyWriteStep(http: HttpClient.Client, query: seq<(string, string)> -> string, deviceId: string,
                        read: string -> Option<Json>, updated: Fields)
    requires |updated| > 0 && Confirmed(http, query, deviceId, read, updated[0])
    ensures var r := VerifyWrite(http, query, deviceId, read, updated);
      var rest := VerifyWrite(http, query, deviceId, read, updated[1..]);
      r.result == rest.result && r.keys == [updated[0].0] + rest.keys
  {
    assert ReadKey(http, query, deviceId, read, updated[0]).result == Ok(None);
  }

  /**
   * `m` reports the parameter at `i`: all earlier ones read back as
   * written, and this one read back as `m.actual`, which is not the value
   * written.
   */
  predicate MismatchAt(http: HttpClient.Client, query: seq<(string, string)> -> string, deviceId: string,
                       read: string -> Option<Json>, updated: Fields, i: int, m: Mismatch) {
    && 0 <= i < |updated|
    && (forall j :: 0 <= j < i ==> Confirmed(http, query, deviceId, read, updated[j]))
    && m == Mismatch(updated[i].0, updated[i].1, m.actual)
    && ReadBack(http, query, deviceId, read, updated[i].0) == Ok(m.actual)
    && m.actual != updated[i].1
  }

  /** A mismatch in the rest of a write whose first parameter is confirmed is a mismatch one place later. */
  lemma MismatchShift(http: HttpClient.Client, query: seq<(string, string)> -> string, deviceId: string,
                      read: string -> Option<Json>, updated: Fields, i: int, m: Mismatch)
    requires |updated| > 0 && Confirmed(http, query, deviceId, read, updated[0])
    requires MismatchAt(http, query, deviceId, read, updated[1..], i, m)
    ensures MismatchAt(http, query, deviceId, read, updated, i + 1, m)
  {
    forall j | 0 <= j < i + 1
      ensures Confirmed(http, query, deviceId, read, updated[j])
    {
      if j > 0 {
        assert updated[j] == updated[1..][j - 1];
      }
    }
    assert updated[i + 1] == updated[1..][i];
  }

  datatype Outcome =
    | NoParameters                                       // the device reports no parameters
    | Aborted(reason: Abort)                             // unknown parameter or outlet
    | AlreadySet(messages: seq<Note>)                    // nothing to write
    | WriteFailed(mismatch: Mismatch)                    // a read-back disagreed
    | Updated(changes: seq<Note>, messages: seq<Note>)

  /** The status-write request body. */
  function WriteBody(deviceId: string, updated: Fields): Json {
    JObj([("type", JInt(1)), ("id", JStr(deviceId)), ("params", JObj(updated))])
  }

  /**
   * One call: the client after it, every request sent, the bodies written
   * (before encoding), the keys read back, and the outcome or exception.
   */
  datatype StatusRun = StatusRun(client: HttpClient.Client, sent: seq<HttpClient.HttpRequest>, writes: seq<Json>,
                                 readKeys: seq<string>, result: Result<Outcome, StatusError>)

  /** The diff `setDeviceStatus` computes once the live read has reported `current`. */
  function LiveDiff(devicesData: Json, deviceId: string, params: Json, current: Json): Result<Diff, Abort> {
    Reconcile(Devices.IsMultiChannel(devicesData, deviceId), current, params)
  }

  /** The status POST of `body`, with the bearer token and the encoded body. */
  function StatusPost(http: HttpClient.Client, io: Io, body: Json): HttpClient.HttpRequest
    requires Utils.IsValidRegion(http.region)
  {
    var encoded := io.encode(body);
    HttpClient.HttpRequest(HttpClient.Post, HttpClient.GatewayUrl(http.region).value + Devices.StatusEndpoint,
                           HttpClient.PostHeaders(http.appId, io.nonce, true, HttpClient.AccessToken(http),
                                                  encoded, http.secret, io.sign),
                           encoded)
  }

  /** The status POST of a diff with changes, then the read-back of every written key. */
  function WriteAndCheck(http: HttpClient.Client, deviceId: string, diff: Diff, io: Io, replies: Replies): (r: StatusRun)
    requires Utils.IsValidRegion(http.region)
    ensures r.writes == [WriteBody(deviceId, diff.updated)]
    ensures |r.sent| == 1 + |r.readKeys| && r.sent[0] == StatusPost(http, io, r.writes[0])
    ensures forall i :: 0 <= i < |r.readKeys| ==>
      r.sent[1 + i] == StatusRequest(http, io.query, deviceId, Some(Devices.Many([r.readKeys[i]])))
    ensures r.readKeys != [] ==> Responses.PostResult(replies.write).Ok?
    ensures Responses.PostResult(replies.write).Err? ==>
      && r.client == http.(token := Token.AfterReply(http.token, replies.write))
      && r.readKeys == [] && r.result == Err(Http(Responses.PostResult(replies.write).error))
    ensures r.result.Ok? ==> r.client == http && (r.result.value.WriteFailed? || r.result.value.Updated?)
    ensures r.result.Ok? && r.result.value.Updated? ==> r.result.value == Updated(diff.changes, diff.messages)
    ensures r.client == http || (r.result.Err? && r.client == http.(token := Token.ClearToken(http.token)))
    ensures r.client.region == http.region && r.client.devices == http.devices
  {
    var body := WriteBody(deviceId, diff.updated);
    var post := HttpClient.PostRequest(http, Devices.StatusEndpoint, body, true, io.nonce, io.encode, io.sign, replies.write);
    assert post.sent == [StatusPost(http, io, body)];
    if post.result.Err? then
      assert post.client == http.(token := Token.AfterReply(http.token, replies.write));
      StatusRun(post.client, post.sent, [body], [], Err(Http(post.result.error)))
    else
      assert post.client == http;
      var check := VerifyWrite(http, io.query, deviceId, replies.read, diff.updated);
      StatusRun(check.client, post.sent + check.sent, [body], check.keys,
        if check.result.Err? then Err(check.result.error)
        else if check.result.value.Some? then Ok(WriteFailed(check.result.value.value))
        else Ok(Updated(diff.changes, diff.messages)))
  }

  /**
   * `setDeviceStatus`. `devicesData` is the cached catalogue; the live
   * read, the status POST and the read-backs all go through the HTTP
   * client `http`.
   */
  function SetDeviceStatus(http: HttpClient.Client, devicesData: Json, deviceId: string, params: Json,
                           io: Io, replies: Replies): (r: StatusRun)
    ensures r.client.region == http.region && r.client.devices == http.devices
    ensures r.result.Ok? ==> r.client == http
    ensures r.client == http || (r.result.Err? && r.client == http.(token := Token.ClearToken(http.token)))
    ensures !Utils.IsValidRegion(http.region) ==>
      r == StatusRun(http, [], [], [], Err(Http(Responses.Configuration("Invalid region"))))
    ensures Utils.IsValidRegion(http.region) ==>
      && |r.sent| >= 1 && r.sent[0] == StatusRequest(http, io.query, deviceId, None)
      && (r.writes == [] ==> |r.sent| == 1 && r.readKeys == [])
      && (Responses.GetResult(replies.live, false).Err? ==>
            r == StatusRun(http.(token := Token.AfterReply(http.token, replies.live)), r.sent, [], [],
                           Err(Http(Responses.GetResult(replies.live, false).error))))
    ensures |r.writes| <= 1
    ensures r.writes != [] ==>
      && Utils.IsValidRegion(http.region)
      && var live := Responses.GetResult(replies.live, false);
      && live.Ok?
      && var all := Devices.GetAllDeviceParamLive(live.value);
      && all.Ok? && all.value.Some?
      && var diff := LiveDiff(devicesData, deviceId, params, all.value.value);
      && diff.Ok? && |diff.value.changes| > 0
      && r == WriteAndCheck(http, deviceId, diff.value, io, replies).(sent := r.sent)
      && r.sent == [r.sent[0]] + WriteAndCheck(http, deviceId, diff.value, io, replies).sent
    ensures r.result.Ok? && r.result.value.Aborted? ==> r.writes == []
    ensures r.result.Ok? && r.result.value.AlreadySet? ==> r.writes == []
    ensures r.result.Ok? && (r.result.value.Updated? || r.result.value.WriteFailed?) ==> r.writes != []
  {
    var liveEx := StatusGet(http, io.query, deviceId, None, replies.live);
    if liveEx.result.Err? then StatusRun(liveEx.client, liveEx.sent, [], [], Err(Http(liveEx.result.error)))
    else
      var all := Devices.GetAllDeviceParamLive(liveEx.result.value);
      if all.Err? then StatusRun(http, liveEx.sent, [], [], Err(Reply(all.error)))
      else if all.value.None? then StatusRun(http, liveEx.sent, [], [], Ok(NoParameters))
      else
        var diff := LiveDiff(devicesData, deviceId, params, all.value.value);
        if diff.Err? then StatusRun(http, liveEx.sent, [], [], Ok(Aborted(diff.error)))
        else if |diff.value.changes| == 0 then StatusRun(http, liveEx.sent, [], [], Ok(AlreadySet(diff.value.messages)))
        else
          var w := WriteAndCheck(http, deviceId, diff.value, io, replies);
          w.(sent := liveEx.sent + w.sent)
  }

  /** How the reports of a successful update, a failed one and a device without parameters begin. */
  const SuccessHeading := "Parameters successfully updated for device "
  const FailureHeading := "Failed to update parameter "
  const NoParametersHeading := "Device "

  /**
   * The text `setDeviceStatus` returns for an outcome. Every report but a
   * list of notes names the device, and the success, failure and
   * no-parameter reports open with their own heading.
   */
  function Report(deviceId: string, outcome: Outcome): (r: string)
    ensures !outcome.AlreadySet? ==> exists a :: Text.SliceAt(r, a, deviceId)
    ensures outcome.Updated? ==> SuccessHeading <= r
    ensures outcome.WriteFailed? ==> FailureHeading + outcome.mismatch.key <= r
    ensures outcome.NoParameters? ==> NoParametersHeading + deviceId <= r
  {
    match outcome
    case NoParameters =>
      var tail := " does not have any parameters to update.";
      var r := NoParametersHeading + (deviceId + tail);
      assert r == (NoParametersHeading + deviceId) + tail;
      assert Text.SliceAt(r, |NoParametersHeading|, deviceId);
      r
    case Aborted(UnknownParameter(key)) =>
      var head := "Parameter " + key + " does not exist for device ";
      var r := head + (deviceId + ".");
      assert Text.SliceAt(r, |head|, deviceId);
      r
    case Aborted(UnknownOutlet(outlet)) =>
      var head := "Outlet " + Render(outlet) + " does not exist for device ";
      var r := head + (deviceId + ".");
      assert Text.SliceAt(r, |head|, deviceId);
      r
    case AlreadySet(messages) => Text.Join(NoteTexts(deviceId, messages), '\n')
    case WriteFailed(Mismatch(key, wanted, actual)) =>
      var middle := " to " + Render(wanted) + " for device ";
      var r := (FailureHeading + key) + (middle + (deviceId + (". Current value is " + Render(actual) + ".")));
      assert r == (FailureHeading + key + middle) + (deviceId + (". Current value is " + Render(actual) + "."));
      assert Text.SliceAt(r, |FailureHeading + key + middle|, deviceId);
      r
    case Updated(changes, messages) =>
      var r := SuccessHeading + (deviceId + (".\n" + Text.Join(NoteTexts(deviceId, changes), '\n') + "\n"
        + Text.Join(NoteTexts(deviceId, messages), '\n')));
      assert Text.SliceAt(r, |SuccessHeading|, deviceId);
      r
  }

  /** A successful update, a failed one and a device without parameters are never reported alike. */
  lemma ReportsDiffer(deviceId: string, changes: seq<Note>, messages: seq<Note>, m: Mismatch)
    ensures Report(deviceId, Updated(changes, messages)) != Report(deviceId, WriteFailed(m))
    ensures Report(deviceId, Updated(changes, messages)) != Report(deviceId, NoParameters)
    ensures Report(deviceId, WriteFailed(m)) != Report(deviceId, NoParameters)
  {
    var updated := Report(deviceId, Updated(changes, messages));
    var failed := Report(deviceId, WriteFailed(m));
    var none := Report(deviceId, NoParameters);
    assert updated[0] == SuccessHeading[0] == 'P';
    assert failed[0] == (FailureHeading + m.key)[0] == 'F';
    assert none[0] == (NoParametersHeading + deviceId)[0] == 'D';
  }

  /** The live read succeeded and reported `current` as the device's parameters. */
  predicate LiveParams(http: HttpClient.Client, replies: Replies, current: Json) {
    && Utils.IsValidRegion(http.region)
    && var live := Responses.GetResult(replies.live, false);
    && live.Ok? && Devices.GetAllDeviceParamLive(live.value) == Ok(Some(current))
  }

  /** A diff without changes means no write: the live read is all that is sent, and the notes are returned. */
  lemma QuietDiffNoWrite(http: HttpClient.Client, devicesData: Json, deviceId: string, params: Json,
                         io: Io, replies: Replies, current: Json)
    requires LiveParams(http, replies, current)
    requires var diff := LiveDiff(devicesData, deviceId, params, current);
      diff.Ok? && |diff.value.changes| == 0
    ensures var r := SetDeviceStatus(http, devicesData, deviceId, params, io, replies);
      r == StatusRun(http, [StatusRequest(http, io.query, deviceId, None)], [], [],
                     Ok(AlreadySet(LiveDiff(devicesData, deviceId, params, current).value.messages)))
  {
  }

  /** A diff with changes means exactly one write of its parameters. */
  lemma ChangedDiffWrites(http: HttpClient.Client, devicesData: Json, deviceId: string, params: Json,
                          io: Io, replies: Replies, current: Json)
    requires LiveParams(http, replies, current)
    requires var diff := LiveDiff(devicesData, deviceId, params, current);
      diff.Ok? && |diff.value.changes| > 0
    ensures SetDeviceStatus(http, devicesData, deviceId, params, io, replies).writes
            == [WriteBody(deviceId, LiveDiff(devicesData, deviceId, params, current).value.updated)]
  {
  }

  /** Single-channel: a parameter the device lacks aborts the call before any write. */
  lemma UnknownParameterNoWrite(http: HttpClient.Client, devicesData: Json, deviceId: string, params: Json,
                                io: Io, replies: Replies, current: Json, i: nat)
    requires LiveParams(http, replies, current) && !Devices.IsMultiChannel(devicesData, deviceId)
    requires FirstUnknownAt(Pairs(current), SingleEdits(Entries(params)), i)
    ensures SetDeviceStatus(http, devicesData, deviceId, params, io, replies)
            == StatusRun(http, [StatusRequest(http, io.query, deviceId, None)], [], [],
                         Ok(Aborted(UnknownParameter(SingleEdits(Entries(params))[i].0))))
  {
    var edits := SingleEdits(Entries(params));
    var sd := SingleDiff(Pairs(current), edits, NoDiff);
    var k :| FirstUnknownAt(Pairs(current), edits, k) && sd.error == UnknownParameter(edits[k].0);
    assert k == i;
  }

  /**
   * Single-channel, every parameter known: the call writes nothing exactly
   * when every desired value is already live, and then returns exactly the
   * "already set" notes, each after its numeric-string warning.
   */
  lemma SingleWriteIffChanged(http: HttpClient.Client, devicesData: Json, deviceId: string, params: Json,
                              io: Io, replies: Replies, current: Json)
    requires LiveParams(http, replies, current) && !Devices.IsMultiChannel(devicesData, deviceId)
    requires forall i :: 0 <= i < |SingleEdits(Entries(params))| ==> HasKey(Pairs(current), SingleEdits(Entries(params))[i].0)
    ensures var r := SetDeviceStatus(http, devicesData, deviceId, params, io, replies);
      && (r.writes == [] <==> AllSet(Pairs(current), SingleEdits(Entries(params))))
      && (r.writes == [] ==> r.result == Ok(AlreadySet(AlreadySetNotes(SingleEdits(Entries(params))))))
  {
    var edits := SingleEdits(Entries(params));
    assert !exists i :: FirstUnknownAt(Pairs(current), edits, i);
    SingleNoChange(Pairs(current), edits, NoDiff);
    if AllSet(Pairs(current), edits) {
      SingleQuietDiff(Pairs(current), edits, NoDiff);
      assert NoDiff.messages + AlreadySetNotes(edits) == AlreadySetNotes(edits);
    }
  }

  /**
   * Single-channel, each parameter named once: a successful update reports
   * one change note per differing parameter, with its live and its new
   * value, and the warnings and "already set" notes, in parameter order.
   */
  lemma SingleUpdatedReport(http: HttpClient.Client, devicesData: Json, deviceId: string, params: Json,
                            io: Io, replies: Replies, current: Json)
    requires LiveParams(http, replies, current) && !Devices.IsMultiChannel(devicesData, deviceId)
    requires DistinctKeys(SingleEdits(Entries(params)))
    requires SetDeviceStatus(http, devicesData, deviceId, params, io, replies).result.Ok?
    requires SetDeviceStatus(http, devicesData, deviceId, params, io, replies).result.value.Updated?
    ensures SetDeviceStatus(http, devicesData, deviceId, params, io, replies).result.value
            == Updated(ChangeNotes(Pairs(current), SingleEdits(Entries(params))),
                       MessageNotes(Pairs(current), SingleEdits(Entries(params))))
  {
    var edits := SingleEdits(Entries(params));
    var r := SetDeviceStatus(http, devicesData, deviceId, params, io, replies);
    var diff := LiveDiff(devicesData, deviceId, params, current);
    assert r.writes != [];
    assert r.result == WriteAndCheck(http, deviceId, diff.value, io, replies).result;
    assert r.result.value == Updated(diff.value.changes, diff.value.messages);
    assert diff.value == SingleDiff(Pairs(current), edits, NoDiff).value.1;
    SingleNotes(Pairs(current), edits, NoDiff);
    assert NoDiff.changes + ChangeNotes(Pairs(current), edits) == ChangeNotes(Pairs(current), edits);
    assert NoDiff.messages + MessageNotes(Pairs(current), edits) == MessageNotes(Pairs(current), edits);
  }

  /**
   * Single-channel, each parameter named once and known, something
   * differs: the one write carries the parameters the diff gathered
   * (`SingleChanged` states which they are).
   */
  lemma SingleWritesChangedKeys(http: HttpClient.Client, devicesData: Json, deviceId: string, params: Json,
                                io: Io, replies: Replies, current: Json)
    requires LiveParams(http, replies, current) && !Devices.IsMultiChannel(devicesData, deviceId)
    requires var edits := SingleEdits(Entries(params));
      DistinctKeys(edits) && (forall i :: 0 <= i < |edits| ==> HasKey(Pairs(current), edits[i].0))
      && !AllSet(Pairs(current), edits)
    ensures var sd := SingleDiff(Pairs(current), SingleEdits(Entries(params)), NoDiff);
      && sd.Ok?
      && SetDeviceStatus(http, devicesData, deviceId, params, io, replies).writes == [WriteBody(deviceId, sd.value.1.updated)]
  {
    var edits := SingleEdits(Entries(params));
    SingleChanged(Pairs(current), edits);
    ChangedDiffWrites(http, devicesData, deviceId, params, io, replies, current);
  }

  /**
   * A diff over known, distinct keys, some of which differ, changes
   * something and updates exactly the differing keys.
   */
  lemma SingleChanged(current: Fields, edits: Fields)
    requires DistinctKeys(edits) && (forall i :: 0 <= i < |edits| ==> HasKey(current, edits[i].0))
    requires !AllSet(current, edits)
    ensures var sd := SingleDiff(current, edits, NoDiff);
      && sd.Ok? && |sd.value.1.changes| > 0
      && (forall k :: HasKey(sd.value.1.updated, k) <==>
            exists i :: 0 <= i < |edits| && edits[i].0 == k && Lookup(current, k) != edits[i].1)
      && (forall i :: 0 <= i < |edits| && Lookup(current, edits[i].0) != edits[i].1 ==>
            Lookup(sd.value.1.updated, edits[i].0) == edits[i].1)
  {
    assert !exists i :: FirstUnknownAt(current, edits, i);
    SingleNoChange(current, edits, NoDiff);
    SingleUpdatedValues(current, edits, NoDiff);
    SingleUpdatedKeys(current, edits, NoDiff);
    assert forall k :: !HasKey(NoDiff.updated, k);
  }

  /**
   * The notes of a single-channel call whose parameters are named once,
   * each compared with the live value it started from: a change note for
   * every parameter that differs, in order.
   */
  function ChangeNotes(current: Fields, edits: Fields): seq<Note> {
    if |edits| == 0 then [] else ChangeNote(current, edits[0].0, edits[0].1) + ChangeNotes(current, edits[1..])
  }

  /** Likewise the messages: each parameter's numeric-string warning, then its "already set" note if it is. */
  function MessageNotes(current: Fields, edits: Fields): seq<Note> {
    if |edits| == 0 then [] else MessageNote(current, edits[0].0, edits[0].1) + MessageNotes(current, edits[1..])
  }

  /** What a call with nothing to change returns: per parameter, its warning and its "already set" note. */
  function AlreadySetNotes(edits: Fields): seq<Note> {
    if |edits| == 0 then []
    else NumericWarning(edits[0].0, edits[0].1) + [Unchanged(edits[0].0, None, edits[0].1)] + AlreadySetNotes(edits[1..])
  }

  /** Every parameter known and already set: the map stays, and each parameter adds its warning and "already set" note. */
  lemma {:induction false} SingleQuietDiff(current: Fields, edits: Fields, d: Diff)
    requires forall i :: 0 <= i < |edits| ==> HasKey(current, edits[i].0)
    requires AllSet(current, edits)
    ensures SingleDiff(current, edits, d) == Ok((current, d.(messages := d.messages + AlreadySetNotes(edits))))
    decreases |edits|
  {
    if |edits| > 0 {
      var (key, value) := edits[0];
      var tail := edits[1..];
      assert forall j :: 0 <= j < |tail| ==> tail[j] == edits[j + 1];
      assert Lookup(current, key) == value;
      var head := NumericWarning(key, value) + [Unchanged(key, None, value)];
      var step := SingleStep(current, key, value, d);
      assert step.0 == current && step.1 == d.(messages := d.messages + head);
      FirstUnknownShift(current, step.0, edits);
      assert SingleDiff(current, edits, d) == SingleDiff(current, tail, step.1);
      SingleQuietDiff(current, tail, step.1);
      assert AlreadySetNotes(edits) == head + AlreadySetNotes(tail);
      Regroup(d.messages, head, AlreadySetNotes(tail));
      assert step.1.(messages := step.1.messages + AlreadySetNotes(tail))
             == d.(messages := d.messages + AlreadySetNotes(edits));
    } else {
      assert d.messages + AlreadySetNotes(edits) == d.messages;
    }
  }

  /** Parameters named once: the diff's notes are the reference notes against the starting values. */
  lemma {:induction false} SingleNotes(current: Fields, edits: Fields, d: Diff)
    requires DistinctKeys(edits) && SingleDiff(current, edits, d).Ok?
    ensures var diff := SingleDiff(current, edits, d).value.1;
      && diff.changes == d.changes + ChangeNotes(current, edits)
      && diff.messages == d.messages + MessageNotes(current, edits)
    decreases |edits|
  {
    if |edits| > 0 {
      var (key, value) := edits[0];
      var step := SingleStep(current, key, value, d);
      var tail := edits[1..];
      FirstUnknownShift(current, step.0, edits);
      assert SingleDiff(current, edits, d) == SingleDiff(step.0, tail, step.1);
      assert forall j :: 0 <= j < |tail| ==> tail[j] == edits[j + 1];
      SingleNotes(step.0, tail, step.1);
      NotesAgree(step.0, current, tail);
      Regroup(d.changes, ChangeNote(current, key, value), ChangeNotes(current, tail));
      Regroup(d.messages, MessageNote(current, key, value), MessageNotes(current, tail));
    }
  }

  lemma Regroup(a: seq<Note>, b: seq<Note>, c: seq<Note>)
    ensures a + b + c == a + (b + c)
  {
  }

  /** Maps that agree on every named parameter yield the same reference notes. */
  lemma {:induction false} NotesAgree(a: Fields, b: Fields, edits: Fields)
    requires forall i :: 0 <= i < |edits| ==> Lookup(a, edits[i].0) == Lookup(b, edits[i].0)
    ensures ChangeNotes(a, edits) == ChangeNotes(b, edits) && MessageNotes(a, edits) == MessageNotes(b, edits)
    decreases |edits|
  {
    if |edits| > 0 {
      assert forall j :: 0 <= j < |edits| - 1 ==> edits[1..][j] == edits[j + 1];
      NotesAgree(a, b, edits[1..]);
    }
  }

  /**
   * Single-channel idempotence: once the device reports the values a call
   * settled on, the same call again writes nothing.
   */
  lemma SecondCallWritesNothing(http: HttpClient.Client, devicesData: Json, deviceId: string, params: Json,
                                io: Io, replies: Replies, current: Fields, replies2: Replies)
    requires LiveParams(http, replies, JObj(current)) && !Devices.IsMultiChannel(devicesData, deviceId)
    requires DistinctKeys(SingleEdits(Entries(params)))
    requires SingleDiff(current, SingleEdits(Entries(params)), NoDiff).Ok?
    requires LiveParams(http, replies2, JObj(SingleDiff(current, SingleEdits(Entries(params)), NoDiff).value.0))
    ensures SetDeviceStatus(http, devicesData, deviceId, params, io, replies2).writes == []
  {
    var edits := SingleEdits(Entries(params));
    var final := SingleDiff(current, edits, NoDiff).value.0;
    SingleSettled(current, edits);
    assert Pairs(JObj(final)) == final;
    QuietDiffNoWrite(http, devicesData, deviceId, params, io, replies2, JObj(final));
  }

  /** Diffing the same edits against the parameters a diff settled on finds nothing to change. */
  lemma SingleSettled(current: Fields, edits: Fields)
    requires DistinctKeys(edits) && SingleDiff(current, edits, NoDiff).Ok?
    ensures var final := SingleDiff(current, edits, NoDiff).value.0;
      && SingleDiff(final, edits, NoDiff).Ok?
      && |SingleDiff(final, edits, NoDiff).value.1.changes| == 0
  {
    var final := SingleDiff(current, edits, NoDiff).value.0;
    SingleFinal(current, edits, NoDiff);
    assert AllSet(final, edits);
    KnownUpTo(current, edits, |edits|);
    assert forall i :: 0 <= i < |edits| ==> HasKey(final, edits[i].0);
    assert !exists i :: FirstUnknownAt(final, edits, i);
    SingleNoChange(final, edits, NoDiff);
  }

  /** Without a first unknown key, every key is known. */
  lemma {:induction false} KnownUpTo(current: Fields, edits: Fields, n: nat)
    requires n <= |edits| && !exists i :: FirstUnknownAt(current, edits, i)
    ensures forall j :: 0 <= j < n ==> HasKey(current, edits[j].0)
  {
    if n > 0 {
      KnownUpTo(current, edits, n - 1);
      if !HasKey(current, edits[n - 1].0) {
        assert FirstUnknownAt(current, edits, n - 1);
      }
    }
  }

  /** Multi-channel: a missing outlet aborts the whole call before any write, whatever came before it. */
  lemma UnknownOutletNoWrite(http: HttpClient.Client, devicesData: Json, deviceId: string, params: Json,
                             io: Io, replies: Replies, current: Json, i: nat)
    requires LiveParams(http, replies, current) && Devices.IsMultiChannel(devicesData, deviceId)
    requires Field(current, "switches").JArr?
    requires FirstMissingAt(Field(current, "switches").items, OutletEdits(Entries(params)), i)
    ensures SetDeviceStatus(http, devicesData, deviceId, params, io, replies)
            == StatusRun(http, [StatusRequest(http, io.query, deviceId, None)], [], [],
                         Ok(Aborted(UnknownOutlet(OutletEdits(Entries(params))[i].outlet))))
  {
    var edits := OutletEdits(Entries(params));
    var switches := Field(current, "switches").items;
    var md := MultiDiff(switches, edits, NoDiff);
    var k :| FirstMissingAt(switches, edits, k) && md.error == UnknownOutlet(edits[k].outlet);
    assert k == i;
  }

  /**
   * Multi-channel, each outlet and key named once, all outlets present,
   * something differs: the one write carries the whole `switches` list
   * the outlet diff settled on (`MultiFinal` states its contents).
   */
  lemma MultiWritesSwitches(http: HttpClient.Client, devicesData: Json, deviceId: string, params: Json,
                            io: Io, replies: Replies, current: Json)
    requires LiveParams(http, replies, current) && Devices.IsMultiChannel(devicesData, deviceId)
    requires Field(current, "switches").JArr?
    requires var switches := Field(current, "switches").items;
      var edits := OutletEdits(Entries(params));
      && DistinctTargets(edits)
      && (forall i :: 0 <= i < |edits| ==> KnownOutlet(switches, edits[i]))
      && !(forall i :: 0 <= i < |edits| ==> OutletSet(switches, edits[i]))
    ensures var switches := Field(current, "switches").items;
      var md := MultiDiff(switches, OutletEdits(Entries(params)), NoDiff);
      && md.Ok?
      && SetDeviceStatus(http, devicesData, deviceId, params, io, replies).writes == [WriteBody(deviceId, md.value.1.updated)]
      && Lookup(md.value.1.updated, "switches") == JArr(md.value.0)
  {
    var switches := Field(current, "switches").items;
    var edits := OutletEdits(Entries(params));
    assert !exists i :: FirstMissingAt(switches, edits, i);
    var md := MultiDiff(switches, edits, NoDiff);
    MultiNoChange(switches, edits, NoDiff);
    assert Reconcile(true, current, params) == Ok(md.value.1);
    ChangedDiffWrites(http, devicesData, deviceId, params, io, replies, current);
  }

  /**
   * Multi-channel, every outlet present: the call writes nothing exactly
   * when every outlet already holds its desired values, and then returns
   * exactly the "already set" notes, each after its numeric-string warning.
   */
  lemma MultiWriteIffChanged(http: HttpClient.Client, devicesData: Json, deviceId: string, params: Json,
                             io: Io, replies: Replies, current: Json)
    requires LiveParams(http, replies, current) && Devices.IsMultiChannel(devicesData, deviceId)
    requires Field(current, "switches").JArr?
    requires AllKnown(Field(current, "switches").items, OutletEdits(Entries(params)))
    ensures var r := SetDeviceStatus(http, devicesData, deviceId, params, io, replies);
      var switches := Field(current, "switches").items;
      var edits := OutletEdits(Entries(params));
      && (r.writes == [] <==> AllOutletsSet(switches, edits))
      && (r.writes == [] ==> r.result == Ok(AlreadySet(OutletAlreadySetNotes(edits))))
  {
    var switches := Field(current, "switches").items;
    var edits := OutletEdits(Entries(params));
    MultiQuietIff(switches, edits);
    var md := MultiDiff(switches, edits, NoDiff);
    assert LiveDiff(devicesData, deviceId, params, current) == Ok(md.value.1);
    if |md.value.1.changes| == 0 {
      QuietDiffNoWrite(http, devicesData, deviceId, params, io, replies, current);
    } else {
      ChangedDiffWrites(http, devicesData, deviceId, params, io, replies, current);
    }
  }

  /** Known outlets: the outlet diff changes nothing exactly when every outlet is set, and then gathers the "already set" notes. */
  lemma MultiQuietIff(switches: seq<Json>, edits: seq<OutletEdit>)
    requires forall i :: 0 <= i < |edits| ==> edits[i].key != "outlet"
    requires AllKnown(switches, edits)
    ensures var md := MultiDiff(switches, edits, NoDiff);
      && md.Ok?
      && (|md.value.1.changes| == 0 <==> AllOutletsSet(switches, edits))
      && (|md.value.1.changes| == 0 ==> md.value.1.messages == OutletAlreadySetNotes(edits))
  {
    assert !exists i :: FirstMissingAt(switches, edits, i);
    var md := MultiDiff(switches, edits, NoDiff);
    MultiNoChange(switches, edits, NoDiff);
    if AllOutletsSet(switches, edits) {
      MultiQuietDiff(switches, edits, NoDiff);
      var notes := OutletAlreadySetNotes(edits);
      assert NoDiff.messages + notes == notes;
      assert md == Ok((switches, NoDiff.(messages := notes)));
    }
  }

  /**
   * Multi-channel, each outlet and key named once, all outlets present: a
   * successful update reports one change note per differing assignment,
   * with its live and its new value, and the warnings and "already set"
   * notes, in parameter order.
   */
  lemma MultiUpdatedReport(http: HttpClient.Client, devicesData: Json, deviceId: string, params: Json,
                           io: Io, replies: Replies, current: Json)
    requires LiveParams(http, replies, current) && Devices.IsMultiChannel(devicesData, deviceId)
    requires Field(current, "switches").JArr?
    requires AllKnown(Field(current, "switches").items, OutletEdits(Entries(params)))
    requires DistinctTargets(OutletEdits(Entries(params)))
    requires SetDeviceStatus(http, devicesData, deviceId, params, io, replies).result.Ok?
    requires SetDeviceStatus(http, devicesData, deviceId, params, io, replies).result.value.Updated?
    ensures SetDeviceStatus(http, devicesData, deviceId, params, io, replies).result.value
            == Updated(OutletChangeNotes(Field(current, "switches").items, OutletEdits(Entries(params))),
                       OutletMessageNotes(Field(current, "switches").items, OutletEdits(Entries(params))))
  {
    var switches := Field(current, "switches").items;
    var edits := OutletEdits(Entries(params));
    var r := SetDeviceStatus(http, devicesData, deviceId, params, io, replies);
    var diff := LiveDiff(devicesData, deviceId, params, current);
    assert r.writes != [];
    assert r.result == WriteAndCheck(http, deviceId, diff.value, io, replies).result;
    assert r.result.value == Updated(diff.value.changes, diff.value.messages);
    MultiNotes(switches, edits, NoDiff);
    assert diff.value == MultiDiff(switches, edits, NoDiff).value.1;
    assert NoDiff.changes + OutletChangeNotes(switches, edits) == OutletChangeNotes(switches, edits);
    assert NoDiff.messages + OutletMessageNotes(switches, edits) == OutletMessageNotes(switches, edits);
  }

  /**
   * After a write, the call reports success exactly when every written
   * parameter reads back as written; otherwise the first disagreeing one
   * is reported.
   */
  lemma ReadBackDecides(http: HttpClient.Client, devicesData: Json, deviceId: string, params: Json,
                        io: Io, replies: Replies, updated: Fields)
    requires Responses.PostResult(replies.write).Ok?
    requires SetDeviceStatus(http, devicesData, deviceId, params, io, replies).writes == [WriteBody(deviceId, updated)]
    ensures var r := SetDeviceStatus(http, devicesData, deviceId, params, io, replies);
      && (r.result.Ok? && r.result.value.Updated? <==>
            forall i :: 0 <= i < |updated| ==> Confirmed(http, io.query, deviceId, replies.read, updated[i]))
      && (r.result.Ok? && r.result.value.WriteFailed? ==>
            exists i :: MismatchAt(http, io.query, deviceId, replies.read, updated, i, r.result.value.mismatch))
  {
    var live := Responses.GetResult(replies.live, false);
    var all := Devices.GetAllDeviceParamLive(live.value);
    var diff := LiveDiff(devicesData, deviceId, params, all.value.value);
    assert WriteBody(deviceId, diff.value.updated) == WriteBody(deviceId, updated);
    assert diff.value.updated == updated;
    VerifyWriteDecides(http, io.query, deviceId, replies.read, updated);
  }

  /** A 401 on the live read clears the token and raises before anything else is sent. */
  lemma UnauthorizedLiveReadClears(http: HttpClient.Client, devicesData: Json, deviceId: string, params: Json,
                                   io: Io, replies: Replies)
    requires Utils.IsValidRegion(http.region) && Responses.ClearsToken(replies.live)
    ensures var r := SetDeviceStatus(http, devicesData, deviceId, params, io, replies);
      && r == StatusRun(http.(token := Token.ClearToken(http.token)), [StatusRequest(http, io.query, deviceId, None)],
                        [], [], r.result)
      && r.result.Err? && r.result.error.Http?
      && r.result.error.cause.message == "Error 401: " + Responses.Message401
  {
    Responses.ClearingRepliesFail(replies.live, false);
    Responses.AuthErrorText();
  }

  /** A 401 on the status POST clears the token and raises; nothing is read back. */
  lemma UnauthorizedWriteClears(http: HttpClient.Client, devicesData: Json, deviceId: string, params: Json,
                                io: Io, replies: Replies, current: Json)
    requires LiveParams(http, replies, current)
    requires var diff := LiveDiff(devicesData, deviceId, params, current);
      diff.Ok? && |diff.value.changes| > 0
    requires Responses.ClearsToken(replies.write)
    ensures var r := SetDeviceStatus(http, devicesData, deviceId, params, io, replies);
      && r.client == http.(token := Token.ClearToken(http.token))
      && |r.sent| == 2 && r.readKeys == []
      && r.result == Err(Http(Responses.PostResult(replies.write).error))
  {
    Responses.ClearingRepliesFail(replies.write, false);
    ChangedDiffWrites(http, devicesData, deviceId, params, io, replies, current);
    var r := SetDeviceStatus(http, devicesData, deviceId, params, io, replies);
    var w := WriteAndCheck(http, deviceId, LiveDiff(devicesData, deviceId, params, current).value, io, replies);
    assert r == w.(sent := r.sent) && r.sent == [r.sent[0]] + w.sent;
  }
}

=== FILE: devices.dfy ===
/**
 * Read-only questions about the cached device catalogue (`devicesData`,
 * whose `thingList` holds one entry per device with its `itemData`) and
 * the shaping of live-parameter replies.
 */
module Devices {
  import opened Wrappers
  import opened Json
  import Text

  /** The entries `foreach ($devicesData['thingList'] ...)` visits. */
  function Things(devicesData: Json): seq<Json> {
    if !Falsy(devicesData) && IsSet(devicesData, "thingList") then Elements(Field(devicesData, "thingList")) else []
  }

  function ItemData(device: Json): Json {
    Field(device, "itemData")
  }

  /** `$device['itemData']['deviceid'] === $deviceId` for a string id. */
  predicate IsDevice(device: Json, deviceId: string) {
    Field(ItemData(device), "deviceid") == JStr(deviceId)
  }

  /** Position `i` holds the first device with the id. */
  predicate FirstDeviceAt(things: seq<Json>, deviceId: string, i: int) {
    && 0 <= i < |things|
    && IsDevice(things[i], deviceId)
    && forall j :: 0 <= j < i ==> !IsDevice(things[j], deviceId)
  }

  /** The itemData of the first device with the given id, or none. */
  method GetDeviceById(devicesData: Json, deviceId: string) returns (r: Option<Json>)
    ensures var things := Things(devicesData);
      r.None? <==> forall i :: 0 <= i < |things| ==> !IsDevice(things[i], deviceId)
    ensures var things := Things(devicesData);
      r.Some? ==> exists i :: FirstDeviceAt(things, deviceId, i) && r.value == ItemData(things[i])
  {
    var things := Things(devicesData);
    var i := 0;
    while i < |things|
      invariant 0 <= i <= |things|
      invariant forall j :: 0 <= j < i ==> !IsDevice(things[j], deviceId)
    {
      if IsDevice(things[i], deviceId) {
        assert FirstDeviceAt(things, deviceId, i);
        return Some(ItemData(things[i]));
      }
      i := i + 1;
    }
    return None;
  }

  /** `$v == 1` for the values a decoded flag takes. */
  predicate IsLooseOne(v: Json) {
    v == JInt(1) || v == JBool(true) || v == JStr("1")
  }

  /** A device with the id that states whether it supports channel split. */
  predicate DeclaresSplit(device: Json, deviceId: string) {
    IsDevice(device, deviceId) && IsSet(ItemData(device), "isSupportChannelSplit")
  }

  predicate FirstSplitAt(things: seq<Json>, deviceId: string, i: int) {
    && 0 <= i < |things|
    && DeclaresSplit(things[i], deviceId)
    && forall j :: 0 <= j < i ==> !DeclaresSplit(things[j], deviceId)
  }

  /**
   * Multi-channel: the first device with the id that carries
   * `isSupportChannelSplit` decides, by that flag being 1.
   */
  function IsMultiChannelIn(things: seq<Json>, deviceId: string): (r: bool)
    ensures r <==> exists i :: FirstSplitAt(things, deviceId, i)
                             && IsLooseOne(Field(ItemData(things[i]), "isSupportChannelSplit"))
    ensures (forall i :: 0 <= i < |things| ==> !IsDevice(things[i], deviceId)) ==> !r
  {
    if |things| == 0 then false
    else if DeclaresSplit(things[0], deviceId) then
      assert FirstSplitAt(things, deviceId, 0);
      assert forall i :: FirstSplitAt(things, deviceId, i) ==> i == 0;
      IsLooseOne(Field(ItemData(things[0]), "isSupportChannelSplit"))
    else
      var rest := IsMultiChannelIn(things[1..], deviceId);
      assert forall i :: FirstSplitAt(things[1..], deviceId, i) <==>
                         FirstSplitAt(things, deviceId, i + 1);
      assert forall i :: FirstSplitAt(things, deviceId, i) ==> i > 0;
      assert forall i :: 0 <= i < |things| - 1 ==> things[1..][i] == things[i + 1];
      rest
  }

  function IsMultiChannel(devicesData: Json, deviceId: string): bool {
    IsMultiChannelIn(Things(devicesData), deviceId)
  }

  /** A device with the id whose itemData holds the key directly. */
  predicate HoldsParam(device: Json, deviceId: string, key: string) {
    IsDevice(device, deviceId) && IsSet(ItemData(device), key)
  }

  predicate FirstHolderAt(things: seq<Json>, deviceId: string, key: string, i: int) {
    && 0 <= i < |things|
    && HoldsParam(things[i], deviceId, key)
    && forall j :: 0 <= j < i ==> !HoldsParam(things[j], deviceId, key)
  }

  /** The direct-key case of `searchDeviceParam`. */
  function SearchDeviceParamIn(things: seq<Json>, key: string, deviceId: string): (r: Option<Json>)
    ensures r.None? <==> forall i :: 0 <= i < |things| ==> !HoldsParam(things[i], deviceId, key)
    ensures r.Some? ==> exists i :: FirstHolderAt(things, deviceId, key, i)
                                    && r.value == Field(ItemData(things[i]), key)
  {
    if |things| == 0 then None
    else if HoldsParam(things[0], deviceId, key) then
      assert FirstHolderAt(things, deviceId, key, 0);
      Some(Field(ItemData(things[0]), key))
    else
      var rest := SearchDeviceParamIn(things[1..], key, deviceId);
      assert forall i :: 0 <= i < |things| - 1 ==> things[1..][i] == things[i + 1];
      assert rest.Some? ==> exists i :: FirstHolderAt(things, deviceId, key, i)
                                        && rest.value == Field(ItemData(things[i]), key) by {
        if rest.Some? {
          var i :| FirstHolderAt(things[1..], deviceId, key, i)
                   && rest.value == Field(ItemData(things[1..][i]), key);
          assert FirstHolderAt(things, deviceId, key, i + 1);
        }
      }
      rest
  }

  function SearchDeviceParam(devicesData: Json, key: string, deviceId: string): Option<Json> {
    SearchDeviceParamIn(Things(devicesData), key, deviceId)
  }

  /** A value that is present is found by the search, on the first device holding it. */
  lemma SearchFindsFirstHolder(things: seq<Json>, key: string, deviceId: string, i: nat)
    requires FirstHolderAt(things, deviceId, key, i)
    ensures SearchDeviceParamIn(things, key, deviceId) == Some(Field(ItemData(things[i]), key))
  {
    var r := SearchDeviceParamIn(things, key, deviceId);
    var k :| FirstHolderAt(things, deviceId, key, k) && r.value == Field(ItemData(things[k]), key);
    assert k == i;
  }

  const StatusEndpoint: string := "/v2/device/thing/status"

  /** The `param` argument: one name, or a list of names. */
  datatype ParamRequest = One(name: string) | Many(names: seq<string>)

  /** The `params` query value: a list is joined with '|'. */
  function ParamString(p: ParamRequest): string {
    match p
    case One(name) => name
    case Many(names) => Text.Join(names, '|')
  }

  /** The query names survive the join: splitting the query on '|' gives them back. */
  lemma ParamStringRecoverable(names: seq<string>)
    requires |names| > 0
    requires forall k :: 0 <= k < |names| ==> '|' !in names[k]
    ensures Text.Split(ParamString(Many(names)), '|') == names
  {
    Text.SplitJoin(names, '|');
  }

  /** The query of a live-parameter read: id, type and (optionally) the names. */
  function LiveQuery(deviceId: string, p: Option<ParamRequest>, kind: int): seq<(string, string)> {
    [("id", deviceId), ("type", Text.IntToDecimal(kind))]
      + (if p.Some? then [("params", ParamString(p.value))] else [])
  }

  /** `$response['error'] != 0` for a set error field. */
  predicate IsLooseNonZero(v: Json) {
    match v
    case JNull => false
    case JBool(b) => b
    case JInt(i) => i != 0
    case JStr(s) => s != "0"
    case _ => true
  }

  /** The reply reports an error the live read turns into an exception. */
  predicate ReplyFailed(response: Json) {
    IsSet(response, "error") && IsLooseNonZero(Field(response, "error"))
  }

  function ReplyError(response: Json): string {
    "Error: " + Render(Field(response, "msg"))
  }

  /** `$result[$p] = isset($params[$p]) ? $params[$p] : null` for each name, in order. */
  function Collect(params: Json, names: seq<string>, acc: seq<(string, Json)>): (r: seq<(string, Json)>)
    ensures forall k :: HasKey(r, k) <==> HasKey(acc, k) || k in names
    ensures forall k :: k in names ==> Lookup(r, k) == Field(params, k)
    ensures forall k :: k !in names ==> Lookup(r, k) == Lookup(acc, k)
    decreases |names|
  {
    if |names| == 0 then acc
    else
      var acc1 := Put(acc, names[0], Field(params, names[0]));
      forall k ensures HasKey(acc1, k) <==> HasKey(acc, k) || k == names[0] {
        PutKeys(acc, names[0], Field(params, names[0]), k);
      }
      var r := Collect(params, names[1..], acc1);
      assert forall k :: k in names <==> k == names[0] || k in names[1..];
      r
  }

  /**
   * `getDeviceParamLive` after the GET: a failing reply throws; a list
   * request yields exactly the requested names, each with its value or
   * null; a single name yields its value or null.
   */
  function ShapeLive(response: Json, p: ParamRequest): (r: Result<Json, string>)
    ensures ReplyFailed(response) <==> r.Err?
    ensures r.Err? ==> r.error == ReplyError(response)
    ensures r.Ok? && p.One? ==> r.value == Field(Field(response, "params"), p.name)
    ensures r.Ok? && p.Many? ==>
      && r.value.JObj?
      && (forall k :: HasKey(r.value.fields, k) <==> k in p.names)
      && (forall k :: k in p.names ==> Field(r.value, k) == Field(Field(response, "params"), k))
  {
    if ReplyFailed(response) then Err(ReplyError(response))
    else
      var params := if IsSet(response, "params") then Field(response, "params") else JArr([]);
      assert forall k :: Field(params, k) == Field(Field(response, "params"), k);
      match p
      case One(name) => Ok(Field(params, name))
      case Many(names) => Ok(JObj(Collect(params, names, [])))
  }

  /** `getAllDeviceParamLive` after the GET: the reply's params, if any. */
  function GetAllDeviceParamLive(response: Json): (r: Result<Option<Json>, string>)
    ensures ReplyFailed(response) <==> r.Err?
    ensures r.Ok? ==> (r.value.Some? <==> IsSet(response, "params"))
    ensures r.Ok? && r.value.Some? ==> r.value.value == Field(response, "params")
  {
    if ReplyFailed(response) then Err(ReplyError(response))
    else if IsSet(response, "params") then Ok(Some(Field(response, "params")))
    else Ok(None)
  }

  /** A list request for one name and the single-name request agree. */
  lemma OneNameAgrees(response: Json, name: string)
    ensures ShapeLive(response, Many([name])).Ok? <==> ShapeLive(response, One(name)).Ok?
    ensures ShapeLive(response, Many([name])).Ok? ==>
      Field(ShapeLive(response, Many([name])).value, name) == ShapeLive(response, One(name)).value
  {
  }
}

=== FILE: frame.dfy ===
/**
 * The hybi-10 frame codec of the real-time client (`hybi10Encode` and
 * `hybi10Decode`): the base framing of section 5.2 of RFC 6455 and the
 * client-to-server masking of section 5.3. Both client variants carry the
 * same codec; they differ only in where the random mask comes from, which
 * here is a parameter.
 */
module Frame {
  import opened Wrappers

  /** A byte as PHP's `ord` and `chr` see it. */
  newtype Byte = x: int | 0 <= x < 256

  /** `$b & 0x80`, the top bit of a byte, is set. */
  predicate HighBit(b: Byte) {
    b >= 128
  }

  /** `$b & 0x7F`: the byte without its top bit. */
  function Low7(b: Byte): Byte {
    b % 128
  }

  function Pow2(k: nat): (r: nat)
    ensures r > 0
  {
    if k == 0 then 1 else 2 * Pow2(k - 1)
  }

  /** Bitwise exclusive or of the `k` lowest bits of two naturals, lowest bit first. */
  function Xor(a: nat, b: nat, k: nat): nat
    decreases k
  {
    if k == 0 then 0 else 2 * Xor(a / 2, b / 2, k - 1) + (a % 2 + b % 2) % 2
  }

  /** Exclusive or of `k` bits has at most `k` bits. */
  lemma {:induction false} XorBound(a: nat, b: nat, k: nat)
    ensures Xor(a, b, k) < Pow2(k)
    decreases k
  {
    if k > 0 {
      XorBound(a / 2, b / 2, k - 1);
    }
  }

  /** `$a ^ $b` on two bytes. */
  function XorByte(a: Byte, b: Byte): Byte {
    XorBound(a as nat, b as nat, 8);
    Xor(a as nat, b as nat, 8) as Byte
  }

  /** Exclusive or with the same value twice is the identity on `k`-bit numbers. */
  lemma {:induction false} XorTwice(a: nat, b: nat, k: nat)
    requires a < Pow2(k)
    ensures Xor(Xor(a, b, k), b, k) == a
    decreases k
  {
    if k > 0 {
      var x := Xor(a, b, k);
      XorStep(a, b, k);
      XorStep(x, b, k);
      HalfBelow(a, Pow2(k - 1));
      XorTwice(a / 2, b / 2, k - 1);
      Reassemble(a, b, Xor(x, b, k));
    }
  }

  /** The low bit of an exclusive or, and what remains above it. */
  lemma XorStep(a: nat, b: nat, k: nat)
    requires k > 0
    ensures Xor(a, b, k) / 2 == Xor(a / 2, b / 2, k - 1)
    ensures Xor(a, b, k) % 2 == (a % 2 + b % 2) % 2
  {
    Halves(Xor(a / 2, b / 2, k - 1), (a % 2 + b % 2) % 2);
  }

  lemma Halves(q: nat, r: nat)
    requires r < 2
    ensures (2 * q + r) / 2 == q && (2 * q + r) % 2 == r
  {
  }

  lemma HalfBelow(a: nat, p: nat)
    requires a < 2 * p
    ensures a / 2 < p
  {
  }

  /** A number with the half of `a` and the low bit of `a` flipped twice by `b` is `a`. */
  lemma Reassemble(a: nat, b: nat, y: nat)
    requires y / 2 == a / 2 && y % 2 == ((a % 2 + b % 2) % 2 + b % 2) % 2
    ensures y == a
  {
    BitTwice(a % 2, b % 2);
    Recompose(y, a);
  }

  lemma BitTwice(p: nat, q: nat)
    requires p < 2 && q < 2
    ensures ((p + q) % 2 + q) % 2 == p
  {
  }

  /** A natural is determined by its half and its low bit. */
  lemma Recompose(y: nat, a: nat)
    requires y / 2 == a / 2 && y % 2 == a % 2
    ensures y == a
  {
  }

  /** The four masking-key bytes; the source draws them at random per frame. */
  type Mask = m: seq<Byte> | |m| == 4 witness [0, 0, 0, 0]

  /** The `$type` argument of the encoder. */
  datatype FrameType = Text | Close | Ping | Pong

  /** Opcodes of section 5.2 of RFC 6455. */
  function Opcode(t: FrameType): nat {
    match t
    case Text => 0x1
    case Close => 0x8
    case Ping => 0x9
    case Pong => 0xA
  }

  /** Byte 0: FIN set (the client never fragments), reserved bits clear, then the opcode. */
  function FirstByte(t: FrameType): Byte {
    (0x80 + Opcode(t)) as Byte
  }

  /** Largest payload whose length fits the 7-bit field. */
  const Max7: nat := 125
  /** Largest payload whose length fits the 16-bit extended field. */
  const Max16: nat := 0xFFFF
  /** 2^56: the weight of the most significant byte of the 64-bit length. */
  const Top64: nat := 0x100_0000_0000_0000

  /** The 7-bit length field of byte 1 for an `n`-byte payload. */
  function LengthMarker(n: nat): nat {
    if n > Max16 then 127 else if n > Max7 then 126 else n
  }

  /** Header size before the mask: two fixed bytes plus the extended length. */
  function HeaderSize(n: nat): nat {
    if n > Max16 then 10 else if n > Max7 then 4 else 2
  }

  /** The 64-bit length can be sent: its most significant byte is at most 127. */
  predicate Encodable(n: nat) {
    n / Top64 <= 127
  }

  function Pow256(w: nat): (r: nat)
    ensures r > 0
  {
    if w == 0 then 1 else 256 * Pow256(w - 1)
  }

  /** `w` big-endian bytes holding `n` modulo 256^w. */
  function BigEndian(n: nat, w: nat): (r: seq<Byte>)
    ensures |r| == w
  {
    if w == 0 then [] else BigEndian(n / 256, w - 1) + [(n % 256) as Byte]
  }

  /** The unsigned number a big-endian byte string denotes. */
  function BigEndianValue(bs: seq<Byte>): nat {
    if |bs| == 0 then 0 else BigEndianValue(bs[..|bs| - 1]) * 256 + bs[|bs| - 1] as nat
  }

  /** Big-endian encoding of a number that fits is read back exactly. */
  lemma {:induction false} BigEndianRoundTrip(n: nat, w: nat)
    requires n < Pow256(w)
    ensures BigEndianValue(BigEndian(n, w)) == n
  {
    if w > 0 {
      var r := BigEndian(n, w);
      assert r[..w - 1] == BigEndian(n / 256, w - 1);
      DivBelow(n, Pow256(w - 1));
      BigEndianRoundTrip(n / 256, w - 1);
    }
  }

  lemma DivBelow(n: nat, p: nat)
    requires n < 256 * p
    ensures n / 256 < p
  {
  }

  /** Byte 1: the length field, plus 128 for the mask bit when the frame is masked. */
  function MarkerByte(masked: bool, marker: nat): Byte
    requires marker < 128
  {
    if masked then (marker + 128) as Byte else marker as Byte
  }

  /** Header bytes after byte 0: byte 1, then the extended length if any. */
  function LengthBytes(n: nat, masked: bool): (r: seq<Byte>)
    ensures |r| == HeaderSize(n) - 1
  {
    if n > Max16 then [MarkerByte(masked, 127)] + BigEndian(n, 8)
    else if n > Max7 then [MarkerByte(masked, 126)] + BigEndian(n, 2)
    else [MarkerByte(masked, n)]
  }

  /** Every byte XORed with `mask[i mod 4]`, as section 5.3 of RFC 6455 prescribes. */
  function ApplyMask(data: seq<Byte>, mask: Mask): (r: seq<Byte>)
    ensures |r| == |data|
    ensures forall i :: 0 <= i < |data| ==> r[i] == XorByte(data[i], mask[i % 4])
  {
    seq(|data|, i requires 0 <= i < |data| => XorByte(data[i], mask[i % 4]))
  }

  /** Masking twice with the same key restores the data. */
  lemma MaskInvolution(data: seq<Byte>, mask: Mask)
    ensures ApplyMask(ApplyMask(data, mask), mask) == data
  {
    var once := ApplyMask(data, mask);
    var twice := ApplyMask(once, mask);
    forall i | 0 <= i < |data|
      ensures twice[i] == data[i]
    {
      XorTwice(data[i] as nat, mask[i % 4] as nat, 8);
    }
  }

  /**
   * `hybi10Encode`: `None` is the source's `false`, returned when the most
   * significant byte of the 64-bit length would exceed 127.
   */
  function Encode(payload: seq<Byte>, t: FrameType, masked: bool, mask: Mask): (r: Option<seq<Byte>>)
    ensures r.Some? <==> Encodable(|payload|)
    ensures r.Some? ==> |r.value| == HeaderSize(|payload|) + (if masked then 4 else 0) + |payload|
  {
    var n := |payload|;
    if n > Max16 && !Encodable(n) then None
    else
      var head := [FirstByte(t)] + LengthBytes(n, masked);
      if masked then Some(head + mask + ApplyMask(payload, mask))
      else Some(head + payload)
  }

  /** `substr($s, $k)` with PHP 8's empty result past the end. */
  function Suffix(s: seq<Byte>, k: nat): (r: seq<Byte>)
    ensures |r| == if k <= |s| then |s| - k else 0
  {
    if k <= |s| then s[k..] else []
  }

  /**
   * Offset of the masking key or payload for a given 7-bit length field:
   * the field value 126 announces 2 extended bytes, 127 announces 8.
   */
  function PayloadOffset(marker: Byte): nat {
    if marker == 126 then 4 else if marker == 127 then 10 else 2
  }

  /**
   * `hybi10Decode`: reads only byte 1 (mask bit and length field) to find
   * where the payload starts, then returns every byte after the header and
   * key, unmasked. A string shorter than two bytes reads byte 1 as zero.
   */
  function Decode(data: seq<Byte>): (r: seq<Byte>)
    ensures |r| <= |data|
  {
    var second: Byte := if |data| >= 2 then data[1] else 0;
    var masked := HighBit(second);
    var marker := if masked then Low7(second) else second;
    var offset := PayloadOffset(marker);
    if masked then
      if |data| <= offset + 4 then [] else ApplyMask(data[offset + 4..], data[offset..offset + 4])
    else
      Suffix(data, offset)
  }

  /**
   * Byte 1 as the decoder reads it back: the mask bit says whether the frame
   * is masked and the length field selects the header size the encoder used.
   */
  lemma MarkerByteFields(masked: bool, n: nat)
    ensures var b := MarkerByte(masked, LengthMarker(n));
      && (HighBit(b) <==> masked)
      && Low7(b) == LengthMarker(n) as Byte
      && (if masked then Low7(b) else b) == LengthMarker(n) as Byte
      && PayloadOffset(LengthMarker(n) as Byte) == HeaderSize(n)
  {
  }

  /** Byte 0 of every frame is 129 (text), 136 (close), 137 (ping) or 138 (pong). */
  lemma EncodeFirstByte(payload: seq<Byte>, t: FrameType, masked: bool, mask: Mask)
    requires Encodable(|payload|)
    ensures Encode(payload, t, masked, mask).value[0] as nat ==
      match t
      case Text => 129
      case Close => 136
      case Ping => 137
      case Pong => 138
  {
  }

  /**
   * Byte 1 carries the mask bit iff the frame is masked, and its low seven
   * bits are the length itself up to 125, 126 up to 65535, and 127 beyond;
   * the extended bytes that follow hold the length big-endian.
   */
  lemma EncodeLengthFields(payload: seq<Byte>, t: FrameType, masked: bool, mask: Mask)
    requires Encodable(|payload|)
    ensures var f := Encode(payload, t, masked, mask).value;
      var n := |payload|;
      && (HighBit(f[1]) <==> masked)
      && Low7(f[1]) == LengthMarker(n) as Byte
      && (n <= Max7 ==> HeaderSize(n) == 2)
      && (Max7 < n <= Max16 ==> HeaderSize(n) == 4 && BigEndianValue(f[2..4]) == n)
      && (Max16 < n ==> HeaderSize(n) == 10 && BigEndianValue(f[2..10]) == n)
  {
    var f := Encode(payload, t, masked, mask).value;
    var n := |payload|;
    MarkerByteFields(masked, n);
    if Max7 < n <= Max16 {
      assert f[2..4] == BigEndian(n, 2);
      BigEndianRoundTrip(n, 2);
    } else if Max16 < n {
      assert f[2..10] == BigEndian(n, 8);
      assert n < Pow256(8);
      BigEndianRoundTrip(n, 8);
    }
  }

  /**
   * A masked frame is header, the four mask bytes, then each payload byte
   * XORed with the mask; an unmasked frame is header then the payload as is.
   */
  lemma EncodeLayout(payload: seq<Byte>, t: FrameType, masked: bool, mask: Mask)
    requires Encodable(|payload|)
    ensures var f := Encode(payload, t, masked, mask).value;
      var h := HeaderSize(|payload|);
      && (masked ==> f[h..h + 4] == mask && f[h + 4..] == ApplyMask(payload, mask))
      && (!masked ==> f[h..] == payload)
  {
  }

  /** Encoding fails exactly for payloads of 2^63 bytes or more. */
  lemma EncodeFailure(payload: seq<Byte>, t: FrameType, masked: bool, mask: Mask)
    ensures Encode(payload, t, masked, mask).None? <==> |payload| >= 0x8000_0000_0000_0000
  {
  }

  /**
   * Round trip: whatever the payload length, frame type and masking,
   * decoding an encoded frame yields the payload.
   */
  lemma RoundTrip(payload: seq<Byte>, t: FrameType, masked: bool, mask: Mask)
    requires Encodable(|payload|)
    ensures Decode(Encode(payload, t, masked, mask).value) == payload
  {
    var f := Encode(payload, t, masked, mask).value;
    var n := |payload|;
    var h := HeaderSize(n);
    MarkerByteFields(masked, n);
    assert f[1] == MarkerByte(masked, LengthMarker(n));
    EncodeLayout(payload, t, masked, mask);
    if masked {
      if n > 0 {
        MaskInvolution(payload, mask);
      }
    }
  }

  lemma RoundTripWhenEncodable(payload: seq<Byte>, t: FrameType, masked: bool, mask: Mask)
    ensures Encodable(|payload|) ==> Decode(Encode(payload, t, masked, mask).value) == payload
  {
    if Encodable(|payload|) {
      RoundTrip(payload, t, masked, mask);
    }
  }

  /**
   * The decoder looks at neither byte 0 nor the declared length: bytes
   * trailing an unmasked frame come back as part of the payload.
   */
  lemma DecodeReturnsRest(payload: seq<Byte>, t: FrameType, mask: Mask, extra: seq<Byte>, other: Byte)
    requires Encodable(|payload|)
    ensures var f := Encode(payload, t, false, mask).value;
      Decode(f + extra) == payload + extra && Decode((f + extra)[0 := other]) == payload + extra
  {
    var f := Encode(payload, t, false, mask).value;
    MarkerByteFields(false, |payload|);
    assert f[1] == MarkerByte(false, LengthMarker(|payload|));
    EncodeLayout(payload, t, false, mask);
    var h := HeaderSize(|payload|);
    assert (f + extra)[h..] == payload + extra;
    assert (f + extra)[0 := other][1] == f[1];
    assert (f + extra)[0 := other][h..] == payload + extra;
  }

  /** Bytes before the payload: the header, then the key when the frame is masked. */
  function PayloadStart(n: nat, masked: bool): nat {
    HeaderSize(n) + if masked then 4 else 0
  }

  /**
   * A frame cut short after `n` bytes, anywhere from the payload's start to
   * its end, decodes to the payload bytes before the cut: the decoder never
   * compares the declared length with what it was given.
   */
  lemma DecodeTruncated(payload: seq<Byte>, t: FrameType, masked: bool, mask: Mask, n: nat)
    requires Encodable(|payload|)
    requires PayloadStart(|payload|, masked) <= n <= |Encode(payload, t, masked, mask).value|
    ensures Decode(Encode(payload, t, masked, mask).value[..n]) == payload[..n - PayloadStart(|payload|, masked)]
  {
    var f := Encode(payload, t, masked, mask).value;
    MarkerByteFields(masked, |payload|);
    assert f[1] == MarkerByte(masked, LengthMarker(|payload|));
    EncodeLayout(payload, t, masked, mask);
    if masked {
      DecodeCutMasked(f, HeaderSize(|payload|), n, mask, payload);
    } else {
      DecodeCutPlain(f, HeaderSize(|payload|), n, payload);
    }
  }

  /** A masked frame cut after its key decodes to the unmasked bytes before the cut. */
  lemma DecodeCutMasked(f: seq<Byte>, h: nat, n: nat, mask: Mask, payload: seq<Byte>)
    requires 2 <= h && h + 4 <= n <= |f|
    requires HighBit(f[1]) && PayloadOffset(Low7(f[1])) == h
    requires f[h..h + 4] == mask && f[h + 4..] == ApplyMask(payload, mask)
    ensures Decode(f[..n]) == payload[..n - h - 4]
  {
    var g := f[..n];
    var k := n - h - 4;
    assert g[1] == f[1];
    assert g[h..h + 4] == mask by {
      assert g[h..h + 4] == f[h..h + 4];
    }
    var body := g[h + 4..];
    assert body == ApplyMask(payload, mask)[..k] by {
      assert body == f[h + 4..][..k];
    }
    var clear := ApplyMask(body, mask);
    forall i | 0 <= i < k
      ensures clear[i] == payload[i]
    {
      XorTwice(payload[i] as nat, mask[i % 4] as nat, 8);
    }
    assert clear == payload[..k];
  }

  /** An unmasked frame cut after its header decodes to the payload bytes before the cut. */
  lemma DecodeCutPlain(f: seq<Byte>, h: nat, n: nat, payload: seq<Byte>)
    requires 2 <= h <= n <= |f|
    requires !HighBit(f[1]) && PayloadOffset(f[1]) == h
    requires f[h..] == payload
    ensures Decode(f[..n]) == payload[..n - h]
  {
    var g := f[..n];
    assert g[1] == f[1];
    assert g[h..] == f[h..][..n - h];
  }
}

=== FILE: handshake.dfy ===
/**
 * The opening-handshake check shared by both real-time clients: the
 * server's `Sec-WebSocket-Accept` value must equal base64(SHA-1(key + GUID))
 * as section 4.1 of RFC 6455 requires. SHA-1 and base64 are parameters.
 */
module Handshake {
  import opened Wrappers
  import Text
  import Frame

  /** The fixed GUID of section 1.3 of RFC 6455. */
  const WebSocketGuid: string := "258EAFA5-E914-47DA-95CA-C5AB0DC85B11"

  datatype HandshakeError =
    | HandshakeFailed   // no usable accept value in the response
    | InvalidAccept     // an accept value that is not the expected one

  /** base64 of the raw 20-byte SHA-1 digest (`pack('H*', sha1(...))`) of key + GUID. */
  function ExpectedAccept(key: string, sha1: string -> seq<Frame.Byte>, base64: seq<Frame.Byte> -> string): string {
    base64(sha1(key + WebSocketGuid))
  }

  /** PHP falsiness of a string: only "" and "0". */
  predicate FalsyString(s: string) {
    s == "" || s == "0"
  }

  /**
   * `captured` is the text after `Sec-WebSocket-Accept:` and one whitespace
   * character up to the end of that line, or `None` when no header line
   * matched. The trimmed value must be truthy and equal the expected value.
   */
  function CheckAccept(captured: Option<string>, key: string,
                       sha1: string -> seq<Frame.Byte>, base64: seq<Frame.Byte> -> string): (r: Result<(), HandshakeError>)
    ensures captured.None? ==> r == Err(HandshakeFailed)
    ensures r.Ok? <==> captured.Some? && Text.Trim(captured.value) == ExpectedAccept(key, sha1, base64)
                       && !FalsyString(Text.Trim(captured.value))
    ensures r == Err(InvalidAccept) ==> Text.Trim(captured.value) != ExpectedAccept(key, sha1, base64)
  {
    var accept := Text.Trim(captured.GetOr(""));
    if FalsyString(accept) then Err(HandshakeFailed)
    else if accept != ExpectedAccept(key, sha1, base64) then Err(InvalidAccept)
    else Ok(())
  }

  /**
   * Surrounding whitespace and the carriage return that ends the header line
   * do not matter: a captured value that trims to the expected key passes.
   */
  lemma AcceptIgnoresPadding(value: string, key: string,
                             sha1: string -> seq<Frame.Byte>, base64: seq<Frame.Byte> -> string)
    requires value == ExpectedAccept(key, sha1, base64)
    requires !FalsyString(value)
    requires Text.Trim(value) == value
    ensures CheckAccept(Some(" " + value + "\r"), key, sha1, base64) == Ok(())
  {
    TrimPadding(value);
  }

  lemma TrimPadding(value: string)
    requires Text.Trim(value) == value
    ensures Text.Trim(" " + value + "\r") == value
  {
    var s := " " + value + "\r";
    var t := value + "\r";
    assert s[1..] == t;
    Text.TrimLeftStep(s);
    assert t[..|t| - 1] == value;
    if |value| > 0 {
      assert t[0] == value[0];
      Text.TrimLeftStep(t);
      Text.TrimRightStep(t);
      Text.TrimRightStep(value);
    } else {
      Text.TrimLeftStep(t);
      assert t[1..] == "";
    }
  }
}

=== FILE: http_client.dfy ===
/**
 * The request-side decisions of the HTTP client: the regional gateway,
 * the headers of a POST (Bearer token or request signature), URL
 * assembly, reply interpretation with token clearing on 401, and the
 * lazily built device catalogue.
 */
module HttpClient {
  import opened Wrappers
  import opened Json
  import Responses
  import Token
  import Utils
  import Devices

  /** The REST gateway of a region. */
  function GatewayUrl(region: string): (r: Result<string, string>)
    ensures r.Ok? <==> Utils.IsValidRegion(region)
    ensures r.Err? ==> r.error == "Invalid region"
  {
    if region == "cn" then Ok("https://cn-apia.coolkit.cn")
    else if region == "as" then Ok("https://as-apia.coolkit.cc")
    else if region == "us" then Ok("https://us-apia.coolkit.cc")
    else if region == "eu" then Ok("https://eu-apia.coolkit.cc")
    else Err("Invalid region")
  }

  /** The four gateways, as the gateway test lists them. */
  lemma GatewayTable()
    ensures GatewayUrl("cn") == Ok("https://cn-apia.coolkit.cn")
    ensures GatewayUrl("as") == Ok("https://as-apia.coolkit.cc")
    ensures GatewayUrl("us") == Ok("https://us-apia.coolkit.cc")
    ensures GatewayUrl("eu") == Ok("https://eu-apia.coolkit.cc")
  {
  }

  datatype Verb = Post | Get

  /** A request as it leaves the client. */
  datatype HttpRequest = HttpRequest(verb: Verb, url: string, headers: seq<string>, body: string)

  /**
   * `region` is the active region, `appId`/`secret` the application
   * credentials, `devices` the device catalogue once built.
   */
  datatype Client = Client(region: string, appId: string, secret: string,
                           token: Token.TokenState, devices: Option<Json>)

  /** The outcome of one client operation: the new client, the requests sent, the result. */
  datatype Exchange<T> = Exchange(client: Client, sent: seq<HttpRequest>, result: Result<T, Responses.HttpError>)

  /** The access token as it is interpolated into a header. */
  function AccessToken(c: Client): string {
    Render(Field(c.token.data, "accessToken"))
  }

  const ContentType: string := "Content-type: application/json; charset=utf-8"
  const BearerPrefix: string := "Authorization: Bearer "
  const SignPrefix: string := "Authorization: Sign "

  /** The headers of a POST; `sign` is HMAC-SHA256 followed by base64. */
  function PostHeaders(appId: string, nonce: string, useToken: bool, accessToken: string,
                       body: string, secret: string, sign: (string, string) -> string): (h: seq<string>)
    ensures |h| == 4
    ensures h[..3] == [ContentType, "X-CK-Appid: " + appId, "X-CK-Nonce: " + nonce]
    ensures useToken ==> h[3] == BearerPrefix + accessToken
    ensures !useToken ==> h[3] == SignPrefix + sign(body, secret)
  {
    [ContentType, "X-CK-Appid: " + appId, "X-CK-Nonce: " + nonce]
      + [if useToken then BearerPrefix + accessToken else SignPrefix + sign(body, secret)]
  }

  predicate IsBearer(header: string) {
    |header| >= |BearerPrefix| && header[..|BearerPrefix|] == BearerPrefix
  }

  /** The authorization header carries the bearer token exactly when token authorization is asked for. */
  lemma BearerIffToken(appId: string, nonce: string, useToken: bool, accessToken: string,
                       body: string, secret: string, sign: (string, string) -> string)
    ensures IsBearer(PostHeaders(appId, nonce, useToken, accessToken, body, secret, sign)[3]) <==> useToken
  {
    var h := PostHeaders(appId, nonce, useToken, accessToken, body, secret, sign)[3];
    if useToken {
      assert h[..|BearerPrefix|] == BearerPrefix;
    } else if |h| >= |BearerPrefix| {
      assert h[15] == 'S' && BearerPrefix[15] == 'B';
      assert h[..|BearerPrefix|][15] != BearerPrefix[15];
    }
  }

  /**
   * `postRequest`: `nonce` is a fresh nonce, `encode` is `json_encode`,
   * `raw` the decoded reply (`None` when the transfer failed). An invalid
   * region fails before anything is sent.
   */
  function PostRequest(c: Client, endpoint: string, data: Json, useToken: bool, nonce: string,
                       encode: Json -> string, sign: (string, string) -> string,
                       raw: Option<Json>): (r: Exchange<Json>)
    ensures !Utils.IsValidRegion(c.region) ==>
      r == Exchange(c, [], Err(Responses.Configuration("Invalid region")))
    ensures Utils.IsValidRegion(c.region) ==>
      && |r.sent| == 1 && r.sent[0].verb == Post
      && r.sent[0].url == GatewayUrl(c.region).value + endpoint
      && r.sent[0].body == encode(data)
      && r.result == Responses.PostResult(raw)
      && r.client == c.(token := Token.AfterReply(c.token, raw))
    ensures r.client.region == c.region && r.client.devices == c.devices
    ensures r.result.Ok? ==> r.client == c
  {
    var gateway := GatewayUrl(c.region);
    if gateway.Err? then Exchange(c, [], Err(Responses.Configuration(gateway.error)))
    else
      var body := encode(data);
      var headers := PostHeaders(c.appId, nonce, useToken, AccessToken(c), body, c.secret, sign);
      Exchange(c.(token := Token.AfterReply(c.token, raw)),
               [HttpRequest(Post, gateway.value + endpoint, headers, body)],
               Responses.PostResult(raw))
  }

  /** A 401 reply clears the token (when token.json exists); any other reply leaves it alone. */
  lemma OnlyUnauthorizedClears(c: Client, endpoint: string, data: Json, useToken: bool, nonce: string,
                               encode: Json -> string, sign: (string, string) -> string, raw: Option<Json>)
    requires Utils.IsValidRegion(c.region)
    ensures var r := PostRequest(c, endpoint, data, useToken, nonce, encode, sign, raw);
      && (Responses.ClearsToken(raw) ==> r.client.token == Token.ClearToken(c.token) && r.result.Err?)
      && (!Responses.ClearsToken(raw) ==> r.client == c)
  {
    if Responses.ClearsToken(raw) {
      Responses.ClearingRepliesFail(raw, false);
    }
  }

  /**
   * The token logic's signed POSTs and the client's agree, in every
   * region, on what is sent, the effect and the result.
   */
  lemma TokenPostAgrees(c: Client, call: Token.Call, nonce: string, encode: Json -> string,
                        sign: (string, string) -> string, raw: Option<Json>)
    ensures var r := PostRequest(c, call.endpoint, call.body, false, nonce, encode, sign, raw);
      var t := Token.Post(c.region, c.token, call, raw);
      && r.client.token == t.state
      && |r.sent| == |t.calls|
      && (r.result.Ok? <==> t.result.Ok?)
      && (r.result.Ok? ==> r.result.value == t.result.value)
      && (r.result.Err? ==> t.result.error == Token.Http(r.result.error))
      && (|r.sent| > 0 ==> !IsBearer(r.sent[0].headers[3]))
  {
    var r := PostRequest(c, call.endpoint, call.body, false, nonce, encode, sign, raw);
    BearerIffToken(c.appId, nonce, false, AccessToken(c), encode(call.body), c.secret, sign);
  }

  /** The URL of a GET: the endpoint itself in full-URL mode, else below the gateway. */
  function GetUrl(gateway: string, endpoint: string, query: string, fullUrl: bool): (u: string)
    ensures fullUrl ==> u == endpoint + "?" + query
    ensures !fullUrl ==> u == gateway + endpoint + "?" + query
  {
    (if fullUrl then "" else gateway) + endpoint + "?" + query
  }

  /**
   * `getRequest`: `query` is the encoded query string. Full-URL mode does
   * not consult the region; otherwise an invalid region fails first.
   */
  function GetRequest(c: Client, endpoint: string, query: string, fullUrl: bool,
                      raw: Option<Json>): (r: Exchange<Json>)
    ensures !fullUrl && !Utils.IsValidRegion(c.region) ==>
      r == Exchange(c, [], Err(Responses.Configuration("Invalid region")))
    ensures fullUrl || Utils.IsValidRegion(c.region) ==>
      && r.sent == [HttpRequest(Get, GetUrl(GatewayUrl(c.region).GetOr(""), endpoint, query, fullUrl),
                                [BearerPrefix + AccessToken(c)], "")]
      && r.result == Responses.GetResult(raw, fullUrl)
      && r.client.token == Token.AfterReply(c.token, raw)
    ensures r.client.region == c.region && r.client.devices == c.devices
    ensures r.result.Ok? ==> r.client == c
  {
    var gateway := GatewayUrl(c.region);
    if !fullUrl && gateway.Err? then Exchange(c, [], Err(Responses.Configuration(gateway.error)))
    else
      var url := GetUrl(gateway.GetOr(""), endpoint, query, fullUrl);
      Exchange(c.(token := Token.AfterReply(c.token, raw)),
               [HttpRequest(Get, url, [BearerPrefix + AccessToken(c)], "")],
               Responses.GetResult(raw, fullUrl))
  }

  datatype DevicesError =
    | TokenFailure(cause: Token.TokenError)
    | NoValidToken                          // "Cannot initialize Devices without valid token"
    | Request(failure: Responses.HttpError) // a GET of the Devices constructor raised
    | NoFamily                              // "Current family ID is not set. ..."

  /** One `getDevices` call: the new client, the token calls, the GETs sent, the catalogue or exception. */
  datatype DevicesStep = DevicesStep(client: Client, calls: seq<Token.Call>, sent: seq<HttpRequest>,
                                     result: Result<Json, DevicesError>)

  /**
   * What `new Devices($this)` meets: the reply to the family GET, the
   * decoded devices.json (`None` when the file does not exist), and the
   * reply to the device-list GET.
   */
  datatype CatalogueInputs = CatalogueInputs(family: Option<Json>, file: Option<Json>, things: Option<Json>)

  const FamilyEndpoint: string := "/v2/family"
  const ThingsEndpoint: string := "/v2/device/thing"

  /** The GET of `endpoint` below the gateway with the client's bearer token. */
  function GatewayGet(c: Client, endpoint: string, query: string): HttpRequest
    requires Utils.IsValidRegion(c.region)
  {
    HttpRequest(Get, GatewayUrl(c.region).value + endpoint + "?" + query, [BearerPrefix + AccessToken(c)], "")
  }

  /**
   * `Home::fetchFamilyData` after its GET: an error the data reports
   * raises "Error <code>: <message>"; otherwise the current family id,
   * null when absent.
   */
  function FamilyId(data: Json): (r: Result<Json, Responses.HttpError>)
    ensures r.Err? <==> IsSet(data, "error") && Devices.IsLooseNonZero(Field(data, "error"))
    ensures r.Err? ==> r.error == Responses.Failure(Field(data, "error"))
    ensures r.Ok? ==> r.value == Field(data, "currentFamilyId")
  {
    if IsSet(data, "error") && Devices.IsLooseNonZero(Field(data, "error")) then Err(Responses.Failure(Field(data, "error")))
    else Ok(Field(data, "currentFamilyId"))
  }

  /**
   * `new Devices($this)`: fetch the family, then take the catalogue from
   * devices.json, or fetch it for the current family when the file is
   * missing or decodes to null. `query` is `http_build_query`.
   */
  function BuildCatalogue(c: Client, query: seq<(string, string)> -> string, inputs: CatalogueInputs): (r: DevicesStep)
    ensures r.calls == []
    ensures !Utils.IsValidRegion(c.region) ==>
      r == DevicesStep(c, [], [], Err(Request(Responses.Configuration("Invalid region"))))
    ensures Utils.IsValidRegion(c.region) ==>
      && 1 <= |r.sent| <= 2
      && r.sent[0] == GatewayGet(c, FamilyEndpoint, query([("lang", "en")]))
      && var family := Responses.GetResult(inputs.family, false);
      && (family.Err? ==> r == DevicesStep(c.(token := Token.AfterReply(c.token, inputs.family)), [], r.sent,
                                            Err(Request(family.error))))
      && (family.Ok? ==>
            var id := FamilyId(family.value);
            && (id.Err? ==> r == DevicesStep(c, [], r.sent, Err(Request(id.error))))
            && (id.Ok? && inputs.file.Some? && inputs.file.value != JNull ==>
                  r == DevicesStep(c, [], r.sent, Ok(inputs.file.value)))
            && (id.Ok? && (inputs.file.None? || inputs.file.value == JNull) ==>
                  (Falsy(id.value) <==> r.result == Err(NoFamily)) && (Falsy(id.value) ==> r.client == c))
            && (|r.sent| == 2 <==> id.Ok? && (inputs.file.None? || inputs.file.value == JNull) && !Falsy(id.value))
            && (|r.sent| == 2 ==>
                  && r.sent[1] == GatewayGet(c, ThingsEndpoint, query([("lang", "en"), ("familyId", Render(id.value))]))
                  && r.client == c.(token := Token.AfterReply(c.token, inputs.things))
                  && var list := Responses.GetResult(inputs.things, false);
                  && r.result == (if list.Ok? then Ok(list.value) else Err(Request(list.error)))))
    ensures r.client.region == c.region && r.client.devices == c.devices
    ensures r.result.Ok? ==> r.client == c
  {
    var fam := GetRequest(c, FamilyEndpoint, query([("lang", "en")]), false, inputs.family);
    if fam.result.Err? then DevicesStep(fam.client, [], fam.sent, Err(Request(fam.result.error)))
    else
      var id := FamilyId(fam.result.value);
      if id.Err? then DevicesStep(fam.client, [], fam.sent, Err(Request(id.error)))
      else if inputs.file.Some? && inputs.file.value != JNull then DevicesStep(fam.client, [], fam.sent, Ok(inputs.file.value))
      else if Falsy(id.value) then DevicesStep(fam.client, [], fam.sent, Err(NoFamily))
      else
        var list := GetRequest(fam.client, ThingsEndpoint, query([("lang", "en"), ("familyId", Render(id.value))]),
                               false, inputs.things);
        DevicesStep(list.client, [], fam.sent + list.sent,
                    if list.result.Ok? then Ok(list.result.value) else Err(Request(list.result.error)))
  }

  /**
   * `getDevices`: the catalogue is built once, and only while a usable
   * token exists; the Devices constructor's own requests can still raise,
   * and then no catalogue is kept.
   */
  function GetDevices(c: Client, now: int, refreshReply: Option<Json>, encode: Json -> string,
                      query: seq<(string, string)> -> string, inputs: CatalogueInputs): (r: DevicesStep)
    ensures c.devices.Some? ==> r == DevicesStep(c, [], [], Ok(c.devices.value))
    ensures c.devices.None? ==>
      var check := Token.CheckAndRefresh(c.region, c.token, now, refreshReply, encode);
      var built := BuildCatalogue(c.(token := check.state), query, inputs);
      && r.calls == check.calls
      && (r.result.Ok? <==> check.result == Ok(true) && built.result.Ok?)
      && (r.result.Ok? ==> r.result.value == built.result.value && r.client.devices == Some(r.result.value))
      && (r.result.Err? ==> r.client.devices.None?)
      && (check.result == Ok(true) ==> r.sent == built.sent && r.client.token == built.client.token)
      && (check.result != Ok(true) ==> r.sent == [] && r.client.token == check.state)
      && (check.result == Ok(false) ==> r.result == Err(NoValidToken))
  {
    if c.devices.Some? then DevicesStep(c, [], [], Ok(c.devices.value))
    else
      var check := Token.CheckAndRefresh(c.region, c.token, now, refreshReply, encode);
      var c1 := c.(token := check.state);
      match check.result
      case Err(e) => DevicesStep(c1, check.calls, [], Err(TokenFailure(e)))
      case Ok(false) => DevicesStep(c1, check.calls, [], Err(NoValidToken))
      case Ok(true) =>
        var built := BuildCatalogue(c1, query, inputs);
        if built.result.Ok? then DevicesStep(built.client.(devices := Some(built.result.value)), check.calls, built.sent, built.result)
        else DevicesStep(built.client, check.calls, built.sent, built.result)
  }

  /** Once built, the catalogue is returned again without consulting the token or the network. */
  lemma GetDevicesCached(c: Client, now: int, later: int, reply1: Option<Json>, reply2: Option<Json>,
                         encode: Json -> string, query: seq<(string, string)> -> string,
                         inputs: CatalogueInputs, other: CatalogueInputs)
    requires GetDevices(c, now, reply1, encode, query, inputs).result.Ok?
    ensures var first := GetDevices(c, now, reply1, encode, query, inputs);
      GetDevices(first.client, later, reply2, encode, query, other) == DevicesStep(first.client, [], [], first.result)
  {
  }

  /** A devices.json that decodes to a catalogue spares the device-list GET: only the family is fetched. */
  lemma CatalogueFromFile(c: Client, query: seq<(string, string)> -> string, inputs: CatalogueInputs)
    requires Utils.IsValidRegion(c.region)
    requires Responses.GetResult(inputs.family, false).Ok?
    requires FamilyId(Responses.GetResult(inputs.family, false).value).Ok?
    requires inputs.file.Some? && inputs.file.value != JNull
    ensures BuildCatalogue(c, query, inputs) == DevicesStep(c, [], [GatewayGet(c, FamilyEndpoint, query([("lang", "en")]))],
                                                            Ok(inputs.file.value))
  {
  }

  /**
   * A 401 on the constructor's family GET (token.json present): no
   * catalogue, the token is cleared, and every later attempt fails for
   * want of a token without sending anything.
   */
  lemma UnauthorizedFamilyBlocksDevices(c: Client, now: int, later: int, refreshReply: Option<Json>, reply2: Option<Json>,
                                        encode: Json -> string, query: seq<(string, string)> -> string,
                                        inputs: CatalogueInputs, other: CatalogueInputs)
    requires Utils.IsValidRegion(c.region) && c.devices.None? && c.token.file.Some?
    requires Token.CheckAndRefresh(c.region, c.token, now, refreshReply, encode).result == Ok(true)
    requires Token.CheckAndRefresh(c.region, c.token, now, refreshReply, encode).state.file.Some?
    requires Responses.ClearsToken(inputs.family)
    ensures var first := GetDevices(c, now, refreshReply, encode, query, inputs);
      && first.result == Err(Request(Responses.GetResult(inputs.family, false).error))
      && first.client.devices.None?
      && first.client.token == Token.ClearToken(Token.CheckAndRefresh(c.region, c.token, now, refreshReply, encode).state)
      && GetDevices(first.client, later, reply2, encode, query, other) == DevicesStep(first.client, [], [], Err(NoValidToken))
  {
    var s1 := Token.CheckAndRefresh(c.region, c.token, now, refreshReply, encode).state;
    Responses.ClearingRepliesFail(inputs.family, false);
    Token.ClearedTokenIsInvalid(c.region, s1, later, reply2, encode);
  }

  /**
   * With a region that has no gateway, `getDevices` sends nothing, not
   * even the silent refresh, leaves the token as it was, and raises.
   */
  lemma InvalidRegionSendsNothing(c: Client, now: int, refreshReply: Option<Json>, encode: Json -> string,
                                  query: seq<(string, string)> -> string, inputs: CatalogueInputs)
    requires !Utils.IsValidRegion(c.region) && c.devices.None?
    ensures var r := GetDevices(c, now, refreshReply, encode, query, inputs);
      && r.calls == [] && r.sent == [] && r.client == c
      && (Token.AccessValid(c.token, now) ==> r.result == Err(Request(Responses.Configuration("Invalid region"))))
      && (Token.NeedsRefresh(c.token, now) && !Falsy(Field(c.token.data, "refreshToken")) ==>
            r.result == Err(TokenFailure(Token.InvalidRegion)))
      && (!Token.AccessValid(c.token, now) && !Token.NeedsRefresh(c.token, now) ==> r.result == Err(NoValidToken))
  {
  }

  /** After a 401 from any POST (token.json present), the catalogue can no longer be built. */
  lemma UnauthorizedBlocksDevices(c: Client, endpoint: string, data: Json, useToken: bool, nonce: string,
                                  encode: Json -> string, sign: (string, string) -> string, raw: Option<Json>,
                                  now: int, refreshReply: Option<Json>, query: seq<(string, string)> -> string,
                                  inputs: CatalogueInputs)
    requires Utils.IsValidRegion(c.region) && c.devices.None? && c.token.file.Some?
    requires Responses.ClearsToken(raw)
    ensures var after := PostRequest(c, endpoint, data, useToken, nonce, encode, sign, raw).client;
      GetDevices(after, now, refreshReply, encode, query, inputs) == DevicesStep(after, [], [], Err(NoValidToken))
  {
    Token.ClearedTokenIsInvalid(c.region, c.token, now, refreshReply, encode);
  }
}

=== FILE: json.dfy ===
/**
 * Decoded JSON values as PHP holds them after `json_decode($text, true)`,
 * with the handful of PHP operations the client applies to them:
 * key lookup that yields `null` for anything missing, `isset`, truthiness,
 * string interpolation and the number `+` reads from an operand.
 */
module Json {
  import opened Wrappers
  import Text

  /** A PHP value built from JSON. Objects keep their key order. */
  datatype Json =
    | JNull
    | JBool(b: bool)
    | JInt(i: int)
    | JStr(s: string)
    | JArr(items: seq<Json>)
    | JObj(fields: seq<(string, Json)>)

  /** Value stored under `key` in an ordered object, or `null`. */
  function Lookup(fields: seq<(string, Json)>, key: string): (r: Json)
    ensures r != JNull ==> exists i :: 0 <= i < |fields| && fields[i] == (key, r)
    ensures (forall i :: 0 <= i < |fields| ==> fields[i].0 != key) ==> r == JNull
  {
    if |fields| == 0 then JNull
    else if fields[0].0 == key then fields[0].1
    else Lookup(fields[1..], key)
  }

  /** The value found is the one at the first position holding the key. */
  lemma {:induction false} LookupAt(fields: seq<(string, Json)>, key: string, i: nat)
    requires i < |fields| && fields[i].0 == key
    requires forall j :: 0 <= j < i ==> fields[j].0 != key
    ensures Lookup(fields, key) == fields[i].1
    decreases i
  {
    if i > 0 {
      LookupAt(fields[1..], key, i - 1);
    }
  }

  /** `$v[$key]` for a string key: `null` unless `v` is an object holding the key. */
  function Field(v: Json, key: string): Json {
    match v
    case JObj(fs) => Lookup(fs, key)
    case _ => JNull
  }

  /** `isset($v[$key])`: the key is present and its value is not `null`. */
  predicate IsSet(v: Json, key: string) {
    Field(v, key) != JNull
  }

  /** Whether `key` occurs in an ordered object (PHP `array_key_exists`). */
  predicate HasKey(fields: seq<(string, Json)>, key: string) {
    exists i :: 0 <= i < |fields| && fields[i].0 == key
  }

  /**
   * `$obj[$key] = $value` on an ordered object: an existing key keeps its
   * position, a new key is appended.
   */
  function Put(fields: seq<(string, Json)>, key: string, value: Json): (r: seq<(string, Json)>)
    ensures Lookup(r, key) == value
    ensures forall k :: k != key ==> Lookup(r, k) == Lookup(fields, k)
  {
    if |fields| == 0 then [(key, value)]
    else if fields[0].0 == key then [(key, value)] + fields[1..]
    else [fields[0]] + Put(fields[1..], key, value)
  }

  /** `Put` adds exactly its key to the keys already present. */
  lemma {:induction false} PutKeys(fields: seq<(string, Json)>, key: string, value: Json, other: string)
    ensures HasKey(Put(fields, key, value), other) <==> HasKey(fields, other) || other == key
    ensures |Put(fields, key, value)| == |fields| + (if HasKey(fields, key) then 0 else 1)
    decreases |fields|
  {
    var r := Put(fields, key, value);
    if |fields| == 0 {
      assert r[0].0 == key;
    } else if fields[0].0 == key {
      HasKeyFirst(fields, other);
      HasKeyFirst(r, other);
      assert r[1..] == fields[1..];
    } else {
      var tail := Put(fields[1..], key, value);
      PutKeys(fields[1..], key, value, other);
      assert r == [fields[0]] + tail;
      assert r[1..] == tail;
      HasKeyFirst(r, other);
      HasKeyFirst(fields, other);
      HasKeyFirst(fields, key);
    }
  }

  /** A key is present exactly when it comes first or is present in the rest. */
  lemma HasKeyFirst(fields: seq<(string, Json)>, k: string)
    requires |fields| > 0
    ensures HasKey(fields, k) <==> fields[0].0 == k || HasKey(fields[1..], k)
  {
    if HasKey(fields, k) && fields[0].0 != k {
      var i :| 0 <= i < |fields| && fields[i].0 == k;
      assert fields[1..][i - 1].0 == k;
    }
    if HasKey(fields[1..], k) {
      var i :| 0 <= i < |fields[1..]| && fields[1..][i].0 == k;
      assert fields[i + 1].0 == k;
    }
  }

  /** PHP truthiness: `!$v` holds exactly for these values (also `empty($v)`). */
  predicate Falsy(v: Json) {
    match v
    case JNull => true
    case JBool(b) => !b
    case JInt(i) => i == 0
    case JStr(s) => s == "" || s == "0"
    case JArr(xs) => |xs| == 0
    case JObj(fs) => |fs| == 0
  }

  /** The elements `foreach` visits: list items or object values; a scalar yields none. */
  function Elements(v: Json): (r: seq<Json>)
    ensures v.JArr? ==> r == v.items
    ensures !v.JArr? && !v.JObj? ==> r == []
  {
    match v
    case JArr(xs) => xs
    case JObj(fs) => seq(|fs|, i requires 0 <= i < |fs| => fs[i].1)
    case _ => []
  }

  /** PHP string conversion as used by `"...$v..."` and the `.` operator. */
  function Render(v: Json): string {
    match v
    case JNull => ""
    case JBool(b) => if b then "1" else ""
    case JInt(i) => Text.IntToDecimal(i)
    case JStr(s) => s
    case JArr(_) => "Array"
    case JObj(_) => "Array"
  }

  /** PHP `is_array`: lists and objects alike. */
  predicate IsArray(v: Json) {
    v.JArr? || v.JObj?
  }

  /**
   * The number PHP 8's `+` reads from an operand: an integer as it is, a
   * boolean as 0 or 1, null as 0 and a string by its leading number.
   * `None` for an array, or a string with no leading number, where `+`
   * raises a TypeError.
   */
  function NumericOperand(v: Json): Option<Text.Decimal> {
    match v
    case JNull => Some(Text.Decimal(0, 0))
    case JBool(b) => Some(Text.Decimal(if b then 1 else 0, 0))
    case JInt(i) => Some(Text.Decimal(i, 0))
    case JStr(s) => Text.LeadingNumber(s)
    case _ => None
  }
}

=== FILE: responses.dfy ===
/**
 * How the HTTP client reads a backend reply: the error-code table, the
 * "Error <code>: <message>" text, and the different success rules of
 * `postRequest` (error must be exactly 0) and `getRequest` (an unset error
 * also succeeds).
 */
module Responses {
  import opened Wrappers
  import opened Json
  import Text

  /** Messages for the backend error codes. */
  const ErrorCodes: map<int, string> := map[
    400 := Message400,
    401 := Message401,
    402 := Message402,
    403 := Message403,
    405 := Message405,
    406 := Message406,
    407 := Message407,
    412 := Message412,
    500 := Message500,
    4002 := Message4002,
    30003 := Message30003,
    30007 := Message30007,
    30008 := Message30008,
    30009 := Message30009,
    30010 := Message30010,
    30011 := Message30011,
    30012 := Message30012,
    30013 := Message30013,
    30014 := Message30014,
    30015 := Message30015,
    30016 := Message30016,
    30017 := Message30017,
    30018 := Message30018,
    30019 := Message30019,
    30022 := Message30022
  ]

  const Message400: string := "Parameter error, usually the parameter required by the interface is missing, or the type or value of the parameter is wrong."
  const Message401: string := "Access token authentication error. Usually, the account is logged in by others, resulting in the invalidation of the current access token."
  const Message402: string := "Access token expired."
  const Message403: string := "The interface cannot be found, usually the interface URL is written incorrectly."
  const Message405: string := "The resource cannot be found. Usually, the necessary data records cannot be found in the back-end database."
  const Message406: string := "Reject the operation. Usually, the current user does not have permission to operate the specified resource."
  const Message407: string := "Appid has no operation permission."
  const Message412: string := "APPID calls exceed the limit, you can upgrade to the enterprise version by contacting bd@coolkit.cn."
  const Message500: string := "Server internal error, usually the server program error."
  const Message4002: string := "Device control failure (Check control parameter transmission or device online status)."
  const Message30003: string := "Failed to notify the device to disconnect from the temporary persistent connection, when adding a GSM device."
  const Message30007: string := "Failed to add the GSM device, because it has been added by another user before."
  const Message30008: string := "When you are sharing devices, the shared user does not exist."
  const Message30009: string := "You have exceeded the limit of groups you can have for your current subscription plan."
  const Message30010: string := "The device ID format is wrong for the device being added."
  const Message30011: string := "The factory data cannot be found in the device being added."
  const Message30012: string := "The \"extra\" field of factory data cannot be found in the device being added."
  const Message30013: string := "The brand info of factory data cannot be found."
  const Message30014: string := "There is an error with the chipid."
  const Message30015: string := "There is a digest error when a device is being added."
  const Message30016: string := "The appid could not be found when a device is being added."
  const Message30017: string := "This appid is not allowed to add the devices of the current brand."
  const Message30018: string := "No device can be found with current deviceid."
  const Message30019: string := "The product model of factory data cannot be found."
  const Message30022: string := "The device is offline and the operation fails. It will appear in batch updating the device status."

  const UnknownError: string := "Unknown error"

  /** The backend code whose failure also invalidates the stored token. */
  const AuthError: int := 401

  /** A decimal string PHP turns into an integer array key: no sign, no leading zero. */
  predicate IsCanonicalDigits(s: string) {
    && |s| > 0
    && (forall i :: 0 <= i < |s| ==> s[i] in Text.Digits)
    && (s[0] == '0' ==> |s| == 1)
  }

  /** The integer array key PHP uses for an error code, if it has one. */
  function ArrayKey(code: Json): Option<int> {
    match code
    case JInt(i) => Some(i)
    case JBool(b) => Some(if b then 1 else 0)
    case JStr(s) => if IsCanonicalDigits(s) then Some(Text.DecimalValue(s)) else None
    case _ => None
  }

  /**
   * `ERROR_CODES[$code] ?? 'Unknown error'`. PHP 8 refuses an array as an
   * array key even under `??`: the lookup raises a TypeError, here `None`.
   */
  function ErrorMessage(code: Json): (m: Option<string>)
    ensures m.None? <==> IsArray(code)
    ensures code.JInt? && code.i in ErrorCodes ==> m == Some(ErrorCodes[code.i])
    ensures code.JNull? ==> m == Some(UnknownError)
    ensures m.Some? ==> m.value == UnknownError || m.value in ErrorCodes.Values
  {
    if IsArray(code) then None
    else
      var key := ArrayKey(code);
      Some(if key.Some? && key.value in ErrorCodes then ErrorCodes[key.value] else UnknownError)
  }

  /** A code and the printed form of a code agree on their message. */
  lemma MessageOfPrintedCode(code: nat)
    ensures ErrorMessage(JStr(Text.NatToDecimal(code))) == ErrorMessage(JInt(code))
  {
    PrintedKey(code);
  }

  /** The printed form of a code is a canonical key naming that code. */
  lemma PrintedKey(code: nat)
    ensures ArrayKey(JStr(Text.NatToDecimal(code))) == Some(code)
  {
    Text.DecimalRoundTrip(code);
    if code >= 10 {
      LeadingDigitNonZero(code);
    }
  }

  lemma {:induction false} LeadingDigitNonZero(n: nat)
    requires n >= 10
    ensures Text.NatToDecimal(n)[0] != '0'
    decreases n
  {
    if n / 10 >= 10 {
      LeadingDigitNonZero(n / 10);
    }
  }

  datatype HttpError =
    | Transport(message: string)            // no reply at all
    | Backend(code: Json, message: string)  // a reply with a failing error code
    | OffsetType(code: Json)                // the TypeError of looking up an array code
    | Configuration(message: string)        // raised before any request

  /** The exception text for a failing code that is not an array. */
  function ErrorText(code: Json): string
    requires !IsArray(code)
  {
    "Error " + Render(code) + ": " + ErrorMessage(code).value
  }

  /** What a failing error code raises: "Error <code>: <message>", or the lookup's TypeError. */
  function Failure(code: Json): (e: HttpError)
    ensures e.OffsetType? <==> IsArray(code)
    ensures e.OffsetType? || e.Backend?
    ensures e.code == code
  {
    if IsArray(code) then OffsetType(code) else Backend(code, ErrorText(code))
  }

  /**
   * `postRequest` after the transfer: `raw` is the decoded reply, `None`
   * when the transfer itself failed. Only an error field that is exactly
   * the integer 0 succeeds, yielding the `data` field.
   */
  function PostResult(raw: Option<Json>): (r: Result<Json, HttpError>)
    ensures raw.None? ==> r == Err(Transport("Error making POST request"))
    ensures raw.Some? ==> (r.Ok? <==> Field(raw.value, "error") == JInt(0))
    ensures r.Ok? ==> r.value == Field(raw.value, "data")
    ensures raw.Some? && r.Err? ==> r.error == Failure(Field(raw.value, "error"))
  {
    match raw
    case None => Err(Transport("Error making POST request"))
    case Some(reply) =>
      var code := Field(reply, "error");
      if code != JInt(0) then Err(Failure(code))
      else Ok(Field(reply, "data"))
  }

  /**
   * `getRequest` after the transfer: an error field that is unset or the
   * integer 0 succeeds; the whole reply is returned in full-URL mode and
   * its `data` field otherwise.
   */
  function GetResult(raw: Option<Json>, fullUrl: bool): (r: Result<Json, HttpError>)
    ensures raw.None? ==> r == Err(Transport("Error in request"))
    ensures raw.Some? ==> (r.Ok? <==> !IsSet(raw.value, "error") || Field(raw.value, "error") == JInt(0))
    ensures r.Ok? ==> r.value == (if fullUrl then raw.value else Field(raw.value, "data"))
    ensures raw.Some? && r.Err? ==> r.error == Failure(Field(raw.value, "error"))
  {
    match raw
    case None => Err(Transport("Error in request"))
    case Some(reply) =>
      var code := Field(reply, "error");
      if code != JNull && code != JInt(0) then Err(Failure(code))
      else Ok(if fullUrl then reply else Field(reply, "data"))
  }

  /** A failing reply whose code is exactly the integer 401 clears the token. */
  predicate ClearsToken(raw: Option<Json>) {
    raw.Some? && Field(raw.value, "error") == JInt(AuthError)
  }

  /**
   * Every reply POST accepts, GET accepts too; a reply without an error
   * field is where they part: GET succeeds, POST fails with "Unknown error".
   */
  lemma PostStricterThanGet(raw: Option<Json>, fullUrl: bool)
    ensures PostResult(raw).Ok? ==> GetResult(raw, fullUrl).Ok?
    ensures raw.Some? && !IsSet(raw.value, "error") ==>
      GetResult(raw, fullUrl).Ok? && PostResult(raw) == Err(Backend(JNull, "Error : Unknown error"))
  {
    assert ErrorMessage(JNull) == Some(UnknownError);
    assert Render(JNull) == "";
    assert ErrorText(JNull) == "Error : Unknown error";
    if raw.Some? && !IsSet(raw.value, "error") {
      assert Field(raw.value, "error") == JNull;
    }
  }

  /** A token-clearing reply is always a failure for both request kinds. */
  lemma ClearingRepliesFail(raw: Option<Json>, fullUrl: bool)
    requires ClearsToken(raw)
    ensures PostResult(raw).Err? && GetResult(raw, fullUrl).Err?
    ensures PostResult(raw).error.message == "Error 401: " + Message401
  {
    AuthErrorText();
    assert ErrorMessage(JInt(AuthError)) == Some(Message401);
  }

  /** The exception text of a 401 reply. */
  lemma AuthErrorText()
    ensures ErrorText(JInt(AuthError)) == "Error 401: " + ErrorMessage(JInt(AuthError)).value
  {
    assert Render(JInt(401)) == "401" by {
      assert Text.NatToDecimal(401) == "401";
    }
    ErrorPrefix("401", ErrorMessage(JInt(AuthError)).value);
  }

  lemma ErrorPrefix(printed: string, m: string)
    requires printed == "401"
    ensures "Error " + printed + ": " + m == "Error 401: " + m
  {
  }

  /**
   * A reply whose error code is an array fails both request kinds with the
   * lookup's TypeError, never with an "Unknown error" message.
   */
  lemma ArrayCodeRaises(raw: Option<Json>, fullUrl: bool)
    requires raw.Some? && IsArray(Field(raw.value, "error"))
    ensures PostResult(raw) == Err(OffsetType(Field(raw.value, "error")))
    ensures GetResult(raw, fullUrl) == Err(OffsetType(Field(raw.value, "error")))
  {
  }
}

=== FILE: text.dfy ===
/**
 * String helpers that stand in for PHP built-ins the client relies on:
 * decimal and hexadecimal rendering, `implode`/`explode` on one character,
 * `trim`, `is_numeric` and the number arithmetic reads from a string.
 */
module Text {
  import opened Wrappers

  const Digits: string := "0123456789"
  const HexDigits: string := "0123456789abcdef"

  /** Decimal digits of a natural number, most significant first, no leading zeros. */
  function NatToDecimal(n: nat): (r: string)
    ensures |r| > 0
    ensures forall i :: 0 <= i < |r| ==> r[i] in Digits
    decreases n
  {
    if n < 10 then [Digits[n]] else NatToDecimal(n / 10) + [Digits[n % 10]]
  }

  /** PHP's rendering of an integer: a leading `-` for negatives. */
  function IntToDecimal(i: int): string {
    if i < 0 then "-" + NatToDecimal(-i) else NatToDecimal(i)
  }

  /** Value of a digit string, most significant first. */
  function DecimalValue(s: string): nat
    requires forall i :: 0 <= i < |s| ==> s[i] in Digits
  {
    if |s| == 0 then 0 else DecimalValue(s[..|s| - 1]) * 10 + DigitValue(s[|s| - 1])
  }

  function DigitValue(c: char): (d: nat)
    requires c in Digits
    ensures d < 10 && Digits[d] == c
  {
    if c == '0' then 0 else if c == '1' then 1 else if c == '2' then 2
    else if c == '3' then 3 else if c == '4' then 4 else if c == '5' then 5
    else if c == '6' then 6 else if c == '7' then 7 else if c == '8' then 8 else 9
  }

  /** Decimal rendering is read back by `DecimalValue`: the digits mean the number. */
  lemma {:induction false} DecimalRoundTrip(n: nat)
    ensures DecimalValue(NatToDecimal(n)) == n
    decreases n
  {
    var r := NatToDecimal(n);
    if n >= 10 {
      DecimalRoundTrip(n / 10);
      assert r[..|r| - 1] == NatToDecimal(n / 10);
    }
  }

  function Pow16(n: nat): (r: nat)
    ensures r > 0
  {
    if n == 0 then 1 else 16 * Pow16(n - 1)
  }

  /** The `n` low hexadecimal digits of `v`, lower case, most significant first. */
  function HexN(v: nat, n: nat): (r: string)
    ensures |r| == n
    ensures forall i :: 0 <= i < n ==> r[i] in HexDigits
  {
    if n == 0 then [] else HexN(v / 16, n - 1) + [HexDigits[v % 16]]
  }

  /** `sprintf('%04x', v)` for a value below 0x10000: exactly four digits. */
  function Hex4(v: nat): (r: string)
    requires v < 0x10000
    ensures |r| == 4
  {
    HexN(v, 4)
  }

  function HexDigitValue(c: char): (d: nat)
    requires c in HexDigits
    ensures d < 16 && HexDigits[d] == c
  {
    if c in Digits then DigitValue(c)
    else if c == 'a' then 10 else if c == 'b' then 11 else if c == 'c' then 12
    else if c == 'd' then 13 else if c == 'e' then 14 else 15
  }

  lemma QuotientBelow(v: nat, n: nat)
    requires n > 0 && v < Pow16(n)
    ensures v / 16 < Pow16(n - 1)
  {
  }

  /** Each hexadecimal digit reads back as its position. */
  lemma HexDigitIndex(d: nat)
    requires d < 16
    ensures HexDigitValue(HexDigits[d]) == d
  {
  }

  /** Value of a hexadecimal digit string, most significant first. */
  function HexValue(s: string): nat
    requires forall i :: 0 <= i < |s| ==> s[i] in HexDigits
  {
    if |s| == 0 then 0 else HexValue(s[..|s| - 1]) * 16 + HexDigitValue(s[|s| - 1])
  }

  /** Reading `n` hex digits back yields the number printed, when it fits. */
  lemma {:induction false} HexRoundTrip(v: nat, n: nat)
    requires v < Pow16(n)
    ensures HexValue(HexN(v, n)) == v
  {
    if n > 0 {
      var r := HexN(v, n);
      assert r[..n - 1] == HexN(v / 16, n - 1);
      QuotientBelow(v, n);
      HexRoundTrip(v / 16, n - 1);
      HexDigitIndex(v % 16);
    }
  }

  /** Position of the first occurrence of `c`. */
  function IndexOf(s: string, c: char): (i: nat)
    requires c in s
    ensures i < |s| && s[i] == c && c !in s[..i]
  {
    if s[0] == c then 0 else 1 + IndexOf(s[1..], c)
  }

  /** `implode($sep, $xs)`. */
  function Join(xs: seq<string>, sep: char): string {
    if |xs| == 0 then ""
    else if |xs| == 1 then xs[0]
    else xs[0] + [sep] + Join(xs[1..], sep)
  }

  /** `explode($sep, $s)` for a one-character separator. */
  function Split(s: string, sep: char): (r: seq<string>)
    ensures |r| > 0
    decreases |s|
  {
    if sep !in s then [s]
    else
      var i := IndexOf(s, sep);
      [s[..i]] + Split(s[i + 1..], sep)
  }

  /** Splitting `x + [sep] + rest` yields `x`, then the pieces of `rest`. */
  lemma SplitFirst(x: string, sep: char, rest: string)
    requires sep !in x
    ensures Split(x + [sep] + rest, sep) == [x] + Split(rest, sep)
  {
    var s := x + [sep] + rest;
    assert s[|x|] == sep;
    assert IndexOf(s, sep) == |x| by {
      assert s[..|x|] == x;
    }
    assert s[..|x|] == x;
    assert s[|x| + 1..] == rest;
  }

  /**
   * A non-empty list of names none of which contains the separator is
   * recovered exactly from its joined form.
   */
  lemma {:induction false} SplitJoin(xs: seq<string>, sep: char)
    requires |xs| > 0
    requires forall k :: 0 <= k < |xs| ==> sep !in xs[k]
    ensures Split(Join(xs, sep), sep) == xs
  {
    if |xs| > 1 {
      var rest := Join(xs[1..], sep);
      assert Join(xs, sep) == xs[0] + [sep] + rest;
      SplitFirst(xs[0], sep, rest);
      assert forall k :: 0 <= k < |xs| - 1 ==> xs[1..][k] == xs[k + 1];
      SplitJoin(xs[1..], sep);
      assert [xs[0]] + xs[1..] == xs;
    }
  }

  /** Characters stripped by PHP's `trim` with its default character list. */
  predicate IsTrimmed(c: char) {
    c == ' ' || c == '\t' || c == '\n' || c == '\r' || c == '\0' || c == '\U{0B}'
  }

  function TrimLeft(s: string): (r: string)
    ensures |r| <= |s| && r == s[|s| - |r|..]
    ensures |r| > 0 ==> !IsTrimmed(r[0])
    ensures forall i :: 0 <= i < |s| - |r| ==> IsTrimmed(s[i])
  {
    if |s| > 0 && IsTrimmed(s[0]) then TrimLeft(s[1..]) else s
  }

  function TrimRight(s: string): (r: string)
    ensures |r| <= |s| && r == s[..|r|]
    ensures |r| > 0 ==> !IsTrimmed(r[|r| - 1])
    ensures forall i :: |r| <= i < |s| ==> IsTrimmed(s[i])
  {
    if |s| > 0 && IsTrimmed(s[|s| - 1]) then TrimRight(s[..|s| - 1]) else s
  }

  /** One step of `TrimLeft`: a stripped first character goes, any other stops it. */
  lemma TrimLeftStep(s: string)
    requires |s| > 0
    ensures TrimLeft(s) == if IsTrimmed(s[0]) then TrimLeft(s[1..]) else s
  {
  }

  /** One step of `TrimRight`: a stripped last character goes, any other stops it. */
  lemma TrimRightStep(s: string)
    requires |s| > 0
    ensures TrimRight(s) == if IsTrimmed(s[|s| - 1]) then TrimRight(s[..|s| - 1]) else s
  {
  }

  /** `r` occurs in `s` starting at position `a`. */
  predicate SliceAt(s: string, a: int, r: string) {
    0 <= a <= |s| - |r| && r == s[a..a + |r|]
  }

  /** PHP `trim`: the longest slice without stripped characters at either end. */
  function Trim(s: string): (r: string)
    ensures |r| > 0 ==> !IsTrimmed(r[0]) && !IsTrimmed(r[|r| - 1])
    ensures exists a :: SliceAt(s, a, r)
  {
    var l := TrimLeft(s);
    var r := TrimRight(l);
    var a := |s| - |l|;
    assert r == s[a..][..|r|] == s[a..a + |r|];
    assert SliceAt(s, a, r);
    r
  }

  /** Whitespace that `is_numeric` accepts around a number. */
  predicate IsNumericSpace(c: char) {
    c == ' ' || c == '\t' || c == '\n' || c == '\r' || c == '\U{0B}' || c == '\U{0C}'
  }

  /** Number of leading decimal digits. */
  function DigitRun(s: string): (n: nat)
    ensures n <= |s|
    ensures forall i :: 0 <= i < n ==> s[i] in Digits
    ensures n < |s| ==> s[n] !in Digits
  {
    if |s| > 0 && s[0] in Digits then 1 + DigitRun(s[1..]) else 0
  }

  function SkipSign(s: string): string {
    if |s| > 0 && (s[0] == '+' || s[0] == '-') then s[1..] else s
  }

  /** An optional exponent `e`/`E`, optional sign, at least one digit, and nothing after. */
  predicate ExponentTail(s: string) {
    |s| == 0 || (s[0] in "eE" && var t := SkipSign(s[1..]); |t| > 0 && DigitRun(t) == |t|)
  }

  /** Sign, digits with an optional fraction (at least one digit in all), optional exponent. */
  predicate NumberBody(s: string) {
    var t := SkipSign(s);
    var d := DigitRun(t);
    if d < |t| && t[d] == '.' then
      var u := t[d + 1..];
      var f := DigitRun(u);
      d + f > 0 && ExponentTail(u[f..])
    else
      d > 0 && ExponentTail(t[d..])
  }

  function StripNumericSpace(s: string): string
    decreases |s|
  {
    if |s| > 0 && IsNumericSpace(s[0]) then StripNumericSpace(s[1..])
    else if |s| > 0 && IsNumericSpace(s[|s| - 1]) then StripNumericSpace(s[..|s| - 1])
    else s
  }

  /** PHP 8 `is_numeric` on a string: a decimal number with optional surrounding whitespace. */
  predicate IsNumeric(s: string) {
    NumberBody(StripNumericSpace(s))
  }

  /** Leading whitespace as PHP's numeric-string reader skips it. */
  function SkipNumericSpace(s: string): (r: string)
    ensures |r| <= |s|
    ensures |r| > 0 ==> !IsNumericSpace(r[0])
  {
    if |s| > 0 && IsNumericSpace(s[0]) then SkipNumericSpace(s[1..]) else s
  }

  function Pow10(n: nat): (r: nat)
    ensures r > 0
  {
    if n == 0 then 1 else 10 * Pow10(n - 1)
  }

  /** The exponent `e`/`E`, optional sign and digits denote; 0 when no digit follows. */
  function ExponentValue(s: string): int {
    if |s| >= 2 && s[0] in "eE" then
      var t := SkipSign(s[1..]);
      var n := DigitRun(t);
      if n == 0 then 0
      else if s[1] == '-' then -(DecimalValue(t[..n]) as int)
      else DecimalValue(t[..n])
    else 0
  }

  /** The number `mantissa` times ten to the power `exponent`. */
  datatype Decimal = Decimal(mantissa: int, exponent: int)

  /** The real number a decimal denotes. */
  function DecimalReal(d: Decimal): real {
    if d.exponent >= 0 then d.mantissa as real * Pow10(d.exponent) as real
    else d.mantissa as real / Pow10(-d.exponent) as real
  }

  /** A decimal without exponent denotes its mantissa. */
  lemma WholeDecimal(d: Decimal)
    ensures d.exponent == 0 ==> DecimalReal(d) == d.mantissa as real
  {
    assert Pow10(0) == 1;
  }

  /**
   * The number at the start of `u`: digits, an optional fraction (at least
   * one digit in all) and an optional exponent; `None` when no digit
   * begins a number.
   */
  function UnsignedNumber(u: string): Option<Decimal> {
    var d := DigitRun(u);
    if d < |u| && u[d] == '.' then
      var fraction := u[d + 1..];
      var f := DigitRun(fraction);
      if d + f == 0 then None
      else
        var mantissa := DecimalValue(u[..d]) * Pow10(f) + DecimalValue(fraction[..f]);
        Some(Decimal(mantissa, ExponentValue(fraction[f..]) - f))
    else if d == 0 then None
    else Some(Decimal(DecimalValue(u[..d]), ExponentValue(u[d..])))
  }

  /**
   * The number PHP 8 arithmetic reads from a string: after leading
   * whitespace, an optional sign and the longest number that follows.
   * `None` when no digit begins a number, the case in which `+` raises a
   * TypeError.
   */
  function LeadingNumber(s: string): (r: Option<Decimal>)
    ensures r.None? <==> UnsignedNumber(SkipSign(SkipNumericSpace(s))).None?
  {
    var t := SkipNumericSpace(s);
    match UnsignedNumber(SkipSign(t))
    case None => None
    case Some(m) => Some(if |t| > 0 && t[0] == '-' then m.(mantissa := -m.mantissa) else m)
  }

  /** A string of digits is one run of digits. */
  lemma {:induction false} DigitRunAll(s: string)
    requires forall i :: 0 <= i < |s| ==> s[i] in Digits
    ensures DigitRun(s) == |s|
  {
    if |s| > 0 {
      DigitRunAll(s[1..]);
    }
  }

  /** PHP's decimal rendering of an integer is read back as that integer. */
  lemma LeadingNumberOfDecimal(i: int)
    ensures LeadingNumber(IntToDecimal(i)) == Some(Decimal(i, 0))
  {
    var n: nat := if i < 0 then -i else i;
    var digits := NatToDecimal(n);
    var s := IntToDecimal(i);
    assert s == (if i < 0 then "-" else "") + digits;
    assert SkipNumericSpace(s) == s by {
      assert !IsNumericSpace(s[0]);
    }
    assert SkipSign(s) == digits;
    UnsignedDigits(digits);
    DecimalRoundTrip(n);
  }

  /** A digit string is a number with neither fraction nor exponent. */
  lemma UnsignedDigits(digits: string)
    requires |digits| > 0 && forall k :: 0 <= k < |digits| ==> digits[k] in Digits
    ensures UnsignedNumber(digits) == Some(Decimal(DecimalValue(digits), 0))
  {
    DigitRunAll(digits);
    UnsignedWhole(digits);
    assert digits[..|digits|] == digits;
    assert digits[|digits|..] == [];
    assert ExponentValue([]) == 0;
  }

  lemma UnsignedWhole(u: string)
    requires |u| > 0 && DigitRun(u) == |u|
    ensures UnsignedNumber(u) == Some(Decimal(DecimalValue(u[..|u|]), ExponentValue(u[|u|..])))
  {
  }
}

=== FILE: token.dfy ===
/**
 * The OAuth token lifecycle: obtaining a token, refreshing it, deciding
 * whether the stored token is still usable, clearing it, and writing
 * token.json only when its contents change.
 */
module Token {
  import opened Wrappers
  import opened Json
  import Responses
  import Utils

  const OAuthEndpoint: string := "/v2/user/oauth/token"
  const RefreshEndpoint: string := "/v2/user/refresh"

  /** A signed POST the token logic hands to the HTTP client. */
  datatype Call = Call(endpoint: string, body: Json)

  datatype TokenError =
    | NoRefreshToken                       // "Refresh token not available. Call getToken() first."
    | Http(cause: Responses.HttpError)
    | ReturnNotArray                       // the TypeError of a declared `: array` return

  /**
   * `data` is the in-memory token record, `file` the contents of
   * token.json (`None` when the file does not exist), `shared` the copy
   * the HTTP client keeps, and `fileWrites` counts writes of token.json.
   */
  datatype TokenState = TokenState(data: Json, file: Option<string>, shared: Json, fileWrites: nat)

  /** The outcome of one token operation: the new state, the POSTs it made, its result. */
  datatype Step<T> = Step(state: TokenState, calls: seq<Call>, result: Result<T, TokenError>)

  /** token.json holds exactly the encoding of the in-memory record. */
  predicate Stored(s: TokenState, encode: Json -> string) {
    s.file.GetOr("") == encode(s.data)
  }

  /**
   * The constructor: read token.json if it exists and hand a truthy record
   * to the HTTP client.
   */
  function Load(file: Option<string>, decode: string -> Json): (s: TokenState)
    ensures s.file == file && s.fileWrites == 0
    ensures file.None? ==> s.data == JNull && s.shared == JNull
    ensures file.Some? ==> s.data == decode(file.value)
    ensures s.shared == s.data || (Falsy(s.data) && s.shared == JNull)
  {
    var data := if file.Some? then decode(file.value) else JNull;
    TokenState(data, file, if Falsy(data) then JNull else data, 0)
  }

  /**
   * Empty token.json and forget the record, but only when the file exists;
   * the HTTP client's copy is left as it was.
   */
  function ClearToken(s: TokenState): (r: TokenState)
    ensures s.file.Some? ==> r.file == Some("") && r.data == JNull && r.fileWrites == s.fileWrites + 1
    ensures s.file.None? ==> r == s
    ensures r.shared == s.shared
  {
    if s.file.Some? then s.(file := Some(""), data := JNull, fileWrites := s.fileWrites + 1) else s
  }

  /**
   * Write the encoded record only when it differs from the file's contents
   * (a missing file reads as ""); always refresh the HTTP client's copy.
   */
  function WriteIfChanged(s: TokenState, encode: Json -> string): (r: TokenState)
    ensures Stored(r, encode)
    ensures r.data == s.data && r.shared == s.data
    ensures r.fileWrites == s.fileWrites <==> Stored(s, encode)
    ensures r.fileWrites <= s.fileWrites + 1
    ensures Stored(s, encode) ==> r.file == s.file
  {
    var newJson := encode(s.data);
    if newJson != s.file.GetOr("") then
      s.(file := Some(newJson), fileWrites := s.fileWrites + 1, shared := s.data)
    else
      s.(shared := s.data)
  }

  /**
   * What `writeTokenFileIfChanged` leaves in token.json loads back as the
   * record it wrote, whenever `decode` reads back what `encode` writes.
   */
  lemma LoadAfterWrite(s: TokenState, encode: Json -> string, decode: string -> Json)
    requires s.file.Some? && decode(encode(s.data)) == s.data
    ensures Load(WriteIfChanged(s, encode).file, decode).data == s.data
    ensures Load(WriteIfChanged(s, encode).file, decode).shared == (if Falsy(s.data) then JNull else s.data)
  {
  }

  /** Writing twice writes at most once: the second call changes nothing. */
  lemma WriteIfChangedIdempotent(s: TokenState, encode: Json -> string)
    ensures WriteIfChanged(WriteIfChanged(s, encode), encode) == WriteIfChanged(s, encode)
  {
  }

  /** The HTTP client's reaction to a reply: a 401 clears the token. */
  function AfterReply(s: TokenState, raw: Option<Json>): TokenState {
    if Responses.ClearsToken(raw) then ClearToken(s) else s
  }

  /** What a token POST raises when the client's region has no gateway. */
  const InvalidRegion: TokenError := Http(Responses.Configuration("Invalid region"))

  /**
   * One signed POST through the HTTP client of region `region`; `raw` is
   * the decoded reply. The gateway lookup raises before anything is sent.
   */
  function Post(region: string, s: TokenState, call: Call, raw: Option<Json>): (r: Step<Json>)
    ensures !Utils.IsValidRegion(region) ==> r == Step(s, [], Err(InvalidRegion))
    ensures Utils.IsValidRegion(region) ==>
      && r.calls == [call]
      && r.state == AfterReply(s, raw)
      && (r.result.Ok? <==> Responses.PostResult(raw).Ok?)
      && (r.result.Ok? ==> r.result.value == Responses.PostResult(raw).value)
      && (r.result.Err? ==> r.result.error == Http(Responses.PostResult(raw).error))
  {
    if !Utils.IsValidRegion(region) then Step(s, [], Err(InvalidRegion))
    else
      var res := Responses.PostResult(raw);
      Step(AfterReply(s, raw), [call],
           if res.Ok? then Ok(res.value) else Err(Http(res.error)))
  }

  function OAuthBody(code: Json, redirectUrl: string): Json {
    JObj([("grantType", JStr("authorization_code")), ("code", code), ("redirectUrl", JStr(redirectUrl))])
  }

  /**
   * Exchange the authorization code for a token and persist it. The reply's
   * data is stored and written whatever it is; only then does the declared
   * `: array` return type reject data that is not an array.
   */
  function GetToken(region: string, s: TokenState, code: Json, redirectUrl: string, raw: Option<Json>,
                    encode: Json -> string): (r: Step<Json>)
    ensures !Utils.IsValidRegion(region) ==> r == Step(s, [], Err(InvalidRegion))
    ensures Utils.IsValidRegion(region) ==> r.calls == [Call(OAuthEndpoint, OAuthBody(code, redirectUrl))]
    ensures r.result.Ok? <==>
      Utils.IsValidRegion(region) && Responses.PostResult(raw).Ok? && IsArray(Field(raw.value, "data"))
    ensures Utils.IsValidRegion(region) && Responses.PostResult(raw).Ok? ==>
      && r.state.data == Field(raw.value, "data")
      && r.state.shared == r.state.data
      && Stored(r.state, encode)
    ensures Utils.IsValidRegion(region) && Responses.PostResult(raw).Ok? && r.result.Err? ==>
      r.result.error == ReturnNotArray
    ensures r.result.Ok? ==> r.result.value == r.state.data
    ensures Utils.IsValidRegion(region) && Responses.PostResult(raw).Err? ==>
      r.state == AfterReply(s, raw) && r.result == Err(Http(Responses.PostResult(raw).error))
  {
    var call := Call(OAuthEndpoint, OAuthBody(code, redirectUrl));
    var reply := Post(region, s, call, raw);
    if reply.result.Err? then reply
    else
      var s1 := WriteIfChanged(reply.state.(data := reply.result.value), encode);
      if IsArray(s1.data) then Step(s1, reply.calls, Ok(s1.data))
      else Step(s1, reply.calls, Err(ReturnNotArray))
  }

  function RefreshBody(refreshToken: Json): Json {
    JObj([("grantType", JStr("refresh_token")), ("rt", JStr(Render(refreshToken)))])
  }

  /** The entries of a refreshed token record, in order. */
  const TokenKeys: seq<string> := ["accessToken", "refreshToken", "atExpiredTime", "rtExpiredTime"]

  /** `$reply[$key] ?? $prior[$fallback]`. */
  function Pick(answer: Json, key: string, prior: Json, fallback: string): Json {
    if IsSet(answer, key) then Field(answer, key) else Field(prior, fallback)
  }

  /**
   * The record after a refresh: each of the four entries is taken from the
   * reply when the reply sets it and kept from the prior record otherwise.
   */
  function MergeRefresh(prior: Json, answer: Json): (r: Json)
    ensures r.JObj? && |r.fields| == 4
    ensures seq(4, i requires 0 <= i < 4 => r.fields[i].0) == TokenKeys
  {
    JObj([
      ("accessToken", Pick(answer, "at", prior, "accessToken")),
      ("refreshToken", Pick(answer, "rt", prior, "refreshToken")),
      ("atExpiredTime", Pick(answer, "atExpiredTime", prior, "atExpiredTime")),
      ("rtExpiredTime", Pick(answer, "rtExpiredTime", prior, "rtExpiredTime"))
    ])
  }

  /** An entry the reply sets wins; an entry it omits keeps its prior value. */
  lemma MergeKeepsOmitted(prior: Json, answer: Json)
    ensures Field(MergeRefresh(prior, answer), "accessToken") ==
      (if IsSet(answer, "at") then Field(answer, "at") else Field(prior, "accessToken"))
    ensures Field(MergeRefresh(prior, answer), "refreshToken") ==
      (if IsSet(answer, "rt") then Field(answer, "rt") else Field(prior, "refreshToken"))
    ensures Field(MergeRefresh(prior, answer), "atExpiredTime") ==
      (if IsSet(answer, "atExpiredTime") then Field(answer, "atExpiredTime") else Field(prior, "atExpiredTime"))
    ensures Field(MergeRefresh(prior, answer), "rtExpiredTime") ==
      (if IsSet(answer, "rtExpiredTime") then Field(answer, "rtExpiredTime") else Field(prior, "rtExpiredTime"))
  {
    MergeEntry(prior, answer, 0);
    MergeEntry(prior, answer, 1);
    MergeEntry(prior, answer, 2);
    MergeEntry(prior, answer, 3);
  }

  /** Entry `i` of the merged record is found under its own key. */
  lemma MergeEntry(prior: Json, answer: Json, i: nat)
    requires i < 4
    ensures var fs := MergeRefresh(prior, answer).fields;
      Field(MergeRefresh(prior, answer), fs[i].0) == fs[i].1
  {
    var fs := MergeRefresh(prior, answer).fields;
    // the four keys differ in their first or second character
    assert fs[0].0[0] == 'a' && fs[1].0[0] == 'r' && fs[2].0[0] == 'a' && fs[3].0[0] == 'r';
    assert fs[0].0[1] == 'c' && fs[1].0[1] == 'e' && fs[2].0[1] == 't' && fs[3].0[1] == 't';
    LookupAt(fs, fs[i].0, i);
  }

  /** Merging the same reply again changes nothing. */
  lemma MergeIdempotent(prior: Json, answer: Json)
    ensures MergeRefresh(MergeRefresh(prior, answer), answer) == MergeRefresh(prior, answer)
  {
    MergeKeepsOmitted(prior, answer);
  }

  /** A reply that sets all four entries replaces the record outright. */
  lemma MergeFullReply(prior1: Json, prior2: Json, answer: Json)
    requires IsSet(answer, "at") && IsSet(answer, "rt")
    requires IsSet(answer, "atExpiredTime") && IsSet(answer, "rtExpiredTime")
    ensures MergeRefresh(prior1, answer) == MergeRefresh(prior2, answer)
  {
  }

  /** Refresh the access token with the stored refresh token. */
  function Refresh(region: string, s: TokenState, raw: Option<Json>, encode: Json -> string): (r: Step<Json>)
    ensures Falsy(Field(s.data, "refreshToken")) ==> r == Step(s, [], Err(NoRefreshToken))
    ensures !Falsy(Field(s.data, "refreshToken")) && !Utils.IsValidRegion(region) ==>
      r == Step(s, [], Err(InvalidRegion))
    ensures !Falsy(Field(s.data, "refreshToken")) && Utils.IsValidRegion(region) ==>
      && r.calls == [Call(RefreshEndpoint, RefreshBody(Field(s.data, "refreshToken")))]
      && (r.result.Ok? <==> Responses.PostResult(raw).Ok?)
    ensures r.result.Ok? ==>
      && r.result.value == MergeRefresh(s.data, Field(raw.value, "data"))
      && r.state.data == r.result.value
      && r.state.shared == r.state.data
      && Stored(r.state, encode)
    ensures r.result.Err? && r.calls != [] ==> r.state == AfterReply(s, raw)
    ensures r.calls == [] ==> r.state == s && r.result.Err?
  {
    var rt := Field(s.data, "refreshToken");
    if Falsy(rt) then Step(s, [], Err(NoRefreshToken))
    else
      var call := Call(RefreshEndpoint, RefreshBody(rt));
      var reply := Post(region, s, call, raw);
      if reply.result.Err? then reply
      else
        var s1 := WriteIfChanged(reply.state.(data := MergeRefresh(s.data, reply.result.value)), encode);
        Step(s1, reply.calls, Ok(s1.data))
  }

  /**
   * `$now < $expiry` for an integer `now`: an integer compares
   * numerically, null and false are never greater, true is greater only
   * than 0, and an array is greater than any integer.
   */
  predicate Less(now: int, expiry: Json) {
    match expiry
    case JInt(i) => now < i
    case JBool(b) => b && now == 0
    case JArr(_) => true
    case JObj(_) => true
    case _ => false
  }

  /** The access token is usable without a refresh. */
  predicate AccessValid(s: TokenState, now: int) {
    !Falsy(s.data) && Less(now, Field(s.data, "atExpiredTime"))
  }

  /** The access token is stale but the refresh token is still good. */
  predicate NeedsRefresh(s: TokenState, now: int) {
    !Falsy(s.data) && !Less(now, Field(s.data, "atExpiredTime")) && Less(now, Field(s.data, "rtExpiredTime"))
  }

  /**
   * Report whether a usable token exists, refreshing it silently when only
   * the access token has expired.
   */
  function CheckAndRefresh(region: string, s: TokenState, now: int, raw: Option<Json>,
                           encode: Json -> string): (r: Step<bool>)
    ensures r.result == Ok(true) <==>
      AccessValid(s, now) || (NeedsRefresh(s, now) && Refresh(region, s, raw, encode).result.Ok?)
    ensures r.result == Ok(false) <==> !AccessValid(s, now) && !NeedsRefresh(s, now)
    ensures r.calls != [] <==>
      NeedsRefresh(s, now) && !Falsy(Field(s.data, "refreshToken")) && Utils.IsValidRegion(region)
    ensures r.calls == [] || r.calls == [Call(RefreshEndpoint, RefreshBody(Field(s.data, "refreshToken")))]
    ensures !NeedsRefresh(s, now) ==> r.state == s
    ensures NeedsRefresh(s, now) ==>
      var refreshed := Refresh(region, s, raw, encode);
      r.state == refreshed.state && r.calls == refreshed.calls
    ensures r.result.Err? ==> NeedsRefresh(s, now) && Err(r.result.error) == Refresh(region, s, raw, encode).result
    ensures r.result == Ok(true) && NeedsRefresh(s, now) ==>
      && r.state.data == MergeRefresh(s.data, Field(raw.value, "data"))
      && r.state.shared == r.state.data
      && Stored(r.state, encode)
  {
    if Falsy(s.data) then Step(s, [], Ok(false))
    else if Less(now, Field(s.data, "atExpiredTime")) then Step(s, [], Ok(true))
    else if Less(now, Field(s.data, "rtExpiredTime")) then
      var refreshed := Refresh(region, s, raw, encode);
      Step(refreshed.state, refreshed.calls,
           if refreshed.result.Ok? then Ok(true) else Err(refreshed.result.error))
    else Step(s, [], Ok(false))
  }

  /** Once token.json has been cleared no token is usable and nothing is requested. */
  lemma ClearedTokenIsInvalid(region: string, s: TokenState, now: int, raw: Option<Json>, encode: Json -> string)
    requires s.file.Some?
    ensures CheckAndRefresh(region, ClearToken(s), now, raw, encode) == Step(ClearToken(s), [], Ok(false))
  {
  }

  /**
   * A refresh answered with 401 fails, forgets the record when token.json
   * exists, and leaves no usable token behind.
   */
  lemma UnauthorizedRefreshInvalidates(region: string, s: TokenState, now: int, raw: Option<Json>, later: int,
                                       raw2: Option<Json>, encode: Json -> string)
    requires Utils.IsValidRegion(region)
    requires s.file.Some? && Responses.ClearsToken(raw)
    requires NeedsRefresh(s, now) && !Falsy(Field(s.data, "refreshToken"))
    ensures CheckAndRefresh(region, s, now, raw, encode).result.Err?
    ensures CheckAndRefresh(region, s, now, raw, encode).state.data == JNull
    ensures CheckAndRefresh(region, CheckAndRefresh(region, s, now, raw, encode).state, later, raw2, encode).result
      == Ok(false)
  {
    Responses.ClearingRepliesFail(raw, false);
  }

  /** Without token.json a clear keeps the in-memory record, so a valid token stays valid. */
  lemma ClearWithoutFileKeepsToken(region: string, s: TokenState, now: int, raw: Option<Json>, encode: Json -> string)
    requires s.file.None? && AccessValid(s, now)
    ensures CheckAndRefresh(region, ClearToken(s), now, raw, encode).result == Ok(true)
  {
  }
}

=== FILE: utils.dfy ===
/**
 * Helpers shared by the clients: request nonces, version-4 UUIDs, the
 * region whitelist and printable-only sanitising of strings.
 */
module Utils {
  import Text

  const LowerCase: string := "abcdefghijklmnopqrstuvwxyz"
  const UpperCase: string := "ABCDEFGHIJKLMNOPQRSTUVWXYZ"

  /** The 62 characters a nonce is drawn from: digits, lower case, upper case. */
  const NonceAlphabet: string := Text.Digits + LowerCase + UpperCase
  const NonceLength: nat := 8

  /** The alphabet position by position: digits, then lower case, then upper case. */
  function AlphabetChar(d: nat): char
    requires d < 62
  {
    if d < 10 then ('0' as int + d) as char
    else if d < 36 then ('a' as int + d - 10) as char
    else ('A' as int + d - 36) as char
  }

  /** Position of a character in the alphabet; the inverse of `AlphabetChar`. */
  function AlphabetIndex(c: char): int {
    if '0' <= c <= '9' then c as int - '0' as int
    else if 'a' <= c <= 'z' then c as int - 'a' as int + 10
    else c as int - 'A' as int + 36
  }

  lemma AlphabetLayout(d: nat)
    requires d < 62
    ensures NonceAlphabet[d] == AlphabetChar(d)
    ensures AlphabetIndex(NonceAlphabet[d]) == d
  {
    if d < 10 {
      assert NonceAlphabet[d] == Text.Digits[d];
    } else if d < 36 {
      assert NonceAlphabet[d] == LowerCase[d - 10];
    } else {
      assert NonceAlphabet[d] == UpperCase[d - 36];
    }
  }

  /** The source of randomness promised `random_int(0, 61)` eight times. */
  predicate ValidNonceDraws(draws: seq<int>) {
    |draws| == NonceLength && forall i :: 0 <= i < |draws| ==> 0 <= draws[i] < |NonceAlphabet|
  }

  /** Reading a nonce back: the alphabet position of each character. */
  function NonceDraws(nonce: string): (r: seq<int>)
    ensures |r| == |nonce|
  {
    seq(|nonce|, i requires 0 <= i < |nonce| => AlphabetIndex(nonce[i]))
  }

  /** Build the nonce from eight draws of `random_int(0, 61)`. */
  method GenerateNonce(draws: seq<int>) returns (nonce: string)
    requires ValidNonceDraws(draws)
    ensures |nonce| == NonceLength
    ensures forall i :: 0 <= i < |nonce| ==> nonce[i] in NonceAlphabet
    ensures NonceDraws(nonce) == draws
  {
    nonce := "";
    var i := 0;
    while i < NonceLength
      invariant 0 <= i <= NonceLength && |nonce| == i
      invariant forall k :: 0 <= k < i ==> nonce[k] == NonceAlphabet[draws[k]]
    {
      nonce := nonce + [NonceAlphabet[draws[i]]];
      i := i + 1;
    }
    forall k | 0 <= k < |nonce|
      ensures AlphabetIndex(nonce[k]) == draws[k]
    {
      AlphabetLayout(draws[k]);
    }
  }

  /** Upper bound of each `mt_rand` draw in `generateUUID`. */
  function UuidDrawMax(i: nat): nat {
    if i == 3 then 0x0fff else if i == 4 then 0x3fff else 0xffff
  }

  predicate ValidUuidDraws(d: seq<int>) {
    |d| == 8 && forall i :: 0 <= i < 8 ==> 0 <= d[i] <= UuidDrawMax(i)
  }

  /**
   * `%04x%04x-%04x-%04x-%04x-%04x%04x%04x` over the draws, with 0x4000
   * or'ed into the fourth and 0x8000 into the fifth; the or-ed bits lie
   * above the draw's bits, so the or is an addition.
   */
  function GenerateUUID(d: seq<int>): (r: string)
    requires ValidUuidDraws(d)
    ensures |r| == 36
    ensures r[8] == '-' && r[13] == '-' && r[18] == '-' && r[23] == '-'
  {
    Text.Hex4(d[0]) + Text.Hex4(d[1]) + "-" + Text.Hex4(d[2]) + "-"
      + Text.Hex4(d[3] + 0x4000) + "-" + Text.Hex4(d[4] + 0x8000) + "-"
      + Text.Hex4(d[5]) + Text.Hex4(d[6]) + Text.Hex4(d[7])
  }

  predicate IsHexGroup(s: string) {
    forall i :: 0 <= i < |s| ==> s[i] in Text.HexDigits
  }

  /**
   * Reading the UUID's groups back yields the draws: the third group is a
   * version-4 field in [0x4000, 0x4fff] and the fourth a variant field in
   * [0x8000, 0xbfff].
   */
  lemma UuidFields(d: seq<int>)
    requires ValidUuidDraws(d)
    ensures var r := GenerateUUID(d);
      && IsHexGroup(r[14..18]) && IsHexGroup(r[19..23])
      && Text.HexValue(r[14..18]) == d[3] + 0x4000
      && Text.HexValue(r[19..23]) == d[4] + 0x8000
      && 0x4000 <= Text.HexValue(r[14..18]) <= 0x4fff
      && 0x8000 <= Text.HexValue(r[19..23]) <= 0xbfff
      && IsHexGroup(r[..8]) && Text.HexValue(r[..8]) == d[0] * 0x10000 + d[1]
  {
    var r := GenerateUUID(d);
    assert r[14..18] == Text.HexN(d[3] + 0x4000, 4);
    assert r[19..23] == Text.HexN(d[4] + 0x8000, 4);
    Text.HexRoundTrip(d[3] + 0x4000, 4);
    Text.HexRoundTrip(d[4] + 0x8000, 4);
    assert r[..8] == Text.HexN(d[0], 4) + Text.HexN(d[1], 4);
    HexConcat(d[0], d[1]);
  }

  /** Two four-digit groups read as one eight-digit number. */
  lemma HexConcat(hi: nat, lo: nat)
    requires hi < 0x10000 && lo < 0x10000
    ensures IsHexGroup(Text.HexN(hi, 4) + Text.HexN(lo, 4))
    ensures Text.HexValue(Text.HexN(hi, 4) + Text.HexN(lo, 4)) == hi * 0x10000 + lo
  {
    Text.HexRoundTrip(hi, 4);
    Text.HexRoundTrip(lo, 4);
    HexValueAppend(Text.HexN(hi, 4), Text.HexN(lo, 4));
    assert Text.Pow16(4) == 0x10000;
  }

  /** Appending digits shifts the prefix's value by a power of sixteen. */
  lemma {:induction false} HexValueAppend(a: string, b: string)
    requires IsHexGroup(a) && IsHexGroup(b)
    ensures IsHexGroup(a + b)
    ensures Text.HexValue(a + b) == Text.HexValue(a) * Text.Pow16(|b|) + Text.HexValue(b)
    decreases |b|
  {
    if |b| > 0 {
      var ab := a + b;
      var front := b[..|b| - 1];
      assert ab[..|ab| - 1] == a + front;
      assert ab[|ab| - 1] == b[|b| - 1];
      HexValueAppend(a, front);
      var d := Text.HexDigitValue(b[|b| - 1]);
      HexValueLast(ab);
      HexValueLast(b);
      assert Text.Pow16(|b|) == 16 * Text.Pow16(|front|);
      ShiftDigit(Text.HexValue(a), Text.Pow16(|front|), Text.HexValue(front), d);
    } else {
      assert a + b == a;
    }
  }

  lemma HexValueLast(s: string)
    requires |s| > 0 && IsHexGroup(s)
    ensures IsHexGroup(s[..|s| - 1])
    ensures Text.HexValue(s) == Text.HexValue(s[..|s| - 1]) * 16 + Text.HexDigitValue(s[|s| - 1])
  {
  }

  lemma ShiftDigit(x: int, p: int, y: int, d: int)
    ensures (x * p + y) * 16 + d == x * (16 * p) + (y * 16 + d)
  {
  }

  /** The regions the configuration check accepts. */
  const ValidRegions: seq<string> := ["cn", "us", "eu", "as"]

  predicate IsValidRegion(region: string) {
    region in ValidRegions
  }

  /** `[[:print:]]` outside UTF mode: the characters from space to tilde. */
  predicate IsPrint(c: char) {
    ' ' <= c <= '~'
  }

  /** Remove every character that is not printable. */
  function Sanitize(s: string): (r: string)
    ensures |r| <= |s|
    ensures forall i :: 0 <= i < |r| ==> IsPrint(r[i])
  {
    if |s| == 0 then ""
    else (if IsPrint(s[0]) then [s[0]] else "") + Sanitize(s[1..])
  }

  /** Every printable character survives as often as it occurs; nothing else survives. */
  lemma {:induction false} SanitizeCounts(s: string)
    ensures forall c :: IsPrint(c) ==> multiset(Sanitize(s))[c] == multiset(s)[c]
    ensures forall c :: !IsPrint(c) ==> multiset(Sanitize(s))[c] == 0
    decreases |s|
  {
    if |s| > 0 {
      SanitizeStep(s);
      SanitizeCounts(s[1..]);
      assert s == [s[0]] + s[1..];
    }
  }

  /** Sanitising works piece by piece. */
  lemma {:induction false} SanitizeConcat(a: string, b: string)
    ensures Sanitize(a + b) == Sanitize(a) + Sanitize(b)
    decreases |a|
  {
    if |a| > 0 {
      var ab := a + b;
      assert ab[0] == a[0] && ab[1..] == a[1..] + b;
      SanitizeStep(ab);
      SanitizeStep(a);
      SanitizeConcat(a[1..], b);
      var head := if IsPrint(a[0]) then [a[0]] else "";
      assert head + (Sanitize(a[1..]) + Sanitize(b)) == (head + Sanitize(a[1..])) + Sanitize(b);
    } else {
      assert a + b == b;
    }
  }

  /** The first character is kept exactly when it is printable. */
  lemma SanitizeStep(s: string)
    requires |s| > 0
    ensures Sanitize(s) == (if IsPrint(s[0]) then [s[0]] else "") + Sanitize(s[1..])
  {
  }

  /** A printable string is left as it is, so sanitising twice equals sanitising once. */
  lemma {:induction false} SanitizeIdempotent(s: string)
    ensures Sanitize(Sanitize(s)) == Sanitize(s)
  {
    SanitizeKeepsPrintable(Sanitize(s));
  }

  lemma {:induction false} SanitizeKeepsPrintable(s: string)
    requires forall i :: 0 <= i < |s| ==> IsPrint(s[i])
    ensures Sanitize(s) == s
    decreases |s|
  {
    if |s| > 0 {
      SanitizeKeepsPrintable(s[1..]);
    }
  }
}

=== FILE: wrappers.dfy ===
/** Failure-carrying result types shared by every module of the model. */
module Wrappers {

  /** A value that may be absent, as PHP's `null` is used for "not found". */
  datatype Option<+T> = None | Some(value: T) {
    function GetOr(default: T): T {
      match this
      case Some(v) => v
      case None => default
    }
  }

  /** Either a value or the error the source would throw instead. */
  datatype Result<+T, +E> = Ok(value: T) | Err(error: E) {
    predicate IsFailure() {
      Err?
    }

    function GetOr(default: T): T {
      match this
      case Ok(v) => v
      case Err(_) => default
    }
  }
}

=== FILE: ws_client.dfy ===
/**
 * The real-time client of the namespaced variant: dispatch-endpoint
 * resolution, the accept-key check of `connect`, heartbeat seeding in
 * `handshake`, the cooperative `maybePing`, the `send`/`receive` guards and
 * `close`. Sockets are reduced to an open/closed state plus the inputs the
 * source reads from them; time, DNS, random bytes and the dispatch reply
 * are parameters.
 */
module WsClient {
  import opened Wrappers
  import opened Json
  import Text
  import Frame
  import Handshake
  import Responses
  import Token
  import Utils
  import HttpClient

  /** Dispatch service per region. */
  const DispatchUrls: map<string, string> := map[
    "cn" := "https://cn-dispa.coolkit.cn/dispatch/app",
    "us" := "https://us-dispa.coolkit.cc/dispatch/app",
    "eu" := "https://eu-dispa.coolkit.cc/dispatch/app",
    "as" := "https://as-dispa.coolkit.cc/dispatch/app"
  ]

  const WsPath: string := "/api/ws"

  /** The REST gateway table, the dispatch table and the configuration check accept the same regions. */
  lemma RegionTablesAgree(region: string)
    ensures HttpClient.GatewayUrl(region).Ok? <==> region in DispatchUrls
    ensures HttpClient.GatewayUrl(region).Ok? <==> Utils.IsValidRegion(region)
  {
  }

  datatype WsError =
    | InvalidRegion
    | EmptyRequestResponse
    | DispatchRequestFailed(failure: Responses.HttpError)
    | ConnectFailed
    | Handshake(cause: Handshake.HandshakeError)
    | NoValidConnection
    | FailedToSendData
    | HeartbeatNotNumeric   // the TypeError of `+` on an interval that is not a number

  /** The endpoint fields `resolveWebSocketUrl` fills in. */
  datatype Endpoint = Endpoint(url: string, host: string, port: Json, path: string)

  /** The HTTP client after the dispatch request, the requests sent, and what came of it. */
  datatype Resolution = Resolution(http: HttpClient.Client, sent: seq<HttpClient.HttpRequest>,
                                   result: Result<Endpoint, WsError>)

  /** The dispatch request: a full-URL GET with no query parameters. */
  function DispatchRequest(http: HttpClient.Client, url: string, raw: Option<Json>): HttpClient.Exchange<Json> {
    HttpClient.GetRequest(http, url, "", true, raw)
  }

  /**
   * `resolveWebSocketUrl`: an unknown region fails before any request;
   * otherwise the dispatch service is asked through the HTTP client's
   * full-URL GET, whose token clearing on 401 applies. A reply that is
   * falsy or whose domain or port is empty in PHP's sense fails; otherwise
   * the domain is resolved once and the URL is built from the IP and port.
   * `raw` is the decoded dispatch reply, `dns` is `gethostbyname`.
   */
  function ResolveWebSocketUrl(region: string, http: HttpClient.Client, raw: Option<Json>,
                               dns: string -> string): (r: Resolution)
    ensures region !in DispatchUrls ==> r == Resolution(http, [], Err(InvalidRegion))
    ensures region in DispatchUrls ==>
      && r.sent == [HttpClient.HttpRequest(HttpClient.Get, DispatchUrls[region] + "?",
                                           [HttpClient.BearerPrefix + HttpClient.AccessToken(http)], "")]
      && r.http.token == Token.AfterReply(http.token, raw)
    ensures r.http.region == http.region && r.http.devices == http.devices
    ensures r.result.Ok? <==>
      && region in DispatchUrls
      && Responses.GetResult(raw, true).Ok?
      && !Falsy(raw.value)
      && !Falsy(Field(raw.value, "domain"))
      && !Falsy(Field(raw.value, "port"))
    ensures r.result.Ok? ==> r.result.value.path == WsPath && r.result.value.port == Field(raw.value, "port")
  {
    if region !in DispatchUrls then Resolution(http, [], Err(InvalidRegion))
    else
      var url := DispatchUrls[region];
      var exchange := DispatchRequest(http, url, raw);
      assert url + "?" + "" == url + "?";
      match exchange.result
      case Err(e) => Resolution(exchange.client, exchange.sent, Err(DispatchRequestFailed(e)))
      case Ok(reply) =>
        if Falsy(reply) || Falsy(Field(reply, "domain")) || Falsy(Field(reply, "port")) then
          Resolution(exchange.client, exchange.sent, Err(EmptyRequestResponse))
        else
          var ip := dns(Render(Field(reply, "domain")));
          var wss := "wss://" + ip + ":" + Render(Field(reply, "port")) + WsPath;
          Resolution(exchange.client, exchange.sent, Ok(Endpoint(wss, dns(ip), Field(reply, "port"), WsPath)))
  }

  /**
   * A dispatch reply carrying error 401 fails the resolution with the 401
   * message and clears the token, as every GET of the HTTP client does.
   */
  lemma UnauthorizedDispatchClears(region: string, http: HttpClient.Client, raw: Option<Json>, dns: string -> string)
    requires region in DispatchUrls && Responses.ClearsToken(raw)
    ensures var r := ResolveWebSocketUrl(region, http, raw, dns);
      && r.result.Err?
      && r.http.token == Token.ClearToken(http.token)
  {
    Responses.ClearingRepliesFail(raw, true);
  }

  /**
   * With a resolver that maps an IP literal to itself, as `gethostbyname`
   * does, the host is the resolved IP of the dispatch domain and the URL is
   * `wss://<host>:<port>/api/ws`.
   */
  lemma ResolvedUrlShape(region: string, http: HttpClient.Client, raw: Option<Json>, dns: string -> string)
    requires ResolveWebSocketUrl(region, http, raw, dns).result.Ok?
    requires forall d :: dns(dns(d)) == dns(d)
    ensures var e := ResolveWebSocketUrl(region, http, raw, dns).result.value;
      && e.host == dns(Render(Field(raw.value, "domain")))
      && e.url == "wss://" + e.host + ":" + Render(e.port) + "/api/ws"
  {
  }

  datatype Socket = NoSocket | Open

  /** Client state: endpoint, socket, handshake key and heartbeat clock. */
  datatype Client = Client(endpoint: Endpoint, socket: Socket, key: string, hbInterval: real, nextPing: real)

  /** State after construction: resolved, not connected, no heartbeat. */
  function Fresh(e: Endpoint): Client {
    Client(e, NoSocket, "", 0.0, 0.0)
  }

  /** New state, the frames written to the socket in order, and the outcome. */
  datatype Step<T> = Step(client: Client, written: seq<seq<Frame.Byte>>, result: Result<T, WsError>)

  /**
   * `connect`: a failed TLS connect raises; otherwise the key is base64 of
   * 16 random bytes and the accept check decides. A failed check raises
   * but leaves the socket open.
   */
  function Connect(c: Client, connected: bool, keyBytes: seq<Frame.Byte>, captured: Option<string>,
                   sha1: string -> seq<Frame.Byte>, base64: seq<Frame.Byte> -> string): (r: Step<()>)
    requires |keyBytes| == 16
    ensures r.written == []
    ensures !connected ==> r.client.socket == NoSocket && r.result == Err(ConnectFailed)
    ensures connected ==> r.client.socket == Open && r.client.key == base64(keyBytes)
    ensures r.result.Ok? <==> connected && Handshake.CheckAccept(captured, base64(keyBytes), sha1, base64).Ok?
    ensures r.client.hbInterval == c.hbInterval && r.client.nextPing == c.nextPing
  {
    if !connected then Step(c.(socket := NoSocket), [], Err(ConnectFailed))
    else
      var key := base64(keyBytes);
      var live := c.(socket := Open, key := key);
      match Handshake.CheckAccept(captured, key, sha1, base64)
      case Err(e) => Step(live, [], Err(Handshake(e)))
      case Ok(_) => Step(live, [], Ok(()))
  }

  /** The safety margin added to the server's heartbeat interval. */
  const HeartbeatMargin: int := 7

  /** The server's interval as `handshake` reads it from the reply. */
  function HeartbeatSetting(reply: Json): Json {
    Field(Field(reply, "config"), "hbInterval")
  }

  /**
   * Heartbeat seeding in `handshake`: when the reply sets
   * `config.hbInterval`, PHP's `+` reads a number from it and the interval
   * becomes that number plus 7, with the next ping due one interval from
   * now; an interval `+` cannot read raises a TypeError, and an unset one
   * changes nothing.
   */
  function SeedHeartbeat(c: Client, reply: Json, now: real): (r: Result<Client, WsError>)
    ensures HeartbeatSetting(reply) == JNull ==> r == Ok(c)
    ensures HeartbeatSetting(reply).JInt? ==>
      var h := HeartbeatSetting(reply).i;
      r == Ok(c.(hbInterval := (h + 7) as real, nextPing := now + (h + 7) as real))
    ensures HeartbeatSetting(reply) != JNull ==>
      (r.Ok? <==> NumericOperand(HeartbeatSetting(reply)).Some?)
    ensures r.Ok? && HeartbeatSetting(reply) != JNull ==>
      var v := Text.DecimalReal(NumericOperand(HeartbeatSetting(reply)).value);
      r.value == c.(hbInterval := v + 7.0, nextPing := now + (v + 7.0))
    ensures r.Err? ==> r.error == HeartbeatNotNumeric
  {
    var hb := HeartbeatSetting(reply);
    if hb == JNull then Ok(c) else SeedFrom(c, NumericOperand(hb), now)
  }

  /** The heartbeat seeded from the number `+` read, or the TypeError when it read none. */
  function SeedFrom(c: Client, operand: Option<Text.Decimal>, now: real): (r: Result<Client, WsError>)
    ensures operand.Some? && operand.value.exponent == 0 ==>
      var interval := (operand.value.mantissa + 7) as real;
      r == Ok(c.(hbInterval := interval, nextPing := now + interval))
  {
    match operand
    case None => Err(HeartbeatNotNumeric)
    case Some(v) =>
      Text.WholeDecimal(v);
      var interval := Text.DecimalReal(v) + HeartbeatMargin as real;
      Ok(c.(hbInterval := interval, nextPing := now + interval))
  }

  /** An interval the reply spells as a decimal string seeds the heartbeat as the integer it denotes. */
  lemma SeedHeartbeatPrinted(c: Client, now: real, h: int, number: Json, printed: Json)
    requires HeartbeatSetting(number) == JInt(h)
    requires HeartbeatSetting(printed) == JStr(Text.IntToDecimal(h))
    ensures SeedHeartbeat(c, printed, now) == SeedHeartbeat(c, number, now)
  {
    Text.LeadingNumberOfDecimal(h);
    SameOperandSameSeed(c, now, printed, number);
  }

  lemma SameOperandSameSeed(c: Client, now: real, a: Json, b: Json)
    requires HeartbeatSetting(a) != JNull && HeartbeatSetting(b) != JNull
    requires NumericOperand(HeartbeatSetting(a)) == NumericOperand(HeartbeatSetting(b))
    ensures SeedHeartbeat(c, a, now) == SeedHeartbeat(c, b, now)
  {
    assert SeedHeartbeat(c, a, now) == SeedFrom(c, NumericOperand(HeartbeatSetting(a)), now);
    assert SeedHeartbeat(c, b, now) == SeedFrom(c, NumericOperand(HeartbeatSetting(b)), now);
  }

  /** A boolean interval counts as 0 or 1; an array interval raises. */
  lemma SeedHeartbeatOperands(c: Client, now: real, flag: Json, list: Json)
    requires HeartbeatSetting(flag).JBool?
    requires IsArray(HeartbeatSetting(list))
    ensures var interval := if HeartbeatSetting(flag).b then 8.0 else 7.0;
      SeedHeartbeat(c, flag, now) == Ok(c.(hbInterval := interval, nextPing := now + interval))
    ensures SeedHeartbeat(c, list, now) == Err(HeartbeatNotNumeric)
  {
    Text.WholeDecimal(NumericOperand(HeartbeatSetting(flag)).value);
  }

  /** The ping `maybePing` writes: an empty masked ping frame. */
  function PingFrame(mask: Frame.Mask): (f: seq<Frame.Byte>)
    ensures f == [0x89, 0x80] + mask
    ensures Frame.Decode(f) == []
  {
    Frame.RoundTrip([], Frame.Ping, true, mask);
    Frame.Encode([], Frame.Ping, true, mask).value
  }

  /** A ping is due: heartbeat on, deadline reached, socket open and not at end of stream. */
  predicate PingDue(c: Client, now: real, atEof: bool) {
    c.hbInterval != 0.0 && now >= c.nextPing && c.socket.Open? && !atEof
  }

  /**
   * `maybePing`: when a ping is due, write exactly one ping frame and move
   * the deadline to now plus the interval; otherwise change nothing.
   */
  function MaybePing(c: Client, now: real, atEof: bool, mask: Frame.Mask): (r: (Client, seq<seq<Frame.Byte>>))
    ensures PingDue(c, now, atEof) ==> r == (c.(nextPing := now + c.hbInterval), [PingFrame(mask)])
    ensures !PingDue(c, now, atEof) ==> r == (c, [])
    ensures r.0.socket == c.socket && r.0.hbInterval == c.hbInterval
  {
    if PingDue(c, now, atEof) then (c.(nextPing := now + c.hbInterval), [PingFrame(mask)])
    else (c, [])
  }

  /**
   * `send`: the heartbeat check first, then the null-socket guard, then one
   * masked frame of the requested type. A payload too long to encode makes
   * the encoder return `false`, which the write turns into zero bytes.
   * `writeOk` is whether the socket write reported success.
   */
  function Send(c: Client, data: seq<Frame.Byte>, t: Frame.FrameType, now: real, atEof: bool,
                pingMask: Frame.Mask, mask: Frame.Mask, writeOk: bool): (r: Step<()>)
    ensures c.socket.NoSocket? ==> r == Step(c, [], Err(NoValidConnection))
    ensures c.socket.Open? ==>
      && |r.written| == |MaybePing(c, now, atEof, pingMask).1| + 1
      && r.written[..|r.written| - 1] == MaybePing(c, now, atEof, pingMask).1
      && r.client == MaybePing(c, now, atEof, pingMask).0
    ensures c.socket.Open? && Frame.Encodable(|data|) ==>
      Frame.Decode(r.written[|r.written| - 1]) == data
    ensures c.socket.Open? && !Frame.Encodable(|data|) ==> r.written[|r.written| - 1] == []
    ensures r.result.Ok? <==> c.socket.Open? && writeOk
  {
    var (c1, pings) := MaybePing(c, now, atEof, pingMask);
    if c1.socket.NoSocket? then Step(c1, pings, Err(NoValidConnection))
    else
      var frame := Frame.Encode(data, t, true, mask).GetOr([]);
      Frame.RoundTripWhenEncodable(data, t, true, mask);
      if writeOk then Step(c1, pings + [frame], Ok(()))
      else Step(c1, pings + [frame], Err(FailedToSendData))
  }

  /** Most bytes one `receive` reads. */
  const ReadSize: nat := 2048

  function Take<T>(s: seq<T>, n: nat): (r: seq<T>)
    ensures |r| == if |s| <= n then |s| else n
  {
    if |s| <= n then s else s[..n]
  }

  /**
   * `receive`: the heartbeat check, the null-socket guard, then one read of
   * at most 2048 bytes, decoded. `incoming` is what the peer has sent.
   */
  function Receive(c: Client, now: real, atEof: bool, pingMask: Frame.Mask, incoming: seq<Frame.Byte>): (r: Step<seq<Frame.Byte>>)
    ensures c.socket.NoSocket? ==> r == Step(c, [], Err(NoValidConnection))
    ensures c.socket.Open? ==> r.result == Ok(Frame.Decode(Take(incoming, ReadSize)))
    ensures r.client == MaybePing(c, now, atEof, pingMask).0
  {
    var (c1, pings) := MaybePing(c, now, atEof, pingMask);
    if c1.socket.NoSocket? then Step(c1, pings, Err(NoValidConnection))
    else Step(c1, pings, Ok(Frame.Decode(Take(incoming, ReadSize))))
  }

  /** A whole frame that fits in one read comes back as its payload. */
  lemma ReceiveWholeFrame(c: Client, now: real, atEof: bool, pingMask: Frame.Mask,
                          payload: seq<Frame.Byte>, t: Frame.FrameType, masked: bool, mask: Frame.Mask)
    requires c.socket.Open? && Frame.Encodable(|payload|)
    requires |Frame.Encode(payload, t, masked, mask).value| <= ReadSize
    ensures Receive(c, now, atEof, pingMask, Frame.Encode(payload, t, masked, mask).value).result == Ok(payload)
  {
    Frame.RoundTrip(payload, t, masked, mask);
  }

  /**
   * A frame longer than one read comes back cut short: only the payload
   * bytes that arrived within the 2048 bytes read, a proper prefix.
   */
  lemma ReceiveTruncates(c: Client, now: real, atEof: bool, pingMask: Frame.Mask,
                         payload: seq<Frame.Byte>, t: Frame.FrameType, masked: bool, mask: Frame.Mask)
    requires c.socket.Open? && Frame.Encodable(|payload|)
    requires |Frame.Encode(payload, t, masked, mask).value| > ReadSize
    ensures var got := Receive(c, now, atEof, pingMask, Frame.Encode(payload, t, masked, mask).value).result;
      && got == Ok(payload[..ReadSize - Frame.PayloadStart(|payload|, masked)])
      && |got.value| < |payload|
  {
    Frame.DecodeTruncated(payload, t, masked, mask, ReadSize);
  }

  /** `close`: the socket is released and forgotten; nothing else changes. */
  function Close(c: Client): (r: Client)
    ensures r.socket == NoSocket
    ensures r == c.(socket := NoSocket)
  {
    if c.socket.Open? then c.(socket := NoSocket) else c
  }

  /** Closing twice is closing once, and a closed client neither pings nor sends. */
  lemma CloseIdempotent(c: Client, data: seq<Frame.Byte>, t: Frame.FrameType, now: real, atEof: bool,
                        pingMask: Frame.Mask, mask: Frame.Mask, writeOk: bool)
    ensures Close(Close(c)) == Close(c)
    ensures Send(Close(c), data, t, now, atEof, pingMask, mask, writeOk) == Step(Close(c), [], Err(NoValidConnection))
  {
  }

  /**
   * A heartbeat seeded at time `t0` with interval `h` stays quiet before
   * `t0 + h + 7`, pings once at that time, and is then quiet again until one
   * more interval has passed.
   */
  lemma HeartbeatSchedule(c: Client, reply: Json, h: int, t0: real, t1: real, t2: real, atEof: bool, mask: Frame.Mask)
    requires c.socket.Open? && !atEof
    requires Field(Field(reply, "config"), "hbInterval") == JInt(h)
    requires h + 7 > 0
    requires t0 <= t1 < t0 + (h + 7) as real
    requires t0 + (h + 7) as real <= t2
    ensures SeedHeartbeat(c, reply, t0).Ok?
    ensures var seeded := SeedHeartbeat(c, reply, t0).value;
      && MaybePing(seeded, t1, atEof, mask) == (seeded, [])
      && var (after, frames) := MaybePing(seeded, t2, atEof, mask);
         frames == [PingFrame(mask)] && after.nextPing == t2 + (h + 7) as real
         && MaybePing(after, t2, atEof, mask).1 == []
  {
  }
}

=== FILE: ws_legacy.dfy ===
/**
 * The older, non-namespaced real-time client. It resolves the dispatch
 * endpoint with a `switch` instead of a table, sends without a heartbeat
 * check, always as a masked text frame, reads at most 1500 bytes, and
 * tracks a forked heartbeat process that `close` stops.
 */
module LegacyWsClient {
  import opened Wrappers
  import opened Json
  import Frame
  import Handshake
  import HttpClient
  import WsClient

  /** The `switch` of `resolveWebSocketUrl`. */
  function DispatchUrl(region: string): Option<string> {
    match region
    case "cn" => Some("https://cn-dispa.coolkit.cn/dispatch/app")
    case "us" => Some("https://us-dispa.coolkit.cc/dispatch/app")
    case "eu" => Some("https://eu-dispa.coolkit.cc/dispatch/app")
    case "as" => Some("https://as-dispa.coolkit.cc/dispatch/app")
    case _ => None
  }

  /**
   * The `switch` accepts exactly cn, us, eu and as and picks the same
   * dispatch URL as the newer client's table.
   */
  lemma SwitchMatchesTable(region: string)
    ensures DispatchUrl(region).Some? <==> region in {"cn", "us", "eu", "as"}
    ensures DispatchUrl(region).Some? <==> region in WsClient.DispatchUrls
    ensures region in WsClient.DispatchUrls ==> DispatchUrl(region).value == WsClient.DispatchUrls[region]
  {
  }

  /**
   * `resolveWebSocketUrl` of the older client: the region switch, then the
   * same dispatch GET, reply checks and URL construction as the newer client.
   */
  function ResolveWebSocketUrl(region: string, http: HttpClient.Client, raw: Option<Json>,
                               dns: string -> string): (r: WsClient.Resolution)
    ensures DispatchUrl(region).None? ==> r == WsClient.Resolution(http, [], Err(WsClient.InvalidRegion))
    ensures r == WsClient.ResolveWebSocketUrl(region, http, raw, dns)
  {
    SwitchMatchesTable(region);
    match DispatchUrl(region)
    case None => WsClient.Resolution(http, [], Err(WsClient.InvalidRegion))
    case Some(url) =>
      var exchange := HttpClient.GetRequest(http, url, "", true, raw);
      match exchange.result
      case Err(e) => WsClient.Resolution(exchange.client, exchange.sent, Err(WsClient.DispatchRequestFailed(e)))
      case Ok(reply) =>
        if Falsy(reply) || Falsy(Field(reply, "domain")) || Falsy(Field(reply, "port")) then
          WsClient.Resolution(exchange.client, exchange.sent, Err(WsClient.EmptyRequestResponse))
        else
          var ip := dns(Render(Field(reply, "domain")));
          var wss := "wss://" + ip + ":" + Render(Field(reply, "port")) + WsClient.WsPath;
          WsClient.Resolution(exchange.client, exchange.sent,
                              Ok(WsClient.Endpoint(wss, dns(ip), Field(reply, "port"), WsClient.WsPath)))
  }

  /** Client state: endpoint, socket, heartbeat interval and the heartbeat process id. */
  datatype Client = Client(endpoint: WsClient.Endpoint, socket: WsClient.Socket, key: string, hbInterval: int, pid: Option<int>)

  datatype LegacyError = Ws(cause: WsClient.WsError) | ForkFailed

  /**
   * `connect`: the same TLS and accept-key logic as the newer client. A
   * failed check raises and leaves the socket open.
   */
  function Connect(c: Client, connected: bool, keyBytes: seq<Frame.Byte>, captured: Option<string>,
                   sha1: string -> seq<Frame.Byte>, base64: seq<Frame.Byte> -> string): (r: (Client, Result<(), LegacyError>))
    requires |keyBytes| == 16
    ensures !connected ==> r.0.socket.NoSocket? && r.1 == Err(Ws(WsClient.ConnectFailed))
    ensures connected ==> r.0.socket.Open? && r.0.key == base64(keyBytes)
    ensures r.1.Ok? <==> connected && Handshake.CheckAccept(captured, base64(keyBytes), sha1, base64).Ok?
    ensures connected && Handshake.CheckAccept(captured, base64(keyBytes), sha1, base64).Err? ==>
      r.1 == Err(Ws(WsClient.Handshake(Handshake.CheckAccept(captured, base64(keyBytes), sha1, base64).error)))
  {
    if !connected then (c.(socket := WsClient.NoSocket), Err(Ws(WsClient.ConnectFailed)))
    else
      var key := base64(keyBytes);
      var live := c.(socket := WsClient.Open, key := key);
      match Handshake.CheckAccept(captured, key, sha1, base64)
      case Err(e) => (live, Err(Ws(WsClient.Handshake(e))))
      case Ok(_) => (live, Ok(()))
  }

  /**
   * `send`: a null socket raises before anything is written; otherwise the
   * data goes out as one masked text frame whose payload decodes back to
   * the data. `writeOk` is whether the socket write reported success.
   */
  function Send(c: Client, data: seq<Frame.Byte>, mask: Frame.Mask, writeOk: bool): (r: (seq<seq<Frame.Byte>>, Result<(), LegacyError>))
    ensures c.socket.NoSocket? ==> r == ([], Err(Ws(WsClient.NoValidConnection)))
    ensures c.socket.Open? ==> |r.0| == 1
    ensures c.socket.Open? && Frame.Encodable(|data|) ==>
      |r.0[0]| >= 6 && r.0[0][0] == Frame.FirstByte(Frame.Text) && Frame.HighBit(r.0[0][1]) && Frame.Decode(r.0[0]) == data
    ensures r.1.Ok? <==> c.socket.Open? && writeOk
  {
    if c.socket.NoSocket? then ([], Err(Ws(WsClient.NoValidConnection)))
    else
      var frame := Frame.Encode(data, Frame.Text, true, mask).GetOr([]);
      Frame.RoundTripWhenEncodable(data, Frame.Text, true, mask);
      assert Frame.Encodable(|data|) ==> Frame.HighBit(frame[1]) by {
        if Frame.Encodable(|data|) {
          Frame.EncodeLengthFields(data, Frame.Text, true, mask);
        }
      }
      ([frame], if writeOk then Ok(()) else Err(Ws(WsClient.FailedToSendData)))
  }

  /** Most bytes one `receive` reads in this variant. */
  const ReadSize: nat := 1500

  /** `receive`: a null socket raises before anything is read; otherwise one read, decoded. */
  function Receive(c: Client, incoming: seq<Frame.Byte>): (r: Result<seq<Frame.Byte>, LegacyError>)
    ensures c.socket.NoSocket? ==> r == Err(Ws(WsClient.NoValidConnection))
    ensures c.socket.Open? ==> r == Ok(Frame.Decode(WsClient.Take(incoming, ReadSize)))
  {
    if c.socket.NoSocket? then Err(Ws(WsClient.NoValidConnection))
    else Ok(Frame.Decode(WsClient.Take(incoming, ReadSize)))
  }

  /** A whole frame that fits in one read comes back as its payload. */
  lemma ReceiveWholeFrame(c: Client, payload: seq<Frame.Byte>, t: Frame.FrameType, masked: bool, mask: Frame.Mask)
    requires c.socket.Open? && Frame.Encodable(|payload|)
    requires |Frame.Encode(payload, t, masked, mask).value| <= ReadSize
    ensures Receive(c, Frame.Encode(payload, t, masked, mask).value) == Ok(payload)
  {
    Frame.RoundTrip(payload, t, masked, mask);
  }

  /**
   * A frame longer than one read comes back cut short: only the payload
   * bytes that arrived within the 1500 bytes read, a proper prefix.
   */
  lemma ReceiveTruncates(c: Client, payload: seq<Frame.Byte>, t: Frame.FrameType, masked: bool, mask: Frame.Mask)
    requires c.socket.Open? && Frame.Encodable(|payload|)
    requires |Frame.Encode(payload, t, masked, mask).value| > ReadSize
    ensures var got := Receive(c, Frame.Encode(payload, t, masked, mask).value);
      && got == Ok(payload[..ReadSize - Frame.PayloadStart(|payload|, masked)])
      && |got.value| < |payload|
  {
    Frame.DecodeTruncated(payload, t, masked, mask, ReadSize);
  }

  /** What the process becomes after `pcntl_fork` succeeds. */
  datatype Role = Parent | HeartbeatChild

  /**
   * The bookkeeping of `startHeartbeat`: the interval is the server's plus
   * seven seconds and the fork result is stored as the process id before it
   * is examined; -1 then raises, a non-zero id makes this the parent, and 0
   * turns this process into the ping loop.
   */
  function StartHeartbeat(c: Client, interval: int, forkResult: int): (r: (Client, Result<Role, LegacyError>))
    ensures r.0.hbInterval == interval + 7
    ensures r.0.pid == Some(forkResult)
    ensures forkResult == -1 ==> r.1 == Err(ForkFailed)
    ensures forkResult != -1 && forkResult != 0 ==> r.1 == Ok(Parent)
    ensures forkResult == 0 ==> r.1 == Ok(HeartbeatChild)
  {
    var c1 := c.(hbInterval := interval + WsClient.HeartbeatMargin, pid := Some(forkResult));
    if forkResult == -1 then (c1, Err(ForkFailed))
    else if forkResult != 0 then (c1, Ok(Parent))
    else (c1, Ok(HeartbeatChild))
  }

  /**
   * `startHeartbeat` as evidently intended: a failed fork leaves no process
   * id behind, so only a real child can be signalled later.
   */
  function StartHeartbeatGuarded(c: Client, interval: int, forkResult: int): (r: (Client, Result<Role, LegacyError>))
    ensures r.0.hbInterval == interval + 7
    ensures r.1 == StartHeartbeat(c, interval, forkResult).1
    ensures forkResult == -1 ==> r.0.pid.None?
    ensures forkResult != -1 ==> r.0 == StartHeartbeat(c, interval, forkResult).0
  {
    var started := StartHeartbeat(c, interval, forkResult);
    if forkResult == -1 then (started.0.(pid := None), started.1) else started
  }

  /** The process id is truthy: a recorded, non-zero id. */
  predicate HasChild(c: Client) {
    c.pid.Some? && c.pid.value != 0
  }

  /**
   * `close`: the socket becomes null; a recorded heartbeat process is
   * signalled (its id is returned) and forgotten.
   */
  function Close(c: Client): (r: (Client, Option<int>))
    ensures r.0.socket.NoSocket?
    ensures HasChild(c) ==> r.0.pid.None? && r.1 == c.pid
    ensures !HasChild(c) ==> r.0.pid == c.pid && r.1.None?
    ensures r.0.endpoint == c.endpoint && r.0.hbInterval == c.hbInterval && r.0.key == c.key
  {
    var c1 := if c.socket.Open? then c.(socket := WsClient.NoSocket) else c;
    if HasChild(c) then (c1.(pid := None), c.pid) else (c1, None)
  }

  /** A second `close` changes nothing and signals no process. */
  lemma CloseTwice(c: Client)
    ensures Close(Close(c).0) == (Close(c).0, None)
  {
  }

  /**
   * After a failed fork the stored id is -1, which PHP finds truthy, so a
   * later `close` sends SIGTERM to process -1: every process the caller may
   * signal.
   */
  lemma FailedForkCloseSignalsAll(c: Client, interval: int)
    ensures StartHeartbeat(c, interval, -1).1 == Err(ForkFailed)
    ensures Close(StartHeartbeat(c, interval, -1).0).1 == Some(-1)
  {
  }

  /**
   * With the guarded start, `close` signals exactly the child a successful
   * fork reported to the parent, and nothing after a failed fork or in the
   * child itself.
   */
  lemma GuardedCloseSignalsOnlyChild(c: Client, interval: int, forkResult: int)
    ensures Close(StartHeartbeatGuarded(c, interval, forkResult).0).1 ==
      if forkResult != -1 && forkResult != 0 then Some(forkResult) else None
  {
  }
}
